=== FILE: README.md ===
# RecycleTable in Dafny

A model of the core logic of the RecycleTable Bukkit plugin. The plugin's
"recycling table" is a crafting table with a 54-slot window:

- the player puts items into the left half (slots 0..26) and presses the
  Recycle button (slot 22);
- the plugin breaks every item down, through the server's recipes, into raw
  materials;
- it gives each unit a processing time derived from a complexity score;
- when that time has passed it deposits the raw materials, scaled by the
  item's remaining durability, into the right half (slots 27..53), together
  with enchanted books for the enchantments it returns.

Around that chain sit an overflow list per player, usage analytics, hopper
rules, the table item, and two registries.

The model is functional. Item stacks are immutable values:
`Items.Stack(mat, amount, meta)`. A window is a `seq<Option<Stack>>` of 54
slots. Each piece of state (a session, the overflow store, the analytics
counters, the table and session registries) is a record that pure functions
advance one step at a time. Java `double`s are reals. `Math.round` is
`Floor(x + 1/2)`, `Math.ceil` is the least integer above, and Java's
truncating `int / 2` is `JavaMath.Half`.

Modules:

- `Recipes` holds the recipe index and decomposition. `Raw` is a cache-free
  reference. `Decompose` threads the per-material cache the way the source
  does, and a lemma proves the two agree.
- `Complexity` holds the score tables, the score, and the score-to-seconds
  map.
- `Compatibility` holds the durability factor and the fallback table of
  maximum durabilities.
- `Enchants` holds the enchantment-return rule and the books.
- `Processing` holds one completed job: aggregation, the one-unit fallback,
  first-fit deposit, and book placement.
- `Session` holds the job queue, `startTask`, the timer body, `resumeTask`
  and `finish`.
- `Gui` and `Clicks` hold the slot layout, input collection, and the Recycle
  click.
- `Overflow` holds `mergeIntoList`, replay into the output slots, and the
  per-owner store.
- `Analytics` holds the usage counts, the incremental mean, the penalty and
  bonus, and decay.
- `Hopper`, `TableItem`, `Persistence` and `Registry` cover the remaining
  rules.

Decomposition terminates only because of a precondition,
`Recipes.Ranked(book, rank)`. The precondition asks for a rank that strictly
decreases along every ingredient edge the recursion follows. The source
guards only against a material listing itself as an ingredient. An indirect
cycle A → B → A therefore recurses without bound, and
`Recipes.IndirectCycleUnranked` shows that such a book has no rank.

The durability probes are inputs: the damage values, the anvil stage, and
the maximum durability the server reports. So are the server's recipe lists
per material, each enchantment's maximum level, the maximum stack size per
material, the configuration values (`Processing.Env`, `Hopper.HopperConfig`,
`Analytics.Analytics.enabled`), and the random draw of the fallback.

The complexity score is the weighted rarity/difficulty sum of the
decomposition, mapped linearly and rounded. `Complexity.PickaxeExample`
works one case through: for an item whose index entry is 3 iron ingots and
2 sticks, the raw score is 35, the score 29 and the job takes 1228 seconds.
That entry is hypothetical. The indexer reads a shaped recipe through
`getIngredientMap().values()`, which has one entry per key character of
the shape and not one per grid cell, so the server's own pickaxe recipe
would give one iron ingot and one stick.

## Model

| member | source | states |
|---|---|---|
| Recipes.RecipeInputs | src/main/java/me/mizfit/recycletable/RecipeManager.java:55-67 | a shaped recipe gives as many inputs as its map has non-null values, each one of them; a shapeless recipe gives its list; a furnace or modern furnace gives its input when present; any other recipe gives nothing |
| Recipes.Present | src/main/java/me/mizfit/recycletable/RecipeManager.java:57 | the null entries of a shaped recipe's map are skipped; as many entries are kept as are non-null, and every kept entry comes from the map |
| Recipes.PresentAppend | src/main/java/me/mizfit/recycletable/RecipeManager.java:57 | the non-null entries are kept in map order: the entries of two parts read one after the other are those of the first followed by those of the second |
| Recipes.ShapedInputsInOrder | src/main/java/me/mizfit/recycletable/RecipeManager.java:55-57 | a shaped recipe's inputs are its map's non-null values in map order: a non-null entry gives itself, a null entry nothing, and concatenated parts concatenate |
| Recipes.LoadBlacklist | src/main/java/me/mizfit/recycletable/RecipeManager.java:25-35 | the blacklist only grows; every configured name that upper-cases to a known material is added; nothing else is added |
| Recipes.Upper | src/main/java/me/mizfit/recycletable/RecipeManager.java:29 | each character `a`..`z` of a configured name becomes `A`..`Z` and every other character is kept, so the length is kept (the ASCII part of Java's mapping) |
| Recipes.GenerateAllRecipes | src/main/java/me/mizfit/recycletable/RecipeManager.java:38-81 | exactly the non-AIR, non-blacklisted materials are indexed; each entry is non-empty with result amount 1; it is all found recipes' inputs concatenated, or one unit of the material itself when none were found |
| Recipes.IsBlacklisted | src/main/java/me/mizfit/recycletable/RecipeManager.java:99-101 | membership in the blacklist; `GetRecipeFor` and `TerminalCases` state what it excludes |
| Recipes.GetRecipeFor | src/main/java/me/mizfit/recycletable/RecipeManager.java:104-107 | an entry is returned iff the material is indexed and not blacklisted, and it is the indexed entry |
| Recipes.Scale | src/main/java/me/mizfit/recycletable/RecipeManager.java:137-141 | every sub-result stack keeps its position and has its amount multiplied by the ingredient amount |
| Recipes.DecomposeToRaw | src/main/java/me/mizfit/recycletable/RecipeManager.java:110-111 | a null item decomposes to the empty list and leaves the cache alone; the cache only ever gains entries |
| Recipes.Decompose | src/main/java/me/mizfit/recycletable/RecipeManager.java:110-149 | a cache hit returns the stored list and leaves the cache as it was; after decomposing any non-AIR, non-blacklisted item, the cache holds exactly the returned list for its material |
| Recipes.ExpandCached | src/main/java/me/mizfit/recycletable/RecipeManager.java:126-145 | the ingredient walk never removes or alters a cache entry |
| Recipes.DecomposeAgrees | src/main/java/me/mizfit/recycletable/RecipeManager.java:110-149 | with a consistent cache, the cached decomposition equals the cache-free reference, and the cache stays consistent |
| Recipes.ExpandAgrees | src/main/java/me/mizfit/recycletable/RecipeManager.java:126-147 | the cached ingredient walk equals the reference walk and keeps the cache consistent |
| Recipes.IndexedBookAgrees | src/main/java/me/mizfit/recycletable/RecipeManager.java:38-81 | over the index the plugin builds, decomposition with a consistent cache equals the reference for every material |
| Recipes.TerminalCases | src/main/java/me/mizfit/recycletable/RecipeManager.java:111-123 | AIR gives the empty list; a blacklisted item gives one copy of itself and leaves the cache untouched; an item with no index entry gives itself and is cached as such |
| Recipes.RawYieldsStops | src/main/java/me/mizfit/recycletable/RecipeManager.java:126-145 | every stack in a decomposition is of a material where the recursion stops: blacklisted, unindexed, or listing itself among its ingredients |
| Recipes.ExpandYieldsStops | src/main/java/me/mizfit/recycletable/RecipeManager.java:126-145 | the same for every suffix of an ingredient walk |
| Recipes.RawPositive | src/main/java/me/mizfit/recycletable/RecipeManager.java:139 | when all recipe amounts and the input amount are positive, every output amount is positive |
| Recipes.ExpandPositive | src/main/java/me/mizfit/recycletable/RecipeManager.java:139 | the same for the ingredient walk |
| Recipes.RawDependsOnMaterialOnly | src/main/java/me/mizfit/recycletable/RecipeManager.java:119-148 | for an indexed material, the result does not depend on the input amount, so a cache hit equals a fresh computation |
| Recipes.SelfRecipeYieldsUnit | src/main/java/me/mizfit/recycletable/RecipeManager.java:72-75 | a material whose entry is one unit of itself decomposes to exactly that unit |
| Recipes.ShallowRecipeYieldsIngredients | src/main/java/me/mizfit/recycletable/RecipeManager.java:129-144 | when no ingredient is followed, they are emitted as-is, in order |
| Recipes.IndirectCycleUnranked | src/main/java/me/mizfit/recycletable/RecipeManager.java:135-136 | two distinct indexed materials that each use the other have no rank, so the recursion has no bound |
| Complexity.SetScore | src/main/java/me/mizfit/recycletable/ComplexityCalculator.java:25 | `set` records the rarity and, only when none is recorded, the difficulty `max(1, v/2)`; a recorded difficulty and every other material's entries keep their values |
| Complexity.PutDifficulty | src/main/java/me/mizfit/recycletable/ComplexityCalculator.java:20-22 | a put records the difficulty, adds exactly that key, and leaves the rarities and every other difficulty alone |
| Complexity.SetAndPutOrder | src/main/java/me/mizfit/recycletable/ComplexityCalculator.java:15-25 | a put after `set` overrides the default; a `set` after a put keeps the put value; a first `set` gives `max(1, v/2)` |
| Complexity.StaticEntries | src/main/java/me/mizfit/recycletable/ComplexityCalculator.java:15-23 | difficulties NETHERITE_INGOT 15 and GOLD_INGOT 5 come from the puts; LEATHER 3, EMERALD 9 and COBBLESTONE 1 come from the `set` default |
| Complexity.StaticTablesPositive | src/main/java/me/mizfit/recycletable/ComplexityCalculator.java:15-25 | every rarity and difficulty in the static tables is at least 1 |
| Complexity.ScoreOfRaw | src/main/java/me/mizfit/recycletable/ComplexityCalculator.java:38-41 | the mapped, rounded and clamped score lies in [1,250] |
| Complexity.CalculateComplexity | src/main/java/me/mizfit/recycletable/ComplexityCalculator.java:27-42 | the complexity lies in [1,250]; an empty decomposition gives 1 |
| Complexity.UnknownMaterialWeight | src/main/java/me/mizfit/recycletable/ComplexityCalculator.java:32-35 | a material in neither table weighs rarity 3 and difficulty 1 per unit, with `max(1, amount)` units |
| Complexity.RawScoreAppend | src/main/java/me/mizfit/recycletable/ComplexityCalculator.java:30-37 | the raw score is additive over concatenated decompositions |
| Complexity.RawScoreLowerBound | src/main/java/me/mizfit/recycletable/ComplexityCalculator.java:32-35 | with all table entries at least 1, each stack adds at least 1.5 to the raw score |
| Complexity.EmptyScoresOne | src/main/java/me/mizfit/recycletable/ComplexityCalculator.java:37-40 | raw score 0 maps to score 1 |
| Complexity.ScoreMonotone | src/main/java/me/mizfit/recycletable/ComplexityCalculator.java:38-40 | the score never decreases as the raw score grows |
| Complexity.MapScoreToSeconds | src/main/java/me/mizfit/recycletable/ComplexityCalculator.java:44-48 | the seconds are the integer nearest to `15 + (score - 1) * 10785 / 249`, halves rounding up, for every score |
| Complexity.RawScore | src/main/java/me/mizfit/recycletable/ComplexityCalculator.java:30-37 | the sum of the stack scores in decomposition order; its properties are `RawScoreAppend` and `RawScoreLowerBound` |
| Complexity.StackScore | src/main/java/me/mizfit/recycletable/ComplexityCalculator.java:32-35 | rarity times `max(1, amount)` plus half the difficulty times it, with the table defaults; pinned by `UnknownMaterialWeight` and `PickaxeWeights` |
| Complexity.SecondsEndPoints | src/main/java/me/mizfit/recycletable/ComplexityCalculator.java:44-48 | score 1 takes 15 seconds and score 250 takes 10800 |
| Complexity.SecondsMonotone | src/main/java/me/mizfit/recycletable/ComplexityCalculator.java:46-47 | the duration never decreases as the score grows |
| Complexity.SecondsInRange | src/main/java/me/mizfit/recycletable/ComplexityCalculator.java:45-47 | scores in [1,250] take between 15 and 10800 seconds |
| Complexity.SecondsNotClamped | src/main/java/me/mizfit/recycletable/ComplexityCalculator.java:45-47 | out-of-range scores are not clamped: 0 gives -28 seconds and 251 gives 10843 |
| Complexity.PickaxeWeights | src/main/java/me/mizfit/recycletable/ComplexityCalculator.java:16-22 | 3 iron ingots weigh 30 and 2 sticks weigh 5 under the static tables |
| Complexity.ScoreOf35 | src/main/java/me/mizfit/recycletable/ComplexityCalculator.java:38-47 | raw score 35 gives score 29, which takes 1228 seconds |
| Complexity.PickaxeExample | src/main/java/me/mizfit/recycletable/ComplexityCalculator.java:27-48 | a pickaxe made of 3 iron ingots and 2 sticks decomposes to them and takes 1228 seconds |
| Compatibility.FallbackDurability | src/main/java/me/mizfit/recycletable/CompatibilityUtils.java:105-125 | the fallback table is never negative and is positive exactly for the listed tools |
| Compatibility.GetMaxDurability | src/main/java/me/mizfit/recycletable/CompatibilityUtils.java:101-127 | the reported maximum (never below 0) wins; otherwise the fallback table is used |
| Compatibility.GetDurabilityFactor | src/main/java/me/mizfit/recycletable/CompatibilityUtils.java:23-72 | the factor lies in [0,1]; a null item has factor 1.0 |
| Compatibility.DamagedFactor | src/main/java/me/mizfit/recycletable/CompatibilityUtils.java:30-37 | with damage d the factor times max is `max(0, max - max(0, d))`; no damage gives 1.0 and damage at or above max gives 0.0 |
| Compatibility.FractionInUnit | src/main/java/me/mizfit/recycletable/CompatibilityUtils.java:34-36 | the remaining fraction lies in [0,1] and times max gives the remaining durability |
| Compatibility.FactorAntitoneInDamage | src/main/java/me/mizfit/recycletable/CompatibilityUtils.java:30-37 | more damage never gives a larger factor |
| Compatibility.LegacyDamagedFactor | src/main/java/me/mizfit/recycletable/CompatibilityUtils.java:39-43 | the legacy durability value gives 1.0 undamaged and 0.0 at or above max |
| Compatibility.AnvilFactor | src/main/java/me/mizfit/recycletable/CompatibilityUtils.java:47-68 | anvil stage 0 or below gives 1.0, stage 1 gives 0.5, and stage 2 or above gives 0.0 |
| Compatibility.AnvilWithoutStage | src/main/java/me/mizfit/recycletable/CompatibilityUtils.java:47-68 | an anvil whose stage cannot be read counts as undamaged |
| Compatibility.NonDurableFactor | src/main/java/me/mizfit/recycletable/CompatibilityUtils.java:71 | an item that is neither durable nor an anvil has factor 1.0 |
| Compatibility.FallbackLowTiers | src/main/java/me/mizfit/recycletable/CompatibilityUtils.java:105-125 | wooden, stone and iron tools fall back to 59, 131 and 250 |
| Compatibility.FallbackHighTiers | src/main/java/me/mizfit/recycletable/CompatibilityUtils.java:105-125 | diamond, golden and netherite tools fall back to 1561, 32 and 2031 |
| Enchants.ReturnedEnchantments | src/main/java/me/mizfit/recycletable/EnchantUtils.java:12-32 | the returned keys are among the item's enchantments and every returned level is at least 1; an item without enchantments returns nothing |
| Enchants.ReturnRule | src/main/java/me/mizfit/recycletable/EnchantUtils.java:19-30 | a max-level-1 enchantment is returned at level 1 iff single-level return is on; a multi-level one at level L is returned at L-1 iff L > 1 and multi-level return is on |
| Enchants.NothingReturned | src/main/java/me/mizfit/recycletable/EnchantUtils.java:14-16 | a null item, one without metadata, or one without enchantments gives the empty map |
| Enchants.LevelOneMultiNotReturned | src/main/java/me/mizfit/recycletable/EnchantUtils.java:27-29 | a multi-level enchantment at level 1 is never returned |
| Enchants.GenerateEnchantmentBooks | src/main/java/me/mizfit/recycletable/EnchantUtils.java:34-44 | exactly one book per entry, each entry once, each book storing that enchantment at that level |
| Enchants.BookContents | src/main/java/me/mizfit/recycletable/EnchantUtils.java:37-41 | a book is one enchanted book that stores only the given enchantment and carries no ordinary enchantment |
| Processing.FlooredOf | src/main/java/me/mizfit/recycletable/RecycleSession.java:97-101 | the floored, scaled total of a material is never negative |
| Processing.Aggregate | src/main/java/me/mizfit/recycletable/RecycleSession.java:95-102 | only decomposed materials appear, each with a positive amount |
| Processing.AggregateMatches | src/main/java/me/mizfit/recycletable/RecycleSession.java:97-102 | a material is aggregated iff its floored total is positive, and then with that total |
| Processing.FlooredAtMostAmount | src/main/java/me/mizfit/recycletable/RecycleSession.java:98-100 | with a factor in [0,1], no material gets more than its decomposed total |
| Processing.FullDurabilityKeepsAll | src/main/java/me/mizfit/recycletable/RecycleSession.java:98-100 | with factor 1 every material gets its whole decomposed total |
| Processing.Outputs | src/main/java/me/mizfit/recycletable/RecycleSession.java:95-114 | the aggregate when non-empty; otherwise, for a non-empty decomposition, exactly one unit of one decomposed material; nothing for an empty decomposition |
| Processing.FillSlot | src/main/java/me/mizfit/recycletable/RecycleSession.java:119-131 | one slot takes `min(remaining, room)`; a changed slot was empty or held less than a full stack of the material, and now holds it within its max stack |
| Processing.FillSlotCounts | src/main/java/me/mizfit/recycletable/RecycleSession.java:119-131 | what a slot takes is added to its count of the material, and a slot that leaves a remainder is full |
| Processing.RoomIn | src/main/java/me/mizfit/recycletable/RecycleSession.java:121-127 | the room of a slot is never negative and is zero exactly when the slot is full or holds another material |
| Processing.DepositFrom | src/main/java/me/mizfit/recycletable/RecycleSession.java:117-132 | depositing one material keeps the window at 54 slots |
| Processing.DepositFrame | src/main/java/me/mizfit/recycletable/RecycleSession.java:119-131 | depositing changes only output slots that were empty or held less than a full stack of the same material, and leaves them holding it within the max stack |
| Processing.DepositPlacesMin | src/main/java/me/mizfit/recycletable/RecycleSession.java:117-132 | the placed amount is `min(requested, room of the output slots)` |
| Processing.DepositConserves | src/main/java/me/mizfit/recycletable/RecycleSession.java:117-132 | the material's count in the window grows by the requested amount minus the leftover |
| Processing.DepositFull | src/main/java/me/mizfit/recycletable/RecycleSession.java:119-133 | a positive leftover means every output slot is full or holds another material |
| Processing.Room | src/main/java/me/mizfit/recycletable/RecycleSession.java:119-131 | the room of the output slots is never negative |
| Processing.DepositAll | src/main/java/me/mizfit/recycletable/RecycleSession.java:117-140 | only output slots change, each to an output material; for every material, the window's gain plus what is handed to the player equals the output quantity; every hand-over is a positive amount of an output material, made only once every output slot is full for that material; every changed slot holds at most its material's max stack, and every output slot before it is full for that material (first fit over 27..53) |
| Processing.SpillStep | src/main/java/me/mizfit/recycletable/RecycleSession.java:117-140 | one pass of the deposit loop hands its material over only when every output slot is full for it, and keeps the slots full for the materials handed over before |
| Processing.AllFullKept | src/main/java/me/mizfit/recycletable/RecycleSession.java:119-130 | depositing another material keeps every output slot full for a material: a full slot is occupied and is only topped up with its own material |
| Processing.DepositFirstFit | src/main/java/me/mizfit/recycletable/RecycleSession.java:119-131 | the one-material loop is first fit: every output slot before a slot it changed is full for the material |
| Processing.FullKept | src/main/java/me/mizfit/recycletable/RecycleSession.java:119-130 | any deposit keeps a range of slots full for a material, since it only touches empty slots and slots below a full stack of its own material |
| Processing.FirstFitStep | src/main/java/me/mizfit/recycletable/RecycleSession.java:117-131 | one material's deposit keeps the window first fit and within the stack limits, for the materials deposited before it too |
| Processing.FirstEmptyOutput | src/main/java/me/mizfit/recycletable/RecycleSession.java:148-151 | the first empty output slot from a position, and no result iff none is empty |
| Processing.PlaceBook | src/main/java/me/mizfit/recycletable/RecycleSession.java:146-151 | a book is placed iff some output slot is empty, and then only into the first empty one; it is never merged |
| Processing.PlaceBooks | src/main/java/me/mizfit/recycletable/RecycleSession.java:146-159 | books go only into empty output slots; the first books fill the empty output slots one each and exactly the remaining books go to the player; every book ends up in the window or with the player; every slot a book went into has only occupied output slots before it |
| Processing.PlaceBookFirst | src/main/java/me/mizfit/recycletable/RecycleSession.java:145-150 | a book goes into the first empty output slot, so every slot a book went into has only occupied output slots before it |
| Processing.ReturnBooks | src/main/java/me/mizfit/recycletable/RecycleSession.java:143-160 | no books unless enchantment return is on and the item is enchanted; then exactly one single enchanted book per returned enchantment, placed first-empty-slot or handed over, and every book is accounted for; a book is handed over only when no output slot is left empty; each book went into the first empty output slot |
| Processing.JobConserves | src/main/java/me/mizfit/recycletable/RecycleSession.java:117-160 | deposit and book placement together neither lose nor invent items: the window and the player receive exactly the outputs and the books (for an online owner, see "## Left out") |
| Processing.BooksOverflowFull | src/main/java/me/mizfit/recycletable/RecycleSession.java:146-157 | books are handed over only once they outnumber the empty output slots, and then no output slot is left empty |
| Processing.HandOverNoRoom | src/main/java/me/mizfit/recycletable/RecycleSession.java:131-158 | a leftover material found every output slot full, so no book changed the window after it; a book is handed over only when no output slot is empty |
| Processing.EmptyFromFirst | src/main/java/me/mizfit/recycletable/RecycleSession.java:148-151 | a first empty output slot exists iff some output slot is empty, and filling it leaves one empty slot fewer |
| Processing.ProcessSingleItem | src/main/java/me/mizfit/recycletable/RecycleSession.java:92-164 | the outputs are those of the item's decomposition and durability; for every material the window's gain plus the hand-over equals the output quantity plus one per returned book; exactly one book per returned enchantment; the books that find no empty output slot follow the leftover materials to the player; a leftover material found every output slot full for it, and nothing is handed over while the final window had room for it; the materials fill the window first fit within their stack limits, and in the final window no output slot before a changed slot could take its stack |
| Processing.JobFirstFit | src/main/java/me/mizfit/recycletable/RecycleSession.java:117-160 | the books only fill empty slots, so the first-fit placement of the materials survives them, and together with the first-empty placement of the books every changed slot is within its limit with no room for its stack before it |
| Session.SerializeItems | src/main/java/me/mizfit/recycletable/RecycleSession.java:46 | the saved items are the queue, whose properties `SavedItems` states |
| Session.SavedItems | src/main/java/me/mizfit/recycletable/RecycleSession.java:46-66 | a new session saves its inputs as unit jobs; starting a job removes it from what is saved and gives it to the new timer |
| Session.Copies | src/main/java/me/mizfit/recycletable/RecycleSession.java:28-33 | one input gives `max(1, amount)` copies, each the input with amount 1 |
| Session.Explode | src/main/java/me/mizfit/recycletable/RecycleSession.java:27-34 | all inputs give as many unit jobs as their units, each of amount 1 |
| Session.ExplodeAppend | src/main/java/me/mizfit/recycletable/RecycleSession.java:27-34 | explosion preserves input order: exploding a concatenation concatenates the explosions |
| Session.ExplodeOne | src/main/java/me/mizfit/recycletable/RecycleSession.java:28-33 | one input gives `max(1, amount)` copies similar to it, each of amount 1 |
| Session.NewSession | src/main/java/me/mizfit/recycletable/RecycleSession.java:25-36 | a new session belongs to its owner and window, queues the inputs' unit jobs in input order, and starts inactive with no time left, complexity 1, progress 0 and no timers |
| Session.Finish | src/main/java/me/mizfit/recycletable/RecycleSession.java:166-172 | finishing makes the session inactive with no time left and progress 1.0, and changes nothing else |
| Session.StartTask | src/main/java/me/mizfit/recycletable/RecycleSession.java:55-71 | an empty queue finishes; otherwise the head job leaves the queue, its complexity is its score clamped to [1,250], and a timer for it starts with `ceil(mapScoreToSeconds(complexity) / speed)` seconds and budget `20 * seconds`, the session active with progress 0 |
| Session.Start | src/main/java/me/mizfit/recycletable/RecycleSession.java:48 | starting an empty session finishes it; otherwise it becomes active with the head job polled |
| Session.StartEmptyFinishes | src/main/java/me/mizfit/recycletable/RecycleSession.java:56-59 | a session with no inputs ends inactive, with no time left, progress 1.0 and no timer |
| Session.Resume | src/main/java/me/mizfit/recycletable/RecycleSession.java:50-53 | a no-op unless the session is active with time left; otherwise it polls the next job |
| Session.ResumeStartsSecondTimer | src/main/java/me/mizfit/recycletable/RecycleSession.java:50-53 | resuming while a timer runs starts a second timer beside it |
| Session.TimerRun | src/main/java/me/mizfit/recycletable/RecycleSession.java:76-88 | the job completes iff `remaining <= 0`; otherwise the budget drops by exactly 20 and progress lies in [0,1] |
| Session.CountDown | src/main/java/me/mizfit/recycletable/RecycleSession.java:85-86 | n runs within the budget lower it by exactly `20 * n` |
| Session.CompletesAfterSeconds | src/main/java/me/mizfit/recycletable/RecycleSession.java:70-88 | a timer of `seconds` seconds reaches 0 after exactly `seconds` runs and completes on the next |
| Session.CompletesAtOnce | src/main/java/me/mizfit/recycletable/RecycleSession.java:77 | a budget of 0 or less completes on the first run |
| Session.ProgressOfRun | src/main/java/me/mizfit/recycletable/RecycleSession.java:85-87 | the n-th run sets progress `n / seconds` |
| Session.ProgressMonotone | src/main/java/me/mizfit/recycletable/RecycleSession.java:87 | progress never decreases from one run to the next |
| Session.SecondsPositive | src/main/java/me/mizfit/recycletable/RecycleSession.java:64-68 | with a positive speed, a clamped complexity takes at least one second; at speed 1 it takes `mapScoreToSeconds` |
| Session.JobDuration | src/main/java/me/mizfit/recycletable/RecycleSession.java:66-88 | at a positive speed a started job's timer has at least one second, ticks exactly that many times and completes on the next run; at speed 1 the seconds are `mapScoreToSeconds` of the complexity |
| Session.Without | src/main/java/me/mizfit/recycletable/RecycleSession.java:79 | a cancelled timer is removed and the others keep their order |
| Session.Advance | src/main/java/me/mizfit/recycletable/RecycleSession.java:85-87 | a run with budget left lowers that timer by 20, records the time left, and leaves queue, window and other timers alone |
| Session.Complete | src/main/java/me/mizfit/recycletable/RecycleSession.java:78-82 | completion installs the new window; it starts the next job when one is queued and finishes otherwise |
| Session.OutputsOnly | src/main/java/me/mizfit/recycletable/RecycleSession.java:117-160 | deposit followed by book placement changes no slot outside the output area |
| Session.RunTimer | src/main/java/me/mizfit/recycletable/RecycleSession.java:73-89 | a run with budget left only advances the timer; a completing run polls the next job or drops the timer, leaves the input slots alone, and puts into the window or hands to the player exactly what the job yields, handing over nothing while the window has room for it; every slot the job changed holds at most its material's max stack, with no output slot before it that could take its stack |
| Gui.RecycleButton | src/main/java/me/mizfit/recycletable/TableListener.java:35 | the button is one anvil, so it occupies its slot |
| Gui.ButtonWindow | src/main/java/me/mizfit/recycletable/TableListener.java:34-35 | the window opened from the item is empty except for the button in slot 22 |
| Gui.SlotPartition | src/main/java/me/mizfit/recycletable/TableListener.java:23-24 | input and output slots are disjoint and together are exactly 0..53 |
| Gui.IsInputSlot | src/main/java/me/mizfit/recycletable/TableListener.java:96 | slots 0..26; with `IsOutputSlot` a partition of the window by `SlotPartition` |
| Gui.IsOutputSlot | src/main/java/me/mizfit/recycletable/TableListener.java:97 | slots 27..53; disjoint from the input slots by `SlotPartition` |
| Gui.IsControlSlot | src/main/java/me/mizfit/recycletable/TableListener.java:98 | slot 22 only, which `ControlSlotIsInput` places among the input slots |
| Gui.IsTableInventory | src/main/java/me/mizfit/recycletable/TableListener.java:89-93 | an inventory with at least one viewer whose open title is the table title; its use is stated by `ClassifyClick`, `CancelMove` and `CancelPickup` |
| Gui.ControlSlotIsInput | src/main/java/me/mizfit/recycletable/TableListener.java:25 | the control slot 22 is an input slot and not an output slot |
| Gui.ClassifyClick | src/main/java/me/mizfit/recycletable/TableListener.java:51-60 | a click is the Recycle click iff it is in the table window on slot 22; raw slots outside 0..53 are ignored |
| Gui.Occupied | src/main/java/me/mizfit/recycletable/TableListener.java:67-69 | collection keeps only non-AIR items and never more than the slots |
| Gui.OccupiedContains | src/main/java/me/mizfit/recycletable/TableListener.java:67-72 | every occupied input slot's item is collected |
| Gui.OccupiedEmpty | src/main/java/me/mizfit/recycletable/TableListener.java:66-77 | nothing is collected iff every input slot is empty |
| Gui.ButtonIsCollected | src/main/java/me/mizfit/recycletable/TableListener.java:66-73 | the Recycle button in slot 22 is itself collected as an input |
| Gui.CollectInputs | src/main/java/me/mizfit/recycletable/TableListener.java:66-73 | the occupied items of slots 0..26 are returned in slot order; exactly those slots are cleared; the other slots are untouched |
| Clicks.OnInventoryClick | src/main/java/me/mizfit/recycletable/TableListener.java:51-87 | other clicks change nothing; the Recycle click is cancelled and clears the inputs; with no inputs no session is registered; otherwise the owner's new, started session is registered |
| Hopper.CancelMove | src/main/java/me/mizfit/recycletable/HopperListener.java:13-30 | a move out of a table is cancelled iff output is disallowed; a move into a table is cancelled iff input is disallowed; a move between other inventories is never cancelled |
| Hopper.CancelPickup | src/main/java/me/mizfit/recycletable/HopperListener.java:33-40 | a pickup is cancelled iff it goes into a table and the material has an entry and is not blacklisted |
| Hopper.OutOfTableIgnoresDestination | src/main/java/me/mizfit/recycletable/HopperListener.java:18-25 | a move out of a table is decided without looking at the destination |
| Hopper.BothAllowedNeverCancels | src/main/java/me/mizfit/recycletable/HopperListener.java:13-30 | with both directions allowed no move is cancelled |
| Hopper.BlacklistedAlwaysPicked | src/main/java/me/mizfit/recycletable/HopperListener.java:36-38 | a blacklisted material is never refused |
| Hopper.PickupOfIndexedBook | src/main/java/me/mizfit/recycletable/HopperListener.java:36-38 | over the built index a pickup into a table is cancelled iff the material is a non-AIR, non-blacklisted material of the universe |
| TableItem.IsRecyclingTable | src/main/java/me/mizfit/recycletable/RecyclingTableItem.java:27-33 | a crafting table whose display name is exactly the table name; `RecognitionRule` states each case |
| TableItem.CreateItem | src/main/java/me/mizfit/recycletable/RecyclingTableItem.java:13-25 | one crafting table with the four lore lines and no enchantments, which is recognised as a recycling table |
| TableItem.GiveTo | src/main/java/me/mizfit/recycletable/RecyclingTableItem.java:35-39 | the given item has the requested amount, is otherwise the created item, and is recognised |
| TableItem.RecognitionRule | src/main/java/me/mizfit/recycletable/RecyclingTableItem.java:27-33 | null, another type, missing metadata and a missing name each fail; recognition is type and exact display name |
| TableItem.RecognitionIgnoresRest | src/main/java/me/mizfit/recycletable/RecyclingTableItem.java:32 | amount, lore and enchantments do not affect recognition |
| TableItem.RecognisedLooksCreated | src/main/java/me/mizfit/recycletable/RecyclingTableItem.java:27-33 | a recognised item differs from the created one only in amount, lore and enchantments |
| Persistence.NatText | src/main/java/me/mizfit/recycletable/TablePersistence.java:31 | a block coordinate's decimal text is non-empty and all digits |
| Persistence.IntText | src/main/java/me/mizfit/recycletable/TablePersistence.java:31 | a signed coordinate's text is non-empty and has no colon |
| Persistence.NatTextRoundTrip | src/main/java/me/mizfit/recycletable/TablePersistence.java:31 | reading back the decimal text gives the number |
| Persistence.IntTextRoundTrip | src/main/java/me/mizfit/recycletable/TablePersistence.java:31 | reading back a signed coordinate gives the coordinate |
| Persistence.KeyFor | src/main/java/me/mizfit/recycletable/TablePersistence.java:27-32 | the key fails exactly for a null location or a null world |
| Persistence.KeyRoundTrip | src/main/java/me/mizfit/recycletable/TablePersistence.java:27-32 | `world:x:y:z` parses back to the location (splitting at the last three colons) |
| Persistence.KeyInjective | src/main/java/me/mizfit/recycletable/TablePersistence.java:27-32 | distinct locations have distinct keys |
| Persistence.Register | src/main/java/me/mizfit/recycletable/TablePersistence.java:49-53 | fails iff the key does; stores the inventory and the time under the key and leaves other keys alone |
| Persistence.Create | src/main/java/me/mizfit/recycletable/TablePersistence.java:38-44 | registers a fresh, empty 54-slot inventory and returns it |
| Persistence.IsTableBlock | src/main/java/me/mizfit/recycletable/TablePersistence.java:58-60 | true iff an inventory is stored under the block's key |
| Persistence.GetInventory | src/main/java/me/mizfit/recycletable/TablePersistence.java:65-67 | the stored inventory, or nothing when none is stored |
| Persistence.Unregister | src/main/java/me/mizfit/recycletable/TablePersistence.java:72-76 | removes the key from both maps and leaves other keys alone |
| Persistence.RegisterThenLookup | src/main/java/me/mizfit/recycletable/TablePersistence.java:49-67 | after registering, the block is a table and its inventory is the registered one |
| Persistence.UnregisterThenLookup | src/main/java/me/mizfit/recycletable/TablePersistence.java:58-76 | after unregistering, the block is no table and has no inventory |
| Persistence.OperationsKeepInStep | src/main/java/me/mizfit/recycletable/TablePersistence.java:38-76 | register, create and unregister keep the inventory map and the placement map on the same keys |
| Persistence.OtherBlocksUntouched | src/main/java/me/mizfit/recycletable/TablePersistence.java:38-76 | registering or unregistering one block changes nothing about another |
| Persistence.EmptyWindow | src/main/java/me/mizfit/recycletable/TablePersistence.java:40 | a new table inventory has 54 empty slots |
| Registry.RegisterSession | src/main/java/me/mizfit/recycletable/SessionManager.java:10 | the id maps to the new session and every other id keeps its session |
| Registry.GetSession | src/main/java/me/mizfit/recycletable/SessionManager.java:11 | a session is returned iff one is registered for the id, and it is that one |
| Registry.GetAllSessions | src/main/java/me/mizfit/recycletable/SessionManager.java:12 | the snapshot has the same ids and sessions |
| Registry.RegisterThenGet | src/main/java/me/mizfit/recycletable/SessionManager.java:10-11 | a lookup after registering returns that session; re-registering replaces it |
| Registry.RegisterLeavesOthers | src/main/java/me/mizfit/recycletable/SessionManager.java:9-11 | registering one id does not change the lookup of another |
| Registry.SnapshotIsDetached | src/main/java/me/mizfit/recycletable/SessionManager.java:12 | a later registration does not change a snapshot taken before it |
| Overflow.MergeIntoList | src/main/java/me/mizfit/recycletable/OverflowStorage.java:41-51 | the total grows by exactly the added amount; non-similar entries are untouched; topped-up entries stay within the max stack; the list grows by at most one entry, similar to the added item |
| Overflow.ListRoom | src/main/java/me/mizfit/recycletable/OverflowStorage.java:43-46 | the room left in similar entries is never negative |
| Overflow.MergeTotal | src/main/java/me/mizfit/recycletable/OverflowStorage.java:41-51 | merging conserves the total amount |
| Overflow.MergeShape | src/main/java/me/mizfit/recycletable/OverflowStorage.java:43-50 | entries keep their position and similarity; earlier and non-similar entries are unchanged; at most one entry is appended, at the end |
| Overflow.MergeBound | src/main/java/me/mizfit/recycletable/OverflowStorage.java:44-45 | no existing entry is raised above the max stack |
| Overflow.MergeAppendsRemainder | src/main/java/me/mizfit/recycletable/OverflowStorage.java:43-50 | the list grows iff the amount exceeds the room in similar entries, and the appended entry holds exactly the excess |
| Overflow.PlaceFrom | src/main/java/me/mizfit/recycletable/OverflowStorage.java:94-111 | placing one entry keeps the window at 54 slots |
| Overflow.PlaceRestSimilar | src/main/java/me/mizfit/recycletable/OverflowStorage.java:94-111 | what is left of an entry stays similar to it |
| Overflow.PlaceFrame | src/main/java/me/mizfit/recycletable/OverflowStorage.java:94-111 | placing only changes output slots |
| Overflow.NotPlacedMeansNoEmptySlot | src/main/java/me/mizfit/recycletable/OverflowStorage.java:94-113 | an entry that does not fully fit leaves no empty output slot behind it |
| Overflow.PlaceConserves | src/main/java/me/mizfit/recycletable/OverflowStorage.java:94-111 | placing conserves the amount held in slots plus the amount left |
| Overflow.Replay | src/main/java/me/mizfit/recycletable/OverflowStorage.java:89-114 | entries are replayed in FIFO order; the remaining list is the reduced first unplaced entry followed by the untouched later entries |
| Overflow.ReplayConserves | src/main/java/me/mizfit/recycletable/OverflowStorage.java:89-114 | replay conserves the total across the slots and the remaining list |
| Overflow.ReplayFrame | src/main/java/me/mizfit/recycletable/OverflowStorage.java:94-111 | replay changes only output slots |
| Overflow.GetItems | src/main/java/me/mizfit/recycletable/OverflowStorage.java:133-135 | an absent owner has no items; otherwise the owner's list |
| Overflow.AddItem | src/main/java/me/mizfit/recycletable/OverflowStorage.java:35-39 | the owner's list, created empty when absent, becomes the merge of the item into it, so `MergeIntoList`'s top-up and append rules apply; the owner's total grows by the added amount and other owners are untouched |
| Overflow.Clear | src/main/java/me/mizfit/recycletable/OverflowStorage.java:128-131 | the owner is removed and other owners are untouched |
| Overflow.TryRepopulate | src/main/java/me/mizfit/recycletable/OverflowStorage.java:79-126 | nothing happens for an owner without items; otherwise the window and the owner's list become the replay result, and other owners are untouched |
| Overflow.TryRepopulateConserves | src/main/java/me/mizfit/recycletable/OverflowStorage.java:79-126 | repopulating neither loses nor invents items: the window's items plus the owner's list are what they were, and only output slots change |
| Overflow.DrainedOwnerRemoved | src/main/java/me/mizfit/recycletable/OverflowStorage.java:116-117 | when replay empties the list the owner is removed and has no items |
| Analytics.AddSample | src/main/java/me/mizfit/recycletable/AnalyticsManager.java:203-207 | a sample raises the count by one and the weighted sum `avg * samples` by the sample |
| Analytics.FromSamples | src/main/java/me/mizfit/recycletable/AnalyticsManager.java:199-207 | stats built from samples count them |
| Analytics.MeanOfSamples | src/main/java/me/mizfit/recycletable/AnalyticsManager.java:203-207 | after n samples, `avg * n` is the sum of the samples, so the average is their arithmetic mean |
| Analytics.RecordProcessed | src/main/java/me/mizfit/recycletable/AnalyticsManager.java:71-78 | a no-op when disabled or for a null item; otherwise that material's count grows by one and the depth is added as a sample to its statistics (mean times count grows by the depth), everything else is unchanged, and counts stay non-negative |
| Analytics.RecordedStats | src/main/java/me/mizfit/recycletable/AnalyticsManager.java:71-78 | recording a material's depths one job at a time from no statistics yields exactly the statistics of those samples, whose average is their mean by `MeanOfSamples` |
| Analytics.TotalUsageRemove | src/main/java/me/mizfit/recycletable/AnalyticsManager.java:86-87 | the total usage is any one count plus the total of the rest |
| Analytics.CountAtMostTotal | src/main/java/me/mizfit/recycletable/AnalyticsManager.java:86-92 | with non-negative counts, every count lies between 0 and the total |
| Analytics.TotalNonNegative | src/main/java/me/mizfit/recycletable/AnalyticsManager.java:86-88 | non-negative counts have a non-negative total |
| Analytics.ShareInUnit | src/main/java/me/mizfit/recycletable/AnalyticsManager.java:92 | the usage share lies in [0,1] |
| Analytics.UsagePenalty | src/main/java/me/mizfit/recycletable/AnalyticsManager.java:84-96 | at most 0.5; 0 when disabled or with no usage; non-negative for non-negative counts and weight |
| Analytics.DepthBonus | src/main/java/me/mizfit/recycletable/AnalyticsManager.java:102-122 | at most 0.5; 0 when disabled, without stats or samples, or at or below the global average; non-negative for a non-negative weight; positive iff enabled, sampled, above average, with positive weight |
| Analytics.DecayCount | src/main/java/me/mizfit/recycletable/AnalyticsManager.java:160-162 | a decayed count is non-negative, a positive count strictly drops, and a count of 0 or less becomes 0 |
| Analytics.DecaySamples | src/main/java/me/mizfit/recycletable/AnalyticsManager.java:166-167 | a decayed sample count is non-negative and never larger |
| Analytics.DecayUsage | src/main/java/me/mizfit/recycletable/AnalyticsManager.java:159-163 | every material keeps its entry, decayed |
| Analytics.DecayDepth | src/main/java/me/mizfit/recycletable/AnalyticsManager.java:165-169 | every material keeps its entry and its average; only the sample count decays |
| Analytics.Decay | src/main/java/me/mizfit/recycletable/AnalyticsManager.java:155-170 | a no-op at rate 0 or below; otherwise the keys stay, counts and samples stay non-negative, positive counts strictly drop, samples never grow, and averages are unchanged |
| Analytics.DecayTimes | src/main/java/me/mizfit/recycletable/AnalyticsManager.java:155-170 | repeated decay keeps the usage keys |
| Analytics.DecayForgets | src/main/java/me/mizfit/recycletable/AnalyticsManager.java:157-163 | at a positive rate, a count of n is 0 after n decays |
| JavaMath.Round | src/main/java/me/mizfit/recycletable/ComplexityCalculator.java:39 | the rounded value is the integer within half of x, ties going up |
| JavaMath.RoundMonotone | src/main/java/me/mizfit/recycletable/ComplexityCalculator.java:39 | rounding never reverses order |
| JavaMath.Ceil | src/main/java/me/mizfit/recycletable/RecycleSession.java:66-68 | the least integer at or above x |
| JavaMath.Half | src/main/java/me/mizfit/recycletable/ComplexityCalculator.java:25 | `v/2` truncates toward zero |
| JavaMath.Clamp01 | src/main/java/me/mizfit/recycletable/CompatibilityUtils.java:96-98 | the clamped value lies in [0,1] and a value already inside is unchanged |

## Left out

- YAML persistence is file I/O and is not modelled: loading and saving
  analytics, the overflow store, the table inventories and sessions. As a
  result there is no save/load round trip; the session loader restores no
  queue anyway.
- Offline catch-up is not modelled. The plugin's main class calls session
  methods that the session class does not define.
- The source has no craft-depth estimator, no analytics-weighted blend in
  the score, and no overflow spill from a session. None of these is
  modelled.
- Recipe discovery through the server and reflection are not modelled. The
  recipes per material, damage values, anvil stage and reported maximum
  durability are inputs.
- The scheduler is not modelled: timer delays, the repopulate delay, and
  the concurrent queue and volatile flag. Each timer run is one explicit
  step, and a session keeps every timer it started.
- The `Math.random` draw of the one-unit fallback is a parameter. Any draw
  picks one decomposed material, whose probability weights are not
  modelled.
- The following are not modelled: chat messages, handing leftovers and
  books to the player's inventory, and dropping them in the world. The
  model returns what would be handed over.
- Processing.ProcessSingleItem: returns every leftover material and every
  unplaced book in `toPlayer` (RecycleSession.java:132-137 and 152-157).
  The source hands them over only when the owner is online. The timer keeps
  running after the owner logs out, and those items are then discarded. So
  `Processing.JobConserves` and `Session.RunTimer`'s completion law hold of
  the source only while the owner is online, because whether the owner is
  online is not part of the model.
- Processing.DepositAll: the "handed over only when every output slot is
  full" statement (`SpilledWhenFull`, and `NoRoomFor` in `ProcessSingleItem`
  and `Session.RunTimer`) and the "every output slot before it is full" half
  of first fit (`FirstFit`, `PlacedFirstFit`) leave AIR out; AIR slots are
  held only to the stack limit. A stack of AIR placed in a slot still counts
  as empty, so those statements fail for AIR. AIR reaches the
  outputs only as a recipe ingredient, which the server does not produce.
- The right-click handler that opens a table's window is not modelled.
  Only the button window it builds is modelled (`Gui.ButtonWindow`).
- `isRecyclingTableInventory` looks only at the first viewer's open title,
  so an inventory is modelled as the list of its viewers' titles.
- ConfigManager getters are fields of `Processing.Env`,
  `Hopper.HopperConfig` and `Enchants.EnchantConfig`.
- The speed multiplier must be non-zero (`Processing.ValidEnv`). At speed 0
  Java divides by 0.0 and gets +Infinity; `(long) Math.ceil` of it is
  `Long.MAX_VALUE`, and `* 20L` wraps to -20. So `remaining <= 0` holds on
  the first run, and every job finishes on its first tick through long
  overflow. The model does not model long overflow, so it excludes speed 0.
- `Math.sqrt` is a parameter of `Analytics.UsagePenalty`. The penalty is
  non-negative only for a non-negative square root.
- Java `int` and `long` overflow is not modelled. Neither is the `(int)`
  cast of the rounded sample shrink, which only matters beyond 2^31
  samples.
- Recipes.Upper: upper-cases only ASCII `a`..`z`. Java's
  `toUpperCase(Locale.ROOT)` also maps other letters, for example `ı` to
  `I`, `ſ` to `S`, `ß` to `SS` and `ﬂ` to `FL`, and can change the length.
  So a configured name such as "dıamond" blacklists DIAMOND in Java but not
  in the model.
- Recipes.LoadBlacklist: inherits the ASCII-only upper-casing of
  `Recipes.Upper`, so names that need Java's wider case mapping are not
  recognised.
- Doubles are exact reals, so floating-point rounding is not modelled.
- The server's restrictions on stored enchantment levels are not
  modelled.
- Object identity and aliasing are not modelled: `clone()` and `cloneList`
  are identities on values. Values cannot alias, so it follows without a
  lemma that mutating a returned list never changes the cache.
- Analytics.MeanOfSamples: the mean is stated division-free, as
  `avg * n == sum`, rather than `avg == sum / n`. The two are equivalent
  for n > 0.
- Analytics.AddSample: requires a non-negative sample count. A hand-edited
  file with a negative count is not modelled.
- The static rarity and difficulty tables are written as two literal maps
  combined by the `set`/put rule. `Complexity.SetAndPutOrder` proves that
  rule for one material. The twelve `set` calls and seven puts are not
  replayed one by one.

=== FILE: analytics.dfy ===
/** Usage and recipe-depth analytics (`AnalyticsManager`): the per-material
    usage counters, the incremental mean of observed depths, the two bounded
    signals derived from them, and the decay applied before each save. */
module Analytics {
  import opened Wrappers
  import opened Items
  import opened JavaMath

  /** The running mean of the observed depths and the number of samples. */
  datatype DepthStats = DepthStats(avg: real, samples: int)

  const NEW_STATS := DepthStats(0.0, 0)

  /** The analytics state: the `analytics.enabled` switch, the usage counts
      (Java `long`) and the depth statistics, by material. */
  datatype Analytics = Analytics(enabled: bool, usage: map<Material, int>, depth: map<Material, DepthStats>)

  /** No sample count is negative; counts restored from a hand-edited file
      are the only way to break this. */
  predicate SamplesOk(a: Analytics)
  {
    forall m :: m in a.depth ==> a.depth[m].samples >= 0
  }

  /** Every usage count is non-negative. */
  predicate CountsOk(a: Analytics)
  {
    forall m :: m in a.usage ==> a.usage[m] >= 0
  }

  function UsageOf(a: Analytics, m: Material): int
  {
    if m in a.usage then a.usage[m] else 0
  }

  /* ---------------- DepthStats.addSample ---------------- */

  /** `addSample(depth)`: one more sample, and the mean moved toward it by
      its share. The new mean times the new count is the old mean times the
      old count plus the sample. */
  function AddSample(ds: DepthStats, depth: int): (r: DepthStats)
    requires ds.samples >= 0
    ensures r.samples == ds.samples + 1
    ensures r.avg * r.samples as real == ds.avg * ds.samples as real + depth as real
  {
    var n := ds.samples + 1;
    DepthStats(ds.avg + (depth as real - ds.avg) / n as real, n)
  }

  /** Fresh statistics fed the samples `s` in order. */
  function FromSamples(s: seq<int>): (r: DepthStats)
    ensures r.samples == |s|
  {
    if |s| == 0 then NEW_STATS else AddSample(FromSamples(s[..|s| - 1]), s[|s| - 1])
  }

  function Sum(s: seq<int>): int
  {
    if |s| == 0 then 0 else Sum(s[..|s| - 1]) + s[|s| - 1]
  }

  /** After n samples the incremental mean is the arithmetic mean of the
      samples, stated without a division: the mean times n is their sum. */
  lemma {:induction false} MeanOfSamples(s: seq<int>)
    ensures FromSamples(s).samples == |s|
    ensures FromSamples(s).avg * |s| as real == Sum(s) as real
    decreases |s|
  {
    if |s| > 0 {
      MeanOfSamples(s[..|s| - 1]);
    }
  }

  /* ---------------- recordProcessed ---------------- */

  /** `recordProcessed(item, depth)`: the item's material is counted once
      more and its depth sampled, so the material's mean times its sample
      count grows by the depth; nothing happens when analytics are off or
      the item is missing. */
  function RecordProcessed(a: Analytics, item: Option<Stack>, depth: int): (r: Analytics)
    requires SamplesOk(a)
    ensures SamplesOk(r) && r.enabled == a.enabled
    ensures !a.enabled || item.None? ==> r == a
    ensures a.enabled && item.Some? ==>
              UsageOf(r, item.value.mat) == UsageOf(a, item.value.mat) + 1 &&
              item.value.mat in r.depth && r.depth[item.value.mat].samples ==
                (if item.value.mat in a.depth then a.depth[item.value.mat].samples else 0) + 1
    ensures a.enabled && item.Some? ==>
              var prior := if item.value.mat in a.depth then a.depth[item.value.mat] else NEW_STATS;
              r.depth[item.value.mat] == AddSample(prior, depth) &&
              r.depth[item.value.mat].avg * r.depth[item.value.mat].samples as real ==
                prior.avg * prior.samples as real + depth as real
    ensures forall m :: item.None? || m != item.value.mat ==>
              UsageOf(r, m) == UsageOf(a, m) && (m in r.depth <==> m in a.depth) &&
              (m in a.depth ==> r.depth[m] == a.depth[m])
    ensures CountsOk(a) ==> CountsOk(r)
  {
    if !a.enabled || item.None? then a
    else
      var m := item.value.mat;
      var ds := if m in a.depth then a.depth[m] else NEW_STATS;
      a.(usage := a.usage[m := UsageOf(a, m) + 1], depth := a.depth[m := AddSample(ds, depth)])
  }

  /** `recordProcessed` called for `item` with each of `depths` in turn. */
  function RecordAll(a: Analytics, item: Stack, depths: seq<int>): (r: Analytics)
    requires SamplesOk(a)
    ensures SamplesOk(r) && r.enabled == a.enabled
    decreases |depths|
  {
    if |depths| == 0 then a
    else RecordProcessed(RecordAll(a, item, depths[..|depths| - 1]), Some(item), depths[|depths| - 1])
  }

  /** Recording a material's depths one job at a time, starting with no
      statistics for it, gives exactly the statistics of those samples, so
      by `MeanOfSamples` the stored average is their arithmetic mean. */
  lemma {:induction false} RecordedStats(a: Analytics, item: Stack, depths: seq<int>)
    requires SamplesOk(a) && a.enabled && item.mat !in a.depth && |depths| > 0
    ensures item.mat in RecordAll(a, item, depths).depth
    ensures RecordAll(a, item, depths).depth[item.mat] == FromSamples(depths)
    decreases |depths|
  {
    var init := depths[..|depths| - 1];
    var b := RecordAll(a, item, init);
    if |init| > 0 {
      RecordedStats(a, item, init);
    } else {
      assert b == a;
    }
    var prior := if item.mat in b.depth then b.depth[item.mat] else NEW_STATS;
    assert prior == FromSamples(init);
    RecordStep(b, item, depths[|depths| - 1]);
  }

  /** One recording adds the depth as a sample to the material's statistics. */
  lemma RecordStep(b: Analytics, item: Stack, d: int)
    requires SamplesOk(b) && b.enabled
    ensures RecordProcessed(b, Some(item), d).depth[item.mat] ==
            AddSample(if item.mat in b.depth then b.depth[item.mat] else NEW_STATS, d)
  {
  }

  /* ---------------- usagePenalty ---------------- */

  /** Some key of a non-empty map; the sums below take it out first. */
  ghost function Pick<V>(u: map<Material, V>): (m: Material)
    requires |u| > 0
    ensures m in u
  {
    var m :| m in u; m
  }

  /** The sum of the usage counts. */
  ghost function TotalUsage(u: map<Material, int>): int
    decreases |u|
  {
    if |u| == 0 then 0 else var m := Pick(u); u[m] + TotalUsage(u - {m})
  }

  /** The sum may take any key out first. */
  lemma {:induction false} TotalUsageRemove(u: map<Material, int>, k: Material)
    requires k in u
    ensures TotalUsage(u) == u[k] + TotalUsage(u - {k})
    decreases |u|
  {
    var m := Pick(u);
    if m != k {
      var u' := u - {m};
      assert k in u' && u'[k] == u[k];
      TotalUsageRemove(u', k);
      assert m in u - {k} && (u - {k})[m] == u[m];
      TotalUsageRemove(u - {k}, m);
      assert u' - {k} == (u - {k}) - {m};
    }
  }

  /** With non-negative counts every count is at most the total. */
  lemma {:induction false} CountAtMostTotal(u: map<Material, int>, k: Material)
    requires forall m :: m in u ==> u[m] >= 0
    requires k in u
    ensures 0 <= u[k] <= TotalUsage(u)
  {
    TotalUsageRemove(u, k);
    TotalNonNegative(u - {k});
  }

  lemma {:induction false} TotalNonNegative(u: map<Material, int>)
    requires forall m :: m in u ==> u[m] >= 0
    ensures TotalUsage(u) >= 0
    decreases |u|
  {
    if |u| > 0 {
      var m := Pick(u);
      TotalNonNegative(u - {m});
    }
  }

  /** The material's share of all recycling. */
  ghost function Share(a: Analytics, m: Material): real
    requires TotalUsage(a.usage) > 0
  {
    UsageOf(a, m) as real / TotalUsage(a.usage) as real
  }

  /** `usagePenalty(m, weight)`: the square root of the material's share,
      weighted and capped at one half; `sqrt` stands for `Math.sqrt`. */
  ghost function UsagePenalty(a: Analytics, m: Material, weight: real, sqrt: real -> real): (r: real)
    ensures r <= 0.5
    ensures !a.enabled || TotalUsage(a.usage) <= 0 ==> r == 0.0
    ensures CountsOk(a) && weight >= 0.0 && (forall x :: sqrt(x) >= 0.0) ==> r >= 0.0
  {
    if !a.enabled then 0.0
    else
      var total := TotalUsage(a.usage);
      if total <= 0 then 0.0
      else MinR(0.5, sqrt(UsageOf(a, m) as real / total as real) * weight)
  }

  /** With non-negative counts the share lies in [0, 1]. */
  lemma ShareInUnit(a: Analytics, m: Material)
    requires CountsOk(a) && TotalUsage(a.usage) > 0
    ensures 0.0 <= Share(a, m) <= 1.0
  {
    if m in a.usage {
      CountAtMostTotal(a.usage, m);
      Fraction(a.usage[m], TotalUsage(a.usage));
    }
  }

  lemma Fraction(c: int, t: int)
    requires 0 <= c <= t && t > 0
    ensures 0.0 <= c as real / t as real <= 1.0
  {
  }

  /* ---------------- depthBonus ---------------- */

  /** The sum of the mean depths. */
  ghost function AvgSum(d: map<Material, DepthStats>): real
    decreases |d|
  {
    if |d| == 0 then 0.0 else var m := Pick(d); d[m].avg + AvgSum(d - {m})
  }

  /** `depthBonus(m, weight, maxDepth)`: how far the material's mean depth
      lies above the mean of all materials' means, relative to `maxDepth`
      (at least 1), capped at 1, weighted and capped at one half. */
  ghost function DepthBonus(a: Analytics, m: Material, weight: real, maxDepth: int): (r: real)
    ensures r <= 0.5
    ensures !a.enabled || |a.depth| == 0 || m !in a.depth || a.depth[m].samples == 0 ==> r == 0.0
    ensures |a.depth| > 0 && m in a.depth && a.depth[m].avg <= AvgSum(a.depth) / |a.depth| as real ==> r == 0.0
    ensures weight >= 0.0 ==> r >= 0.0
    ensures r > 0.0 <==> a.enabled && m in a.depth && a.depth[m].samples != 0 &&
                         a.depth[m].avg > AvgSum(a.depth) / |a.depth| as real && weight > 0.0
  {
    if !a.enabled then 0.0
    else
      var n := |a.depth|;
      if n == 0 then 0.0
      else
        var global := AvgSum(a.depth) / n as real;
        if m !in a.depth || a.depth[m].samples == 0 then 0.0
        else
          var diff := a.depth[m].avg - global;
          if diff <= 0.0 then 0.0
          else
            var norm := MinR(1.0, diff / MaxR(1.0, maxDepth as real));
            PositiveScale(diff, MaxR(1.0, maxDepth as real), norm, weight);
            MinR(0.5, norm * weight)
  }

  /** The sign facts `depthBonus` relies on: a positive difference over a
      divisor of at least 1, capped at 1, is positive, and weighting it keeps
      the sign of the weight. */
  lemma PositiveScale(diff: real, div: real, norm: real, weight: real)
    requires diff > 0.0 && div >= 1.0 && norm == MinR(1.0, diff / div)
    ensures norm > 0.0
    ensures weight >= 0.0 ==> norm * weight >= 0.0
    ensures norm * weight > 0.0 <==> weight > 0.0
  {
    assert diff / div > 0.0;
  }

  /* ---------------- the decay of saveWithDecay ---------------- */

  /** One decay of a usage count: at least one, or the rounded fraction, is
      taken off, never going below zero. */
  function DecayCount(v: int, rate: real): (r: int)
    requires rate > 0.0
    ensures r >= 0
    ensures v > 0 ==> r < v
    ensures v <= 0 ==> r == 0
  {
    Max(0, v - Max(1, Round(v as real * rate)))
  }

  /** One decay of a sample count: the rounded fraction, if positive, is
      taken off, never going below zero. */
  function DecaySamples(n: int, rate: real): (r: int)
    requires rate > 0.0
    ensures r >= 0
    ensures n >= 0 ==> r <= n
  {
    Max(0, n - Max(0, Round(n as real * rate)))
  }

  /** Every usage count decayed. */
  function DecayUsage(u: map<Material, int>, rate: real): (r: map<Material, int>)
    requires rate > 0.0
    ensures r.Keys == u.Keys
    ensures forall m :: m in u ==> r[m] == DecayCount(u[m], rate)
  {
    map m | m in u :: DecayCount(u[m], rate)
  }

  /** Every sample count decayed, every mean kept. */
  function DecayDepth(d: map<Material, DepthStats>, rate: real): (r: map<Material, DepthStats>)
    requires rate > 0.0
    ensures r.Keys == d.Keys
    ensures forall m :: m in d ==> r[m] == d[m].(samples := DecaySamples(d[m].samples, rate))
  {
    map m | m in d :: d[m].(samples := DecaySamples(d[m].samples, rate))
  }

  /** The decay step of `saveWithDecay` at `rate` (`analytics.decay-rate`):
      nothing for a rate of zero or less; otherwise every usage count and
      every sample count decays, and every mean is kept. */
  function Decay(a: Analytics, rate: real): (r: Analytics)
    ensures rate <= 0.0 ==> r == a
    ensures r.enabled == a.enabled && r.usage.Keys == a.usage.Keys && r.depth.Keys == a.depth.Keys
    ensures rate > 0.0 ==> CountsOk(r) && SamplesOk(r)
    ensures rate > 0.0 ==> forall m :: m in a.usage && a.usage[m] > 0 ==> r.usage[m] < a.usage[m]
    ensures rate > 0.0 ==> forall m :: m in a.usage && a.usage[m] <= 0 ==> r.usage[m] == 0
    ensures forall m :: m in a.depth ==>
              r.depth[m].avg == a.depth[m].avg &&
              (a.depth[m].samples >= 0 ==> 0 <= r.depth[m].samples <= a.depth[m].samples)
  {
    if rate <= 0.0 then a
    else a.(usage := DecayUsage(a.usage, rate), depth := DecayDepth(a.depth, rate))
  }

  /** `n` saves in a row. */
  function DecayTimes(a: Analytics, rate: real, n: nat): (r: Analytics)
    ensures r.usage.Keys == a.usage.Keys
    decreases n
  {
    if n == 0 then a else DecayTimes(Decay(a, rate), rate, n - 1)
  }

  /** With a positive rate, a usage count of at most `n` is zero after `n`
      saves: the decay forgets every material eventually. */
  lemma {:induction false} DecayForgets(a: Analytics, rate: real, n: nat, m: Material)
    requires rate > 0.0 && m in a.usage && 0 <= a.usage[m] <= n
    ensures DecayTimes(a, rate, n).usage[m] == 0
    decreases n
  {
    if n > 0 {
      DecayForgets(Decay(a, rate), rate, n - 1, m);
    }
  }
}

=== FILE: clicks.dfy ===
/** A click in a recycling-table window (`TableListener.onInventoryClick`):
    the Recycle button collects the inputs and starts a session for the
    player; any other click is left alone. */
module Clicks {
  import opened Wrappers
  import opened Items
  import opened Gui
  import opened Processing
  import opened Session
  import opened Registry

  /** The click of player `owner` on raw slot `raw` of a window titled
      `title` whose contents are `inv`: whether the click is cancelled, the
      window afterwards, and the session registry afterwards. An empty
      collection only cancels the click and starts nothing. */
  method OnInventoryClick(title: Option<string>, raw: int, inv: Slots, owner: Uuid, reg: Sessions, env: Env)
    returns (cancelled: bool, window: Slots, reg': Sessions)
    requires |inv| == SIZE && ValidEnv(env)
    ensures ClassifyClick(title, raw) != Recycle ==> !cancelled && window == inv && reg' == reg
    ensures ClassifyClick(title, raw) == Recycle ==> cancelled && |window| == SIZE
    ensures ClassifyClick(title, raw) == Recycle ==>
              forall i :: 0 <= i < SIZE ==>
                window[i] == (if IsInputSlot(i) && !IsEmptySlot(inv[i]) then None else inv[i])
    ensures ClassifyClick(title, raw) == Recycle && Occupied(inv[..LEFT_END + 1]) == [] ==> reg' == reg
    ensures ClassifyClick(title, raw) == Recycle && Occupied(inv[..LEFT_END + 1]) != [] ==>
              reg' == RegisterSession(reg, owner, Start(NewSession(owner, Occupied(inv[..LEFT_END + 1]), window), env))
  {
    cancelled, window, reg' := false, inv, reg;
    if ClassifyClick(title, raw) == Recycle {
      cancelled := true;
      var inputs;
      inputs, window := CollectInputs(inv);
      if inputs != [] {
        var s := NewSession(owner, inputs, window);
        reg' := RegisterSession(reg, owner, Start(s, env));
      }
    }
  }
}

=== FILE: complexity.dfy ===
/** The complexity score of an item and its processing time
    (`ComplexityCalculator`): a weighted sum over the decomposed stacks, mapped
    linearly and rounded into [1, 250], then interpolated into 15..10800 s. */
module Complexity {
  import opened Items
  import opened JavaMath
  import opened Recipes

  /** The rarity and difficulty tables. */
  datatype ScoreTables = ScoreTables(rarity: map<Material, int>, difficulty: map<Material, int>)

  const OAK_PLANKS := Material("OAK_PLANKS")
  const STICK := Material("STICK")
  const COBBLESTONE := Material("COBBLESTONE")
  const IRON_INGOT := Material("IRON_INGOT")
  const GOLD_INGOT := Material("GOLD_INGOT")
  const LEATHER := Material("LEATHER")
  const REDSTONE := Material("REDSTONE")
  const LAPIS_LAZULI := Material("LAPIS_LAZULI")
  const BLAZE_ROD := Material("BLAZE_ROD")
  const DIAMOND := Material("DIAMOND")
  const EMERALD := Material("EMERALD")
  const NETHERITE_INGOT := Material("NETHERITE_INGOT")

  const MIN_SECONDS := 15
  const MAX_SECONDS := 10800

  /** The rarities given by the `set` calls of the static initialiser. */
  const RARITY_SETS: map<Material, int> := map[
      OAK_PLANKS := 2, STICK := 2, COBBLESTONE := 2, IRON_INGOT := 8, GOLD_INGOT := 9,
      LEATHER := 6, REDSTONE := 12, LAPIS_LAZULI := 10, BLAZE_ROD := 14, DIAMOND := 20,
      EMERALD := 18, NETHERITE_INGOT := 28]

  /** The difficulties put explicitly after the `set` calls. */
  const DIFFICULTY_PUTS: map<Material, int> := map[
      DIAMOND := 10, NETHERITE_INGOT := 15, IRON_INGOT := 4, GOLD_INGOT := 5,
      REDSTONE := 6, OAK_PLANKS := 1, STICK := 1]

  /** The tables as the static initialiser leaves them: `set(m, v)` records
      rarity `v` and, since no difficulty is recorded yet, difficulty
      `max(1, v/2)`; the later puts replace that default. */
  function StaticTables(): ScoreTables
  {
    ScoreTables(RARITY_SETS,
                map m | m in RARITY_SETS.Keys + DIFFICULTY_PUTS.Keys ::
                  if m in DIFFICULTY_PUTS then DIFFICULTY_PUTS[m] else Max(1, Half(RARITY_SETS[m])))
  }

  /** `set(m, v)`: rarity `v`, and difficulty `max(1, v/2)` unless one is
      already recorded. */
  function SetScore(t: ScoreTables, m: Material, v: int): (r: ScoreTables)
    ensures m in r.rarity && r.rarity[m] == v && m in r.difficulty
    ensures forall k :: k != m ==> (k in r.rarity <==> k in t.rarity) && (k in r.difficulty <==> k in t.difficulty)
    ensures forall k :: k in t.rarity && k != m ==> r.rarity[k] == t.rarity[k]
    ensures forall k :: k in t.difficulty ==> r.difficulty[k] == t.difficulty[k]
    ensures m !in t.difficulty ==> r.difficulty[m] == Max(1, Half(v))
  {
    ScoreTables(t.rarity[m := v], if m in t.difficulty then t.difficulty else t.difficulty[m := Max(1, Half(v))])
  }

  /** `materialDifficulty.put(m, d)`. */
  function PutDifficulty(t: ScoreTables, m: Material, d: int): (r: ScoreTables)
    ensures r.rarity == t.rarity && m in r.difficulty && r.difficulty[m] == d
    ensures r.difficulty.Keys == t.difficulty.Keys + {m}
    ensures forall k :: k in t.difficulty && k != m ==> r.difficulty[k] == t.difficulty[k]
  {
    t.(difficulty := t.difficulty[m := d])
  }

  /** Rarity of a material; 3 when the table has none. */
  function Rarity(t: ScoreTables, m: Material): int
  {
    if m in t.rarity then t.rarity[m] else 3
  }

  /** Difficulty of a material; `max(1, rarity/2)` when the table has none. */
  function Difficulty(t: ScoreTables, m: Material): int
  {
    if m in t.difficulty then t.difficulty[m] else Max(1, Half(Rarity(t, m)))
  }

  /** One stack's share of the raw score: rarity per unit plus half the
      difficulty per unit, counting at least one unit. */
  function StackScore(t: ScoreTables, s: Stack): real
  {
    var c := Max(1, s.amount);
    (Rarity(t, s.mat) * c) as real + (Difficulty(t, s.mat) * c) as real / 2.0
  }

  /** The raw score of a decomposition: the sum of its stacks' shares. */
  function RawScore(t: ScoreTables, raw: seq<Stack>): real
  {
    if |raw| == 0 then 0.0 else RawScore(t, raw[..|raw| - 1]) + StackScore(t, raw[|raw| - 1])
  }

  /** The raw score mapped by `1 + (x - 1) * 249/299`, rounded and clamped. */
  function ScoreOfRaw(x: real): (r: int)
    ensures 1 <= r <= 250
  {
    var score := Round(1.0 + (x - 1.0) * (249.0 / 299.0));
    if score < 1 then 1 else if score > 250 then 250 else score
  }

  /** `calculateComplexity(item)`: score of the item's decomposition. */
  function CalculateComplexity(t: ScoreTables, book: RecipeBook, rank: Material -> nat, item: Stack): (r: int)
    requires Ranked(book, rank)
    ensures 1 <= r <= 250
    ensures Raw(book, rank, item) == [] ==> r == 1
  {
    EmptyScoresOne();
    ScoreOfRaw(RawScore(t, Raw(book, rank, item)))
  }

  /** `mapScoreToSeconds`: linear from 15 s at score 1 to 10800 s at score 250,
      rounded; scores outside [1, 250] are not clamped. The result is the
      integer nearest to `15 + (score - 1) * 10785 / 249`, halves going up,
      stated without a division. */
  function MapScoreToSeconds(score: int): (r: int)
    ensures 249 * (2 * r - 1) <= 2 * (249 * MIN_SECONDS + (score - 1) * (MAX_SECONDS - MIN_SECONDS)) < 249 * (2 * r + 1)
  {
    Round(MIN_SECONDS as real + ((score as real - 1.0) / 249.0) * (MAX_SECONDS - MIN_SECONDS) as real)
  }

  /* ---------------- properties ---------------- */

  /** Every entry of the static tables is at least 1. */
  lemma StaticTablesPositive()
    ensures forall m :: m in StaticTables().rarity ==> StaticTables().rarity[m] >= 1
    ensures forall m :: m in StaticTables().difficulty ==> StaticTables().difficulty[m] >= 1
  {
    RaritySetsPositive();
    DifficultyPutsPositive();
  }

  lemma RaritySetsPositive()
    ensures forall m :: m in RARITY_SETS ==> RARITY_SETS[m] >= 1
  {
  }

  lemma DifficultyPutsPositive()
    ensures forall m :: m in DIFFICULTY_PUTS ==> DIFFICULTY_PUTS[m] >= 1
  {
  }

  /** A put after a `set` replaces the default difficulty, while a `set`
      after a put keeps the difficulty that was put; the first `set` of a
      material gives the default. */
  lemma SetAndPutOrder(t: ScoreTables, m: Material, v: int, d: int)
    ensures PutDifficulty(SetScore(t, m, v), m, d).difficulty[m] == d
    ensures SetScore(PutDifficulty(t, m, d), m, v).difficulty[m] == d
    ensures m !in t.difficulty ==> SetScore(t, m, v).difficulty[m] == Max(1, Half(v))
    ensures m in t.difficulty ==> SetScore(t, m, v).difficulty[m] == t.difficulty[m]
  {
  }

  /** Some entries of the static tables: the puts win over the defaults,
      and materials without a put keep `max(1, v/2)`. */
  lemma StaticEntries()
    ensures StaticTables().difficulty[NETHERITE_INGOT] == 15 && StaticTables().difficulty[GOLD_INGOT] == 5
    ensures StaticTables().difficulty[LEATHER] == 3 && StaticTables().difficulty[EMERALD] == 9
    ensures StaticTables().difficulty[COBBLESTONE] == 1
  {
  }

  /** A material absent from both tables weighs rarity 3 and difficulty 1 per unit. */
  lemma UnknownMaterialWeight(t: ScoreTables, s: Stack)
    requires s.mat !in t.rarity && s.mat !in t.difficulty
    ensures StackScore(t, s) == 3.0 * Max(1, s.amount) as real + Max(1, s.amount) as real / 2.0
  {
  }

  /** The raw score is additive over concatenation. */
  lemma {:induction false} RawScoreAppend(t: ScoreTables, a: seq<Stack>, b: seq<Stack>)
    ensures RawScore(t, a + b) == RawScore(t, a) + RawScore(t, b)
    decreases |b|
  {
    if |b| == 0 {
      assert a + b == a;
    } else {
      assert (a + b)[..|a + b| - 1] == a + b[..|b| - 1];
      RawScoreAppend(t, a, b[..|b| - 1]);
    }
  }

  /** With positive tables every stack adds at least 1.5 to the raw score. */
  lemma {:induction false} RawScoreLowerBound(t: ScoreTables, raw: seq<Stack>)
    requires forall m :: m in t.rarity ==> t.rarity[m] >= 1
    requires forall m :: m in t.difficulty ==> t.difficulty[m] >= 1
    ensures RawScore(t, raw) >= 1.5 * |raw| as real
  {
    if |raw| > 0 {
      RawScoreLowerBound(t, raw[..|raw| - 1]);
      var s := raw[|raw| - 1];
      var c := Max(1, s.amount);
      AtLeastFactor(Rarity(t, s.mat), c);
      AtLeastFactor(Difficulty(t, s.mat), c);
      assert StackScore(t, s) >= 1.5;
    }
  }

  lemma AtLeastFactor(a: int, c: int)
    requires a >= 1 && c >= 1
    ensures a * c >= c
  {
  }

  /** An empty decomposition (raw score 0) scores 1. */
  lemma EmptyScoresOne()
    ensures ScoreOfRaw(0.0) == 1
  {
  }

  /** The score never decreases as the raw score grows. */
  lemma ScoreMonotone(x: real, y: real)
    requires x <= y
    ensures ScoreOfRaw(x) <= ScoreOfRaw(y)
  {
    RoundMonotone(1.0 + (x - 1.0) * (249.0 / 299.0), 1.0 + (y - 1.0) * (249.0 / 299.0));
  }

  /** The end points of the duration map. */
  lemma SecondsEndPoints()
    ensures MapScoreToSeconds(1) == MIN_SECONDS
    ensures MapScoreToSeconds(250) == MAX_SECONDS
  {
  }

  /** The duration map never decreases. */
  lemma SecondsMonotone(a: int, b: int)
    requires a <= b
    ensures MapScoreToSeconds(a) <= MapScoreToSeconds(b)
  {
    var fa := MIN_SECONDS as real + ((a as real - 1.0) / 249.0) * (MAX_SECONDS - MIN_SECONDS) as real;
    var fb := MIN_SECONDS as real + ((b as real - 1.0) / 249.0) * (MAX_SECONDS - MIN_SECONDS) as real;
    assert fa <= fb;
    RoundMonotone(fa, fb);
  }

  /** For a score in [1, 250] the duration lies in [15, 10800]. */
  lemma SecondsInRange(score: int)
    requires 1 <= score <= 250
    ensures MIN_SECONDS <= MapScoreToSeconds(score) <= MAX_SECONDS
  {
    SecondsMonotone(1, score);
    SecondsMonotone(score, 250);
    SecondsEndPoints();
  }

  /** Scores outside [1, 250] are not clamped: score 0 maps below 15 s. */
  lemma SecondsNotClamped()
    ensures MapScoreToSeconds(0) == -28
    ensures MapScoreToSeconds(251) == 10843
  {
  }

  /** An iron pickaxe made of three iron ingots and two sticks, all without
      further recipes: raw score 35, complexity 29, duration 1228 s. */
  lemma PickaxeExample(book: RecipeBook, rank: Material -> nat, pickaxe: Stack)
    requires Ranked(book, rank)
    requires pickaxe.mat != AIR && pickaxe.mat !in book.blacklist && pickaxe.mat in book.recipes
    requires book.recipes[pickaxe.mat].ingredients == [Plain(IRON_INGOT, 3), Plain(STICK, 2)]
    requires IRON_INGOT !in book.recipes && STICK !in book.recipes
    ensures Raw(book, rank, pickaxe) == [Plain(IRON_INGOT, 3), Plain(STICK, 2)]
    ensures RawScore(StaticTables(), Raw(book, rank, pickaxe)) == 35.0
    ensures CalculateComplexity(StaticTables(), book, rank, pickaxe) == 29
    ensures MapScoreToSeconds(29) == 1228
  {
    ShallowRecipeYieldsIngredients(book, rank, pickaxe.mat, 0);
    var raw := [Plain(IRON_INGOT, 3), Plain(STICK, 2)];
    assert Raw(book, rank, pickaxe) == raw;
    var t := StaticTables();
    PickaxeWeights();
    RawScorePair(t, raw[0], raw[1]);
    ScoreOf35();
  }

  /** Three iron ingots weigh 8*3 + 4*3/2 = 30; two sticks 2*2 + 1*2/2 = 5. */
  lemma PickaxeWeights()
    ensures StackScore(StaticTables(), Plain(IRON_INGOT, 3)) == 30.0
    ensures StackScore(StaticTables(), Plain(STICK, 2)) == 5.0
  {
  }

  /** The raw score of a two-stack decomposition. */
  lemma RawScorePair(t: ScoreTables, a: Stack, b: Stack)
    ensures RawScore(t, [a, b]) == StackScore(t, a) + StackScore(t, b)
  {
    assert [a][..0] == [];
    assert RawScore(t, [a]) == StackScore(t, a);
    assert [a, b][..1] == [a];
  }

  lemma ScoreOf35()
    ensures ScoreOfRaw(35.0) == 29
    ensures MapScoreToSeconds(29) == 1228
  {
  }
}

=== FILE: durability.dfy ===
/** How much of an item's durability is left, as a fraction in [0, 1]
    (`CompatibilityUtils`). The reflective and metadata lookups the source
    performs are inputs here: a `Probe` records what each of them reported. */
module Compatibility {
  import opened Wrappers
  import opened Items
  import opened JavaMath

  /** The item's metadata as the anvil branch sees it: block data whose
      `getDamage()` reported a stage (`None` when the block data is missing,
      is not an anvil, or reflection failed), or metadata of another kind. */
  datatype AnvilMeta = BlockDataMeta(stage: Option<int>) | OtherMeta

  /** What the lookups report for one item:
      `reportedMax` is `Material.getMaxDurability()` (`None` when it throws),
      `damage` is `Damageable.getDamage()` (`None` when the metadata is not `Damageable`),
      `legacyDamage` is the legacy `getDurability()` (`None` when unavailable). */
  datatype Probe = Probe(
    reportedMax: Option<int>,
    damage: Option<int>,
    legacyDamage: Option<int>,
    anvilMeta: AnvilMeta)

  /** The fallback maximum durabilities of the five tools of each tier. */
  const FALLBACK_DURABILITY: map<string, int> := map[
      "WOODEN_SWORD" := 59, "WOODEN_PICKAXE" := 59, "WOODEN_AXE" := 59, "WOODEN_SHOVEL" := 59, "WOODEN_HOE" := 59,
      "STONE_SWORD" := 131, "STONE_PICKAXE" := 131, "STONE_AXE" := 131, "STONE_SHOVEL" := 131, "STONE_HOE" := 131,
      "IRON_SWORD" := 250, "IRON_PICKAXE" := 250, "IRON_AXE" := 250, "IRON_SHOVEL" := 250, "IRON_HOE" := 250,
      "DIAMOND_SWORD" := 1561, "DIAMOND_PICKAXE" := 1561, "DIAMOND_AXE" := 1561, "DIAMOND_SHOVEL" := 1561, "DIAMOND_HOE" := 1561,
      "GOLDEN_SWORD" := 32, "GOLDEN_PICKAXE" := 32, "GOLDEN_AXE" := 32, "GOLDEN_SHOVEL" := 32, "GOLDEN_HOE" := 32,
      "NETHERITE_SWORD" := 2031, "NETHERITE_PICKAXE" := 2031, "NETHERITE_AXE" := 2031, "NETHERITE_SHOVEL" := 2031, "NETHERITE_HOE" := 2031]

  /** The fallback table used when the server cannot report a maximum
      durability: the tool's tier value, 0 for any other material. */
  function FallbackDurability(m: Material): (r: int)
    ensures r >= 0
    ensures r > 0 <==> m.name in FALLBACK_DURABILITY
  {
    if m.name in FALLBACK_DURABILITY then FALLBACK_DURABILITY[m.name] else 0
  }

  /** `getMaxDurability(m)`: the reported maximum, never below 0, or the
      fallback table when the lookup throws. */
  function GetMaxDurability(m: Material, reported: Option<int>): (r: int)
    ensures r >= 0
    ensures reported.Some? ==> r == Max(0, reported.value)
    ensures reported.None? ==> r == FallbackDurability(m)
  {
    match reported
    case Some(v) => Max(0, v)
    case None => FallbackDurability(m)
  }

  /** The anvil damage stage: from the block data when the metadata carries
      block data, otherwise the legacy damage value; 0 when neither reports one. */
  function AnvilStage(p: Probe): int
  {
    match p.anvilMeta
    case BlockDataMeta(stage) => stage.GetOr(0)
    case OtherMeta => p.legacyDamage.GetOr(0)
  }

  /** The fraction `remaining / max` for a positive maximum. */
  function Fraction(remaining: int, max: int): real
    requires max > 0
  {
    remaining as real / max as real
  }

  /** The factor of a present item whose maximum durability is `max`. */
  function FactorFor(mat: Material, max: int, p: Probe): real
  {
    if max > 0 && p.damage.Some? then
      Clamp01(Fraction(Max(0, max - Max(0, p.damage.value)), max))
    else if max > 0 && p.legacyDamage.Some? then
      Clamp01(Fraction(Max(0, max - p.legacyDamage.value), max))
    else if mat == ANVIL then
      Clamp01((2 - AnvilStage(p)) as real / 2.0)
    else
      1.0
  }

  /** `getDurabilityFactor(item)`. */
  function GetDurabilityFactor(item: Option<Stack>, p: Probe): (f: real)
    ensures 0.0 <= f <= 1.0
    ensures item.None? ==> f == 1.0
    ensures item.Some? ==> f == FactorFor(item.value.mat, GetMaxDurability(item.value.mat, p.reportedMax), p)
  {
    match item
    case None => 1.0
    case Some(s) => FactorFor(s.mat, GetMaxDurability(s.mat, p.reportedMax), p)
  }

  /* ---------------- properties ---------------- */

  /** A durable item with damage `d` keeps the fraction `max(0, max - max(0, d)) / max`
      of its durability: undamaged gives 1, damage at or beyond the maximum gives 0. */
  lemma DamagedFactor(mat: Material, max: int, p: Probe)
    requires max > 0 && p.damage.Some?
    ensures FactorFor(mat, max, p) * max as real == Max(0, max - Max(0, p.damage.value)) as real
    ensures p.damage.value <= 0 ==> FactorFor(mat, max, p) == 1.0
    ensures p.damage.value >= max ==> FactorFor(mat, max, p) == 0.0
  {
    FractionInUnit(Max(0, max - Max(0, p.damage.value)), max);
  }

  lemma FractionInUnit(rem: int, max: int)
    requires max > 0 && 0 <= rem <= max
    ensures 0.0 <= Fraction(rem, max) <= 1.0
    ensures Fraction(rem, max) * max as real == rem as real
  {
  }

  /** More damage never leaves more durability. */
  lemma FactorAntitoneInDamage(mat: Material, max: int, p: Probe, d1: int, d2: int)
    requires max > 0 && d1 <= d2
    ensures FactorFor(mat, max, p.(damage := Some(d2))) <= FactorFor(mat, max, p.(damage := Some(d1)))
  {
    var r1 := Max(0, max - Max(0, d1));
    var r2 := Max(0, max - Max(0, d2));
    FractionInUnit(r1, max);
    FractionInUnit(r2, max);
    FractionMonotone(r2, r1, max);
  }

  lemma FractionMonotone(a: int, b: int, max: int)
    requires max > 0 && a <= b
    ensures Fraction(a, max) <= Fraction(b, max)
  {
  }

  /** Without `Damageable` metadata the legacy damage value is used the same way. */
  lemma LegacyDamagedFactor(mat: Material, max: int, p: Probe)
    requires max > 0 && p.damage.None? && p.legacyDamage.Some?
    ensures p.legacyDamage.value <= 0 ==> FactorFor(mat, max, p) == 1.0
    ensures p.legacyDamage.value >= max ==> FactorFor(mat, max, p) == 0.0
  {
  }

  /** An anvil (no durability reported) loses half per damage stage:
      stage 0 gives 1, stage 1 gives 0.5, stage 2 and above give 0. */
  lemma AnvilFactor(p: Probe)
    ensures AnvilStage(p) <= 0 ==> FactorFor(ANVIL, 0, p) == 1.0
    ensures AnvilStage(p) == 1 ==> FactorFor(ANVIL, 0, p) == 0.5
    ensures AnvilStage(p) >= 2 ==> FactorFor(ANVIL, 0, p) == 0.0
  {
  }

  /** An anvil whose block data reports no stage counts as undamaged. */
  lemma AnvilWithoutStage(p: Probe)
    requires p.anvilMeta == BlockDataMeta(None)
    ensures FactorFor(ANVIL, 0, p) == 1.0
  {
  }

  /** An item without durability that is not an anvil keeps everything. */
  lemma NonDurableFactor(mat: Material, p: Probe)
    requires mat != ANVIL
    ensures FactorFor(mat, 0, p) == 1.0
  {
  }

  /** The fallback table on the wooden, stone and iron tiers. */
  lemma FallbackLowTiers()
    ensures GetMaxDurability(Material("WOODEN_HOE"), None) == 59
    ensures GetMaxDurability(Material("STONE_HOE"), None) == 131
    ensures GetMaxDurability(Material("IRON_HOE"), None) == 250
  {
  }

  /** The fallback table on the diamond, golden and netherite tiers. */
  lemma FallbackHighTiers()
    ensures GetMaxDurability(Material("DIAMOND_HOE"), None) == 1561
    ensures GetMaxDurability(Material("GOLDEN_HOE"), None) == 32
    ensures GetMaxDurability(Material("NETHERITE_HOE"), None) == 2031
  {
  }
}

=== FILE: enchants.dfy ===
/** Which enchantments a recycled item gives back, and the enchanted books
    that carry them (`EnchantUtils`). */
module Enchants {
  import opened Wrappers
  import opened Items

  /** The two configuration switches: return single-level enchantments, and
      return multi-level enchantments one level lower. */
  datatype EnchantConfig = EnchantConfig(returnSingleLevel: bool, returnMultiLevel: bool)

  /** The enchantments applied to an item; empty when the item is absent or has no metadata. */
  function EnchantsOf(item: Option<Stack>): map<Enchantment, int>
  {
    if item.None? || item.value.meta.None? then map[] else item.value.meta.value.enchants
  }

  /** Whether an enchantment of the given level and maximum level is returned. */
  predicate IsReturned(level: int, maxLevel: int, cfg: EnchantConfig)
  {
    if maxLevel == 1 then cfg.returnSingleLevel else level > 1 && cfg.returnMultiLevel
  }

  /** `getReturnedEnchantments(item)`: a single-level enchantment comes back at
      level 1, a multi-level one at one level below the item's. */
  function ReturnedEnchantments(item: Option<Stack>, maxLevel: Enchantment -> int, cfg: EnchantConfig)
    : (r: map<Enchantment, int>)
    ensures r.Keys <= EnchantsOf(item).Keys
    ensures forall e :: e in r ==> r[e] >= 1
    ensures |EnchantsOf(item)| == 0 ==> r == map[]
  {
    var en := EnchantsOf(item);
    map e | e in en && IsReturned(en[e], maxLevel(e), cfg) :: if maxLevel(e) == 1 then 1 else en[e] - 1
  }

  /** A book storing one enchantment at one level. */
  function Book(e: Enchantment, level: int): Stack
  {
    Stack(ENCHANTED_BOOK, 1, Some(Meta(None, [], map[], map[e := level])))
  }

  /** `generateEnchantmentBooks(enchants)`: one book per entry, in the map's
      iteration order, which the source leaves to `HashMap` and the model
      returns as `order`. */
  method GenerateEnchantmentBooks(enchants: map<Enchantment, int>)
    returns (order: seq<Enchantment>, books: seq<Stack>)
    ensures |order| == |books| == |enchants|
    ensures forall i, j :: 0 <= i < j < |order| ==> order[i] != order[j]
    ensures forall i :: 0 <= i < |order| ==> order[i] in enchants && books[i] == Book(order[i], enchants[order[i]])
    ensures forall e :: e in enchants ==> e in order
  {
    order := [];
    books := [];
    var rest := enchants.Keys;
    while rest != {}
      invariant rest <= enchants.Keys
      invariant |order| == |books| && |order| + |rest| == |enchants|
      invariant forall i, j :: 0 <= i < j < |order| ==> order[i] != order[j]
      invariant forall i :: 0 <= i < |order| ==> order[i] in enchants && order[i] !in rest
      invariant forall i :: 0 <= i < |order| ==> books[i] == Book(order[i], enchants[order[i]])
      invariant forall e :: e in enchants && e !in rest ==> e in order
      decreases |rest|
    {
      var e :| e in rest;
      var book := Book(e, enchants[e]);
      order := order + [e];
      books := books + [book];
      rest := rest - {e};
    }
  }

  /* ---------------- properties ---------------- */

  /** The return rule for one enchantment of the item, both directions. */
  lemma ReturnRule(item: Option<Stack>, maxLevel: Enchantment -> int, cfg: EnchantConfig, e: Enchantment)
    requires e in EnchantsOf(item)
    ensures maxLevel(e) == 1 ==>
              (e in ReturnedEnchantments(item, maxLevel, cfg) <==> cfg.returnSingleLevel)
    ensures maxLevel(e) == 1 && cfg.returnSingleLevel ==> ReturnedEnchantments(item, maxLevel, cfg)[e] == 1
    ensures maxLevel(e) != 1 ==>
              (e in ReturnedEnchantments(item, maxLevel, cfg) <==>
                 EnchantsOf(item)[e] > 1 && cfg.returnMultiLevel)
    ensures maxLevel(e) != 1 && EnchantsOf(item)[e] > 1 && cfg.returnMultiLevel ==>
              ReturnedEnchantments(item, maxLevel, cfg)[e] == EnchantsOf(item)[e] - 1
  {
  }

  /** An absent item, one without metadata, or one without enchantments gives nothing back. */
  lemma NothingReturned(item: Option<Stack>, maxLevel: Enchantment -> int, cfg: EnchantConfig)
    requires item.None? || item.value.meta.None? || |item.value.meta.value.enchants| == 0
    ensures ReturnedEnchantments(item, maxLevel, cfg) == map[]
  {
  }

  /** A multi-level enchantment at level 1 is never returned. */
  lemma LevelOneMultiNotReturned(item: Option<Stack>, maxLevel: Enchantment -> int, cfg: EnchantConfig, e: Enchantment)
    requires e in EnchantsOf(item) && EnchantsOf(item)[e] == 1 && maxLevel(e) != 1
    ensures e !in ReturnedEnchantments(item, maxLevel, cfg)
  {
  }

  /** Each book is a single enchanted book storing exactly its enchantment. */
  lemma BookContents(e: Enchantment, level: int)
    ensures Book(e, level).mat == ENCHANTED_BOOK && Book(e, level).amount == 1
    ensures Book(e, level).meta.Some? && Book(e, level).meta.value.stored == map[e := level]
    ensures !HasEnchants(Book(e, level))
  {
  }
}

=== FILE: gui.dfy ===
/** The recycling-table window (`TableListener`): its 54 slots split into an
    input area on the left and an output area on the right, the Recycle
    button, and the collection of the inputs when the button is clicked. */
module Gui {
  import opened Wrappers
  import opened Items

  const SIZE := 54
  const LEFT_START := 0
  const LEFT_END := 26
  const RIGHT_START := 27
  const RIGHT_END := 53
  const RECYCLE_BUTTON_SLOT := 22

  /** The window title: the dark-green colour code followed by the name. */
  const GUI_TITLE: string := "\U{00A7}2Recycling Table"

  predicate IsInputSlot(slot: int) { LEFT_START <= slot <= LEFT_END }

  predicate IsOutputSlot(slot: int) { RIGHT_START <= slot <= RIGHT_END }

  predicate IsControlSlot(slot: int) { slot == RECYCLE_BUTTON_SLOT }

  /** The Recycle button placed in a window opened from the item in hand:
      one anvil named "Recycle" in yellow, with a grey hint as lore. */
  function RecycleButton(): (b: Stack)
    ensures b.mat == ANVIL && b.amount == 1 && !IsEmptySlot(Some(b))
  {
    Stack(ANVIL, 1, Some(Meta(Some("\U{00A7}eRecycle"), ["\U{00A7}7Click to start processing"], map[], map[])))
  }

  /** A fresh window opened from the item in hand: empty but for the button. */
  function ButtonWindow(): (w: Slots)
    ensures |w| == SIZE
    ensures forall i :: 0 <= i < SIZE && !IsControlSlot(i) ==> w[i] == None
    ensures w[RECYCLE_BUTTON_SLOT] == Some(RecycleButton())
  {
    seq(SIZE, i => if i == RECYCLE_BUTTON_SLOT then Some(RecycleButton()) else None)
  }

  /** The items of the non-empty slots of `s`, in slot order. */
  function Occupied(s: seq<Option<Stack>>): (r: seq<Stack>)
    ensures |r| <= |s|
    ensures forall k :: 0 <= k < |r| ==> r[k].mat != AIR
  {
    if |s| == 0 then []
    else Occupied(s[..|s| - 1]) + (if IsEmptySlot(s[|s| - 1]) then [] else [s[|s| - 1].value])
  }

  /** What a click in a window does. */
  datatype Click =
    | Ignored      // another window, or a slot of the player's own inventory
    | Allowed      // a normal move inside the window, not cancelled
    | Recycle      // the Recycle button: cancelled, the inputs are collected

  /** The decision of `onInventoryClick` before any inputs are touched;
      `title` is `None` when the view or its title is missing. */
  function ClassifyClick(title: Option<string>, raw: int): (c: Click)
    ensures c == Recycle <==> title == Some(GUI_TITLE) && IsControlSlot(raw)
    ensures c == Allowed <==> title == Some(GUI_TITLE) && 0 <= raw < SIZE && !IsControlSlot(raw)
    ensures (raw < 0 || SIZE <= raw) ==> c == Ignored
  {
    if title != Some(GUI_TITLE) then Ignored
    else if raw < 0 || raw >= SIZE then Ignored
    else if raw == RECYCLE_BUTTON_SLOT then Recycle
    else Allowed
  }

  /** The input collection of the Recycle click: the items of slots 0..26 in
      ascending order, each of those slots cleared; the other slots are kept. */
  method CollectInputs(inv: Slots) returns (inputs: seq<Stack>, rest: Slots)
    requires |inv| == SIZE
    ensures inputs == Occupied(inv[..LEFT_END + 1])
    ensures |rest| == SIZE
    ensures forall i :: 0 <= i < SIZE && IsInputSlot(i) ==>
              rest[i] == (if IsEmptySlot(inv[i]) then inv[i] else None)
    ensures forall i :: 0 <= i < SIZE && !IsInputSlot(i) ==> rest[i] == inv[i]
  {
    inputs := [];
    rest := inv;
    var i := LEFT_START;
    while i <= LEFT_END
      invariant LEFT_START <= i <= LEFT_END + 1
      invariant inputs == Occupied(inv[..i])
      invariant |rest| == SIZE
      invariant forall j :: 0 <= j < i ==> rest[j] == (if IsEmptySlot(inv[j]) then inv[j] else None)
      invariant forall j :: i <= j < SIZE ==> rest[j] == inv[j]
    {
      assert inv[..i + 1][..i] == inv[..i];
      var it := rest[i];
      if it.Some? && it.value.mat != AIR {
        inputs := inputs + [it.value];
        rest := rest[i := None];
      }
      i := i + 1;
    }
    assert inv[..LEFT_END + 1] == inv[..i];
  }

  /** An inventory as seen from outside: the titles of the windows its
      viewers have open, first viewer first. */
  datatype Inventory = Inventory(viewerTitles: seq<string>)

  /** `isRecyclingTableInventory(inv)`: the first viewer is looking at a
      recycling-table window; a missing inventory or one nobody views is not
      recognised. */
  predicate IsTableInventory(inv: Option<Inventory>)
  {
    inv.Some? && |inv.value.viewerTitles| > 0 && inv.value.viewerTitles[0] == GUI_TITLE
  }

  /* ---------------- properties ---------------- */

  /** The input and output areas are disjoint and together cover the window. */
  lemma SlotPartition(slot: int)
    ensures 0 <= slot < SIZE <==> IsInputSlot(slot) || IsOutputSlot(slot)
    ensures !(IsInputSlot(slot) && IsOutputSlot(slot))
    ensures IsInputSlot(slot) <==> 0 <= slot < RIGHT_START
  {
  }

  /** The button slot lies inside the input area. */
  lemma ControlSlotIsInput(slot: int)
    requires IsControlSlot(slot)
    ensures IsInputSlot(slot) && !IsOutputSlot(slot)
  {
  }

  /** Every non-empty slot's item is collected. */
  lemma {:induction false} OccupiedContains(s: seq<Option<Stack>>, k: int)
    requires 0 <= k < |s| && !IsEmptySlot(s[k])
    ensures s[k].value in Occupied(s)
    decreases |s|
  {
    if k < |s| - 1 {
      assert s[..|s| - 1][k] == s[k];
      OccupiedContains(s[..|s| - 1], k);
    }
  }

  /** Nothing is collected exactly when every slot is empty. */
  lemma {:induction false} OccupiedEmpty(s: seq<Option<Stack>>)
    ensures Occupied(s) == [] <==> forall k :: 0 <= k < |s| ==> IsEmptySlot(s[k])
    decreases |s|
  {
    if |s| > 0 {
      OccupiedEmpty(s[..|s| - 1]);
      assert forall k :: 0 <= k < |s| - 1 ==> s[..|s| - 1][k] == s[k];
    }
  }

  /** Pressing Recycle in a window opened from the item in hand collects the
      button itself together with the inputs. */
  lemma ButtonIsCollected(inv: Slots)
    requires |inv| == SIZE && inv[RECYCLE_BUTTON_SLOT] == Some(RecycleButton())
    ensures RecycleButton() in Occupied(inv[..LEFT_END + 1])
  {
    OccupiedContains(inv[..LEFT_END + 1], RECYCLE_BUTTON_SLOT);
  }
}

=== FILE: hopper.dfy ===
/** Hopper traffic around recycling tables (`HopperListener`): which moves
    and pickups are cancelled. */
module Hopper {
  import opened Wrappers
  import opened Items
  import opened Recipes
  import opened Gui

  /** The two hopper switches (`hopper.allow-output`, `hopper.allow-input`). */
  datatype HopperConfig = HopperConfig(allowOutput: bool, allowInput: bool)

  /** `onInventoryMove`: whether the move from `source` to `dest` is cancelled. */
  function CancelMove(source: Option<Inventory>, dest: Option<Inventory>, cfg: HopperConfig): (cancel: bool)
    ensures IsTableInventory(source) ==> (cancel <==> !cfg.allowOutput)
    ensures !IsTableInventory(source) && IsTableInventory(dest) ==> (cancel <==> !cfg.allowInput)
    ensures !IsTableInventory(source) && !IsTableInventory(dest) ==> !cancel
  {
    if IsTableInventory(source) then !cfg.allowOutput
    else if IsTableInventory(dest) then !cfg.allowInput
    else false
  }

  /** `onPickup`: whether a hopper-like table inventory refuses to pick up a
      dropped stack of material `m`. */
  function CancelPickup(book: RecipeBook, inv: Option<Inventory>, m: Material): (cancel: bool)
    ensures cancel <==> IsTableInventory(inv) && m in book.recipes && m !in book.blacklist
  {
    IsTableInventory(inv) && GetRecipeFor(book, m) != None && !IsBlacklisted(book, m)
  }

  /* ---------------- properties ---------------- */

  /** A move out of a table is allowed exactly when output is enabled,
      whatever the destination. */
  lemma OutOfTableIgnoresDestination(source: Option<Inventory>, d1: Option<Inventory>, d2: Option<Inventory>,
                                     cfg: HopperConfig)
    requires IsTableInventory(source)
    ensures CancelMove(source, d1, cfg) == CancelMove(source, d2, cfg) == !cfg.allowOutput
  {
  }

  /** With both switches on no move is ever cancelled. */
  lemma BothAllowedNeverCancels(source: Option<Inventory>, dest: Option<Inventory>)
    ensures !CancelMove(source, dest, HopperConfig(true, true))
  {
  }

  /** A blacklisted material is always picked up. */
  lemma BlacklistedAlwaysPicked(book: RecipeBook, inv: Option<Inventory>, m: Material)
    requires IsBlacklisted(book, m)
    ensures !CancelPickup(book, inv, m)
  {
  }

  /** In a book built by the recipe index, pickup is refused exactly for the
      indexed materials: every material of the universe but AIR and the
      blacklisted ones. */
  lemma PickupOfIndexedBook(universe: set<Material>, blacklist: set<Material>,
                            recipesFor: Material -> seq<Recipe>, inv: Option<Inventory>, m: Material)
    requires IsTableInventory(inv)
    ensures CancelPickup(GenerateAllRecipes(universe, blacklist, recipesFor), inv, m) <==>
              m in universe && m !in blacklist && m != AIR
  {
  }
}

=== FILE: items.dfy ===
/** Materials, item stacks and inventory slots: the value-level stand-ins for
    Bukkit's `Material`, `ItemStack`, `ItemMeta` and `Inventory`. */
module Items {
  import opened Wrappers

  /** A material, identified by its enum constant name. */
  datatype Material = Material(name: string)

  const AIR := Material("AIR")
  const ANVIL := Material("ANVIL")
  const CRAFTING_TABLE := Material("CRAFTING_TABLE")
  const ENCHANTED_BOOK := Material("ENCHANTED_BOOK")

  /** An enchantment, identified by its key. */
  datatype Enchantment = Enchantment(key: string)

  /** The parts of `ItemMeta` the plugin reads: display name, lore, the
      enchantments applied to the item and those stored in an enchanted book. */
  datatype Meta = Meta(
    displayName: Option<string>,
    lore: seq<string>,
    enchants: map<Enchantment, int>,
    stored: map<Enchantment, int>)

  /** An item stack: `meta` is `None` when `hasItemMeta()` is false. */
  datatype Stack = Stack(mat: Material, amount: int, meta: Option<Meta>)

  /** A player or owner id (`UUID`). */
  datatype Uuid = Uuid(bits: int)

  /** `new ItemStack(m, n)`: a plain stack without metadata. */
  function Plain(m: Material, n: int): Stack { Stack(m, n, None) }

  /** `ItemStack.isSimilar`: equal in everything but the amount. */
  predicate Similar(a: Stack, b: Stack) { a.mat == b.mat && a.meta == b.meta }

  /** `meta.hasEnchants()` on an item that has metadata. */
  predicate HasEnchants(s: Stack) { s.meta.Some? && |s.meta.value.enchants| > 0 }

  /** The contents of an inventory, one entry per slot (`None` for `null`). */
  type Slots = seq<Option<Stack>>

  /** A slot reads as empty when it is `null` or holds AIR. */
  predicate IsEmptySlot(s: Option<Stack>) { s.None? || s.value.mat == AIR }

  /** Sum of the amounts of a list of stacks. */
  function Total(s: seq<Stack>): int
  {
    if |s| == 0 then 0 else Total(s[..|s| - 1]) + s[|s| - 1].amount
  }

  /** The set of materials occurring in a list of stacks. */
  function MaterialsOf(s: seq<Stack>): set<Material>
  {
    set k | 0 <= k < |s| :: s[k].mat
  }

  lemma {:induction false} TotalAppend(a: seq<Stack>, b: seq<Stack>)
    ensures Total(a + b) == Total(a) + Total(b)
    decreases |b|
  {
    if |b| == 0 {
      assert a + b == a;
    } else {
      assert (a + b)[..|a + b| - 1] == a + b[..|b| - 1];
      TotalAppend(a, b[..|b| - 1]);
    }
  }

  lemma {:induction false} TotalUpdate(s: seq<Stack>, j: int, x: Stack)
    requires 0 <= j < |s|
    ensures Total(s[j := x]) == Total(s) - s[j].amount + x.amount
    decreases |s|
  {
    if j == |s| - 1 {
      assert s[j := x][..|s| - 1] == s[..|s| - 1];
    } else {
      assert s[j := x][..|s| - 1] == s[..|s| - 1][j := x];
      TotalUpdate(s[..|s| - 1], j, x);
    }
  }
}

=== FILE: javamath.dfy ===
/** Java's numeric primitives written out over unbounded integers and reals.
    Doubles are modelled as reals; `Math.round`, `Math.ceil`, integer division
    and the `Math.min`/`Math.max` family are defined here once. */
module JavaMath {

  function Min(a: int, b: int): int { if a <= b then a else b }

  function Max(a: int, b: int): int { if a >= b then a else b }

  function MinR(a: real, b: real): real { if a <= b then a else b }

  function MaxR(a: real, b: real): real { if a >= b then a else b }

  /** `Math.max(0.0, Math.min(1.0, x))`. */
  function Clamp01(x: real): (r: real)
    ensures 0.0 <= r <= 1.0
    ensures 0.0 <= x <= 1.0 ==> r == x
  {
    MaxR(0.0, MinR(1.0, x))
  }

  /** Java's `Math.round(double)`: the integer nearest to `x`, halves rounded up. */
  function Round(x: real): (r: int)
    ensures r as real - 0.5 <= x < r as real + 0.5
  {
    (x + 0.5).Floor
  }

  /** Java's `Math.ceil(double)`: the least integer not below `x`. */
  function Ceil(x: real): (r: int)
    ensures x <= r as real < x + 1.0
  {
    -((-x).Floor)
  }

  /** Java's `a / 2` on an `int`, which truncates toward zero (Dafny's `/` is
      Euclidean): the remainder `a - 2h` takes the sign of `a`. */
  function Half(a: int): (h: int)
    ensures 0 <= a ==> 0 <= a - 2 * h <= 1
    ensures a < 0 ==> -1 <= a - 2 * h <= 0
  {
    if a >= 0 then a / 2 else -((-a) / 2)
  }

  function Abs(a: int): nat { if a < 0 then -a else a }

  lemma RoundMonotone(x: real, y: real)
    requires x <= y
    ensures Round(x) <= Round(y)
  {
  }
}

=== FILE: overflow.dfy ===
/** The per-player overflow lists (`OverflowStorage`): merging a stack into
    a list, and the replay that moves list entries back into the output slots
    27..53 of a window, first come first served. */
module Overflow {
  import opened Wrappers
  import opened Items
  import opened JavaMath
  import opened Gui

  /** The overflow lists by owner. */
  type Storage = map<Uuid, seq<Stack>>

  /* ---------------- mergeIntoList ---------------- */

  /** The merge loop from entry `k` on: every similar entry below `max` takes
      what it can of `add`; the merge ends once `add` is used up, and what is
      left at the end is appended as a new entry. */
  function MergeFrom(list: seq<Stack>, k: nat, add: Stack, max: int): (r: seq<Stack>)
    requires k <= |list|
    decreases |list| - k
  {
    if k == |list| then list + [add]
    else if Similar(list[k], add) && list[k].amount < max then
      var can := Min(add.amount, max - list[k].amount);
      var list' := list[k := list[k].(amount := list[k].amount + can)];
      var add' := add.(amount := add.amount - can);
      if add'.amount <= 0 then list' else MergeFrom(list', k + 1, add', max)
    else MergeFrom(list, k + 1, add, max)
  }

  /** `mergeIntoList(list, add)`; `max` is the maximum stack size of `add`'s material. */
  function MergeIntoList(list: seq<Stack>, add: Stack, max: int): (r: seq<Stack>)
    ensures Total(r) == Total(list) + add.amount
    ensures |list| <= |r| <= |list| + 1
    ensures forall j :: 0 <= j < |list| && !Similar(list[j], add) ==> r[j] == list[j]
    ensures forall j :: 0 <= j < |list| ==> Similar(r[j], list[j])
    ensures add.amount >= 0 ==> forall j :: 0 <= j < |list| && r[j] != list[j] ==> r[j].amount <= max
    ensures |r| == |list| + 1 ==> Similar(r[|list|], add) && r[|list|].amount <= add.amount
  {
    MergeTotal(list, 0, add, max);
    MergeShape(list, 0, add, max);
    MergeBound(list, 0, add, max);
    MergeFrom(list, 0, add, max)
  }

  /** How much of `add` the similar entries from `k` on can still take. */
  function ListRoom(list: seq<Stack>, k: nat, add: Stack, max: int): (r: int)
    requires k <= |list|
    ensures r >= 0
    decreases |list| - k
  {
    if k == |list| then 0
    else (if Similar(list[k], add) && list[k].amount < max then max - list[k].amount else 0) + ListRoom(list, k + 1, add, max)
  }

  /** One merge step into entry `k`: the entry after topping up, and what is
      left of `add`. */
  function TopUp(list: seq<Stack>, k: nat, add: Stack, max: int): (r: (seq<Stack>, Stack))
    requires k < |list|
  {
    var can := Min(add.amount, max - list[k].amount);
    (list[k := list[k].(amount := list[k].amount + can)], add.(amount := add.amount - can))
  }

  /** The merge conserves the total amount. */
  lemma {:induction false} MergeTotal(list: seq<Stack>, k: nat, add: Stack, max: int)
    requires k <= |list|
    ensures Total(MergeFrom(list, k, add, max)) == Total(list) + add.amount
    decreases |list| - k
  {
    if k == |list| {
      TotalAppend(list, [add]);
      assert [add][..0] == [];
    } else if Similar(list[k], add) && list[k].amount < max {
      var t := TopUp(list, k, add, max);
      TotalUpdate(list, k, t.0[k]);
      if t.1.amount > 0 {
        MergeTotal(t.0, k + 1, t.1, max);
      }
    } else {
      MergeTotal(list, k + 1, add, max);
    }
  }

  /** The merge keeps every entry before `k` and every non-similar entry,
      keeps every entry similar to what it was, and appends at most one
      entry, similar to `add` and no larger. */
  lemma {:induction false} MergeShape(list: seq<Stack>, k: nat, add: Stack, max: int)
    requires k <= |list|
    ensures var r := MergeFrom(list, k, add, max);
      |list| <= |r| <= |list| + 1 &&
      (forall j :: 0 <= j < |list| && (j < k || !Similar(list[j], add)) ==> r[j] == list[j]) &&
      (forall j :: 0 <= j < |list| ==> Similar(r[j], list[j])) &&
      (|r| == |list| + 1 ==> Similar(r[|list|], add) && r[|list|].amount <= add.amount)
    decreases |list| - k
  {
    if k < |list| {
      if Similar(list[k], add) && list[k].amount < max {
        var t := TopUp(list, k, add, max);
        if t.1.amount > 0 {
          MergeShape(t.0, k + 1, t.1, max);
        }
      } else {
        MergeShape(list, k + 1, add, max);
      }
    }
  }

  /** Merging a non-negative stack never raises an entry above `max`. */
  lemma {:induction false} MergeBound(list: seq<Stack>, k: nat, add: Stack, max: int)
    requires k <= |list|
    ensures var r := MergeFrom(list, k, add, max);
      add.amount >= 0 ==> forall j :: 0 <= j < |list| && j < |r| && r[j] != list[j] ==> r[j].amount <= max
    decreases |list| - k
  {
    if k < |list| && add.amount >= 0 {
      if Similar(list[k], add) && list[k].amount < max {
        var t := TopUp(list, k, add, max);
        if t.1.amount > 0 {
          MergeBound(t.0, k + 1, t.1, max);
          MergeShape(t.0, k + 1, t.1, max);
        }
      } else {
        MergeBound(list, k + 1, add, max);
      }
    }
  }

  /** A positive stack is appended exactly when the similar entries cannot
      take all of it, and then with what they could not take. */
  lemma {:induction false} MergeAppendsRemainder(list: seq<Stack>, k: nat, add: Stack, max: int)
    requires k <= |list| && add.amount > 0
    requires forall j :: k <= j < |list| ==> list[j].amount <= max
    ensures var r := MergeFrom(list, k, add, max);
      (|r| == |list| + 1 <==> add.amount > ListRoom(list, k, add, max)) &&
      (|r| == |list| + 1 ==> r[|list|].amount == add.amount - ListRoom(list, k, add, max))
    decreases |list| - k
  {
    if k < |list| {
      if Similar(list[k], add) && list[k].amount < max {
        var t := TopUp(list, k, add, max);
        if t.1.amount > 0 {
          MergeAppendsRemainder(t.0, k + 1, t.1, max);
          ListRoomUnchanged(list, t.0, k + 1, add, max);
          ListRoomSameFor(t.0, k + 1, add, t.1, max);
        } else {
        }
      } else {
        MergeAppendsRemainder(list, k + 1, add, max);
      }
    }
  }

  lemma {:induction false} ListRoomUnchanged(a: seq<Stack>, b: seq<Stack>, k: nat, add: Stack, max: int)
    requires k <= |a| == |b|
    requires forall j :: k <= j < |a| ==> a[j] == b[j]
    ensures ListRoom(a, k, add, max) == ListRoom(b, k, add, max)
    decreases |a| - k
  {
    if k < |a| {
      ListRoomUnchanged(a, b, k + 1, add, max);
    }
  }

  lemma {:induction false} ListRoomSameFor(list: seq<Stack>, k: nat, a: Stack, b: Stack, max: int)
    requires k <= |list| && Similar(a, b)
    ensures ListRoom(list, k, a, max) == ListRoom(list, k, b, max)
    decreases |list| - k
  {
    if k < |list| {
      ListRoomSameFor(list, k + 1, a, b, max);
    }
  }

  /* ---------------- the replay of tryRepopulate ---------------- */

  /** The outcome of trying to place one entry: the new slots, what is left
      of the entry, and whether it was placed completely. */
  datatype Attempt = Attempt(slots: Slots, rest: Stack, placed: bool)

  /** The slot loop for one entry from slot `i` on: an empty slot takes the
      entry whole; a similar slot below `max` takes what it can, and the entry
      is placed once nothing of it is left. */
  function PlaceFrom(inv: Slots, i: int, next: Stack, max: int): (a: Attempt)
    requires |inv| == SIZE && RIGHT_START <= i <= RIGHT_END + 1
    ensures |a.slots| == SIZE
    decreases RIGHT_END + 1 - i
  {
    if i > RIGHT_END then Attempt(inv, next, false)
    else if IsEmptySlot(inv[i]) then Attempt(inv[i := Some(next)], next, true)
    else if Similar(inv[i].value, next) && inv[i].value.amount < max then
      var can := Min(next.amount, max - inv[i].value.amount);
      var inv' := inv[i := Some(inv[i].value.(amount := inv[i].value.amount + can))];
      var next' := next.(amount := next.amount - can);
      if next'.amount <= 0 then Attempt(inv', next', true) else PlaceFrom(inv', i + 1, next', max)
    else PlaceFrom(inv, i + 1, next, max)
  }

  /** The replay: entries are placed in list order, and the replay stops at
      the first entry that cannot be placed completely, which stays in front
      of the untouched later entries with what is left of it. */
  function Replay(inv: Slots, list: seq<Stack>, maxStack: Material -> int): (r: (Slots, seq<Stack>))
    requires |inv| == SIZE
    ensures |r.0| == SIZE
    ensures |r.1| <= |list|
    ensures |r.1| > 0 ==> r.1[1..] == list[|list| - |r.1| + 1..] && Similar(r.1[0], list[|list| - |r.1|])
    decreases |list|
  {
    if |list| == 0 then (inv, [])
    else
      var a := PlaceFrom(inv, RIGHT_START, list[0], maxStack(list[0].mat));
      if a.placed then
        var r := Replay(a.slots, list[1..], maxStack);
        assert |r.1| > 0 ==> list[1..][|list| - 1 - |r.1| + 1..] == list[|list| - |r.1| + 1..];
        assert |r.1| > 0 ==> list[1..][|list| - 1 - |r.1|] == list[|list| - |r.1|];
        r
      else
        PlaceRestSimilar(inv, RIGHT_START, list[0], maxStack(list[0].mat));
        (a.slots, [a.rest] + list[1..])
  }

  /** Sum of the amounts in the non-empty slots. */
  function Held(s: Slots): int
  {
    if |s| == 0 then 0
    else Held(s[..|s| - 1]) + (if IsEmptySlot(s[|s| - 1]) then 0 else s[|s| - 1].value.amount)
  }

  /** What is left of an entry that was not placed is similar to it. */
  lemma {:induction false} PlaceRestSimilar(inv: Slots, i: int, next: Stack, max: int)
    requires |inv| == SIZE && RIGHT_START <= i <= RIGHT_END + 1
    ensures Similar(PlaceFrom(inv, i, next, max).rest, next)
    decreases RIGHT_END + 1 - i
  {
    if i <= RIGHT_END && !IsEmptySlot(inv[i]) {
      if Similar(inv[i].value, next) && inv[i].value.amount < max {
        var can := Min(next.amount, max - inv[i].value.amount);
        var inv' := inv[i := Some(inv[i].value.(amount := inv[i].value.amount + can))];
        var next' := next.(amount := next.amount - can);
        if next'.amount > 0 {
          PlaceRestSimilar(inv', i + 1, next', max);
        }
      } else {
        PlaceRestSimilar(inv, i + 1, next, max);
      }
    }
  }

  /** Placing one entry changes only output slots from `i` on, each of which
      was empty or similar to the entry. */
  lemma {:induction false} PlaceFrame(inv: Slots, i: int, next: Stack, max: int)
    requires |inv| == SIZE && RIGHT_START <= i <= RIGHT_END + 1
    ensures forall j :: 0 <= j < SIZE && PlaceFrom(inv, i, next, max).slots[j] != inv[j] ==>
              i <= j <= RIGHT_END && (IsEmptySlot(inv[j]) || Similar(inv[j].value, next))
    decreases RIGHT_END + 1 - i
  {
    if i <= RIGHT_END && !IsEmptySlot(inv[i]) {
      if Similar(inv[i].value, next) && inv[i].value.amount < max {
        var can := Min(next.amount, max - inv[i].value.amount);
        var inv' := inv[i := Some(inv[i].value.(amount := inv[i].value.amount + can))];
        var next' := next.(amount := next.amount - can);
        if next'.amount > 0 {
          PlaceFrame(inv', i + 1, next', max);
        }
      } else {
        PlaceFrame(inv, i + 1, next, max);
      }
    }
  }

  /** An entry that cannot be placed found no empty output slot from `i` on. */
  lemma {:induction false} NotPlacedMeansNoEmptySlot(inv: Slots, i: int, next: Stack, max: int)
    requires |inv| == SIZE && RIGHT_START <= i <= RIGHT_END + 1
    ensures !PlaceFrom(inv, i, next, max).placed ==> forall j :: i <= j <= RIGHT_END ==> !IsEmptySlot(inv[j])
    decreases RIGHT_END + 1 - i
  {
    if i <= RIGHT_END && !IsEmptySlot(inv[i]) {
      if Similar(inv[i].value, next) && inv[i].value.amount < max {
        var can := Min(next.amount, max - inv[i].value.amount);
        var inv' := inv[i := Some(inv[i].value.(amount := inv[i].value.amount + can))];
        var next' := next.(amount := next.amount - can);
        if next'.amount > 0 {
          NotPlacedMeansNoEmptySlot(inv', i + 1, next', max);
          assert forall j :: i < j <= RIGHT_END ==> inv'[j] == inv[j];
        }
      } else {
        NotPlacedMeansNoEmptySlot(inv, i + 1, next, max);
      }
    }
  }

  /** Placing conserves the quantity: what the slots gain is what the entry
      loses (all of it when placed). */
  lemma {:induction false} PlaceConserves(inv: Slots, i: int, next: Stack, max: int)
    requires |inv| == SIZE && RIGHT_START <= i <= RIGHT_END + 1 && next.mat != AIR
    ensures var a := PlaceFrom(inv, i, next, max);
      Held(a.slots) + (if a.placed then 0 else a.rest.amount) == Held(inv) + next.amount
    decreases RIGHT_END + 1 - i
  {
    if i <= RIGHT_END {
      if IsEmptySlot(inv[i]) {
        HeldUpdate(inv, i, Some(next));
      } else if Similar(inv[i].value, next) && inv[i].value.amount < max {
        var can := Min(next.amount, max - inv[i].value.amount);
        var x := Some(inv[i].value.(amount := inv[i].value.amount + can));
        var next' := next.(amount := next.amount - can);
        HeldUpdate(inv, i, x);
        if next'.amount > 0 {
          PlaceConserves(inv[i := x], i + 1, next', max);
        }
      } else {
        PlaceConserves(inv, i + 1, next, max);
      }
    }
  }

  /** The held amount after replacing one slot. */
  lemma {:induction false} HeldUpdate(s: Slots, j: int, x: Option<Stack>)
    requires 0 <= j < |s|
    ensures Held(s[j := x]) == Held(s) - Held([s[j]]) + Held([x])
    decreases |s|
  {
    assert [s[j]][..0] == [] && [x][..0] == [];
    if j == |s| - 1 {
      assert s[j := x][..|s| - 1] == s[..|s| - 1];
    } else {
      assert s[j := x][..|s| - 1] == s[..|s| - 1][j := x];
      HeldUpdate(s[..|s| - 1], j, x);
    }
  }

  /** The replay conserves the total across the window and the list. */
  lemma {:induction false} ReplayConserves(inv: Slots, list: seq<Stack>, maxStack: Material -> int)
    requires |inv| == SIZE
    requires forall k :: 0 <= k < |list| ==> list[k].mat != AIR
    ensures Held(Replay(inv, list, maxStack).0) + Total(Replay(inv, list, maxStack).1) == Held(inv) + Total(list)
    decreases |list|
  {
    if |list| > 0 {
      var a := PlaceFrom(inv, RIGHT_START, list[0], maxStack(list[0].mat));
      PlaceConserves(inv, RIGHT_START, list[0], maxStack(list[0].mat));
      TotalCons(list);
      if a.placed {
        ReplayConserves(a.slots, list[1..], maxStack);
      } else {
        TotalCons([a.rest] + list[1..]);
        assert ([a.rest] + list[1..])[1..] == list[1..];
      }
    }
  }

  /** The total of a non-empty list is its first amount plus the rest's total. */
  lemma TotalCons(list: seq<Stack>)
    requires |list| > 0
    ensures Total(list) == list[0].amount + Total(list[1..])
  {
    assert list == [list[0]] + list[1..];
    TotalAppend([list[0]], list[1..]);
    assert [list[0]][..0] == [];
  }

  /** The replay changes output slots only. */
  lemma {:induction false} ReplayFrame(inv: Slots, list: seq<Stack>, maxStack: Material -> int)
    requires |inv| == SIZE
    ensures forall j :: 0 <= j < SIZE && !IsOutputSlot(j) ==> Replay(inv, list, maxStack).0[j] == inv[j]
    decreases |list|
  {
    if |list| > 0 {
      var a := PlaceFrom(inv, RIGHT_START, list[0], maxStack(list[0].mat));
      PlaceFrame(inv, RIGHT_START, list[0], maxStack(list[0].mat));
      if a.placed {
        ReplayFrame(a.slots, list[1..], maxStack);
      }
    }
  }

  /* ---------------- the storage operations ---------------- */

  /** `getItems(uuid)`: the owner's list, empty when there is none. */
  function GetItems(st: Storage, owner: Uuid): (r: seq<Stack>)
    ensures owner !in st ==> r == []
    ensures owner in st ==> r == st[owner]
  {
    if owner in st then st[owner] else []
  }

  /** `addItem(uuid, item)`: merge into the owner's list, creating it when absent. */
  function AddItem(st: Storage, owner: Uuid, item: Stack, max: int): (r: Storage)
    ensures r.Keys == st.Keys + {owner}
    ensures forall o :: o in st && o != owner ==> r[o] == st[o]
    ensures Total(GetItems(r, owner)) == Total(GetItems(st, owner)) + item.amount
    ensures r[owner] == MergeIntoList(GetItems(st, owner), item, max)
  {
    st[owner := MergeIntoList(GetItems(st, owner), item, max)]
  }

  /** `clear(uuid)`. */
  function Clear(st: Storage, owner: Uuid): (r: Storage)
    ensures owner !in r && GetItems(r, owner) == []
    ensures forall o :: o != owner ==> (o in r <==> o in st) && GetItems(r, o) == GetItems(st, o)
  {
    st - {owner}
  }

  /** The body of `tryRepopulate` once its delay has passed: nothing when the
      owner has no list or an empty one; otherwise the replay, after which a
      drained list removes the owner's entry. */
  function TryRepopulate(st: Storage, owner: Uuid, inv: Slots, maxStack: Material -> int): (r: (Storage, Slots))
    requires |inv| == SIZE
    ensures |r.1| == SIZE
    ensures owner !in st || |st[owner]| == 0 ==> r == (st, inv)
    ensures forall o :: o != owner ==> (o in r.0 <==> o in st) && GetItems(r.0, o) == GetItems(st, o)
    ensures owner in st && |st[owner]| > 0 ==>
              (owner in r.0 <==> |Replay(inv, st[owner], maxStack).1| > 0) &&
              GetItems(r.0, owner) == Replay(inv, st[owner], maxStack).1
    ensures owner in st && |st[owner]| > 0 ==> r.1 == Replay(inv, st[owner], maxStack).0
  {
    if owner !in st || |st[owner]| == 0 then (st, inv)
    else
      var rp := Replay(inv, st[owner], maxStack);
      if |rp.1| == 0 then (st - {owner}, rp.0) else (st[owner := rp.1], rp.0)
  }

  /** A replay that drains the list removes the owner, and `getItems` then
      returns the empty list. */
  lemma DrainedOwnerRemoved(st: Storage, owner: Uuid, inv: Slots, maxStack: Material -> int)
    requires |inv| == SIZE && owner in st && |st[owner]| > 0
    requires |Replay(inv, st[owner], maxStack).1| == 0
    ensures owner !in TryRepopulate(st, owner, inv, maxStack).0
    ensures GetItems(TryRepopulate(st, owner, inv, maxStack).0, owner) == []
  {
  }

  /** Repopulating moves items between the owner's list and the window
      without losing or inventing any, and touches only output slots. */
  lemma TryRepopulateConserves(st: Storage, owner: Uuid, inv: Slots, maxStack: Material -> int)
    requires |inv| == SIZE
    requires forall k :: 0 <= k < |GetItems(st, owner)| ==> GetItems(st, owner)[k].mat != AIR
    ensures Held(TryRepopulate(st, owner, inv, maxStack).1) + Total(GetItems(TryRepopulate(st, owner, inv, maxStack).0, owner)) ==
            Held(inv) + Total(GetItems(st, owner))
    ensures forall j :: 0 <= j < SIZE && !IsOutputSlot(j) ==> TryRepopulate(st, owner, inv, maxStack).1[j] == inv[j]
  {
    if owner in st && |st[owner]| > 0 {
      assert GetItems(st, owner) == st[owner];
      ReplayConserves(inv, st[owner], maxStack);
      ReplayFrame(inv, st[owner], maxStack);
    }
  }
}

=== FILE: persistence.dfy ===
/** Placed recycling-table blocks (`TablePersistence`): the block key built
    from a location, and the two maps from key to window contents and to
    placement time that are kept in step. */
module Persistence {
  import opened Wrappers
  import opened Items
  import opened Gui

  /* ---------------- decimal text ---------------- */

  function DigitChar(d: int): (c: char)
    requires 0 <= d < 10
    ensures '0' <= c <= '9'
  {
    ('0' as int + d) as char
  }

  predicate IsDigits(s: string)
  {
    forall k :: 0 <= k < |s| ==> '0' <= s[k] <= '9'
  }

  /** The decimal digits of `n`, most significant first, without leading zeros. */
  function NatText(n: nat): (s: string)
    ensures |s| > 0 && IsDigits(s)
    decreases n
  {
    if n < 10 then [DigitChar(n)] else NatText(n / 10) + [DigitChar(n % 10)]
  }

  /** Java's decimal rendering of an `int` in string concatenation. */
  function IntText(i: int): (s: string)
    ensures |s| > 0 && ':' !in s
  {
    if i < 0 then "-" + NatText(-i) else NatText(i)
  }

  /** The number a digit string denotes. */
  function ParseNat(s: string): nat
    requires IsDigits(s)
  {
    if |s| == 0 then 0 else ParseNat(s[..|s| - 1]) * 10 + (s[|s| - 1] as int - '0' as int)
  }

  /** The number a rendering denotes: a leading minus negates the digits. */
  function ParseInt(s: string): int
  {
    if |s| > 0 && s[0] == '-' && IsDigits(s[1..]) then -(ParseNat(s[1..]) as int)
    else if IsDigits(s) then ParseNat(s)
    else 0
  }

  lemma {:induction false} NatTextRoundTrip(n: nat)
    ensures ParseNat(NatText(n)) == n
    decreases n
  {
    if n >= 10 {
      NatTextRoundTrip(n / 10);
      var s := NatText(n / 10) + [DigitChar(n % 10)];
      assert s[..|s| - 1] == NatText(n / 10);
    }
  }

  /** Reading back a rendering gives the number. */
  lemma IntTextRoundTrip(i: int)
    ensures ParseInt(IntText(i)) == i
  {
    if i < 0 {
      NatTextRoundTrip(-i);
      assert IntText(i)[1..] == NatText(-i);
    } else {
      NatTextRoundTrip(i);
    }
  }

  /* ---------------- keyFor ---------------- */

  /** A block location: the world's name (`None` when the world is missing)
      and the block coordinates. */
  datatype Location = Location(world: Option<string>, x: int, y: int, z: int)

  /** Why `keyFor` throws. */
  datatype KeyError = NullOrInvalidLocation

  /** `keyFor(loc)`: `world:x:y:z`; a missing location or world throws. */
  function KeyFor(loc: Option<Location>): (r: Result<string, KeyError>)
    ensures r.Err? <==> loc.None? || loc.value.world.None?
  {
    if loc.None? || loc.value.world.None? then Err(NullOrInvalidLocation)
    else
      var l := loc.value;
      Ok(l.world.value + ":" + IntText(l.x) + ":" + IntText(l.y) + ":" + IntText(l.z))
  }

  /** The position of the last colon of `s`, if any. */
  function LastColon(s: string): (r: Option<nat>)
    ensures r.Some? ==> r.value < |s| && s[r.value] == ':'
    ensures r.None? ==> ':' !in s
  {
    if |s| == 0 then None
    else if s[|s| - 1] == ':' then Some(|s| - 1)
    else
      var r := LastColon(s[..|s| - 1]);
      assert s == s[..|s| - 1] + [s[|s| - 1]];
      r
  }

  /** The text before and after the last colon. */
  function SplitLast(s: string): (string, string)
  {
    match LastColon(s)
    case None => ("", s)
    case Some(k) => (s[..k], s[k + 1..])
  }

  lemma {:induction false} LastColonOf(a: string, b: string)
    requires ':' !in b
    ensures LastColon(a + ":" + b) == Some(|a|)
    decreases |b|
  {
    var s := a + ":" + b;
    if |b| > 0 {
      assert s[..|s| - 1] == a + ":" + b[..|b| - 1];
      LastColonOf(a, b[..|b| - 1]);
    }
  }

  lemma SplitLastOf(a: string, b: string)
    requires ':' !in b
    ensures SplitLast(a + ":" + b) == (a, b)
  {
    LastColonOf(a, b);
    var s := a + ":" + b;
    assert s[..|a|] == a && s[|a| + 1..] == b;
  }

  /** The location a key names: the coordinates are read from the right,
      so a world name may itself contain colons. */
  function ParseKey(key: string): Location
  {
    var (r1, zs) := SplitLast(key);
    var (r2, ys) := SplitLast(r1);
    var (w, xs) := SplitLast(r2);
    Location(Some(w), ParseInt(xs), ParseInt(ys), ParseInt(zs))
  }

  /** Reading a key back gives the location it was built from. */
  lemma KeyRoundTrip(loc: Location)
    requires loc.world.Some?
    ensures KeyFor(Some(loc)).Ok? && ParseKey(KeyFor(Some(loc)).value) == loc
  {
    var w := loc.world.value;
    var xs, ys, zs := IntText(loc.x), IntText(loc.y), IntText(loc.z);
    SplitLastOf(w + ":" + xs + ":" + ys, zs);
    SplitLastOf(w + ":" + xs, ys);
    SplitLastOf(w, xs);
    IntTextRoundTrip(loc.x);
    IntTextRoundTrip(loc.y);
    IntTextRoundTrip(loc.z);
  }

  /** Different blocks get different keys. */
  lemma KeyInjective(a: Location, b: Location)
    requires a.world.Some? && b.world.Some? && KeyFor(Some(a)) == KeyFor(Some(b))
    ensures a == b
  {
    KeyRoundTrip(a);
    KeyRoundTrip(b);
  }

  /* ---------------- the two maps ---------------- */

  /** The window contents and the placement time (milliseconds) by key. */
  datatype Tables = Tables(inventories: map<string, Slots>, placedAt: map<string, int>)

  /** Both maps always hold the same keys. */
  predicate InStep(t: Tables)
  {
    t.inventories.Keys == t.placedAt.Keys
  }

  /** A fresh 54-slot window. */
  function EmptyWindow(): (w: Slots)
    ensures |w| == SIZE && forall i :: 0 <= i < SIZE ==> w[i] == None
  {
    seq(SIZE, i => None)
  }

  /** `registerInventoryForBlock(b, inv)` at time `now`; `createInventoryForBlock`
      is this with a fresh window. A failing `keyFor` leaves both maps as
      they were. */
  function Register(t: Tables, loc: Option<Location>, inv: Slots, now: int): (r: Result<Tables, KeyError>)
    ensures r.Err? <==> KeyFor(loc).Err?
    ensures r.Ok? ==> var key := KeyFor(loc).value;
              key in r.value.inventories && key in r.value.placedAt &&
              r.value.inventories[key] == inv && r.value.placedAt[key] == now &&
              r.value.inventories.Keys == t.inventories.Keys + {key} &&
              r.value.placedAt.Keys == t.placedAt.Keys + {key}
    ensures r.Ok? ==> forall k :: k != KeyFor(loc).value ==> Unchanged(t, r.value, k)
  {
    match KeyFor(loc)
    case Err(e) => Err(e)
    case Ok(key) => Ok(Tables(t.inventories[key := inv], t.placedAt[key := now]))
  }

  /** `createInventoryForBlock(b)`: the new window is returned as well. */
  function Create(t: Tables, loc: Option<Location>, now: int): (r: Result<(Tables, Slots), KeyError>)
    ensures r.Err? <==> KeyFor(loc).Err?
    ensures r.Ok? ==> r.value.0 == Register(t, loc, r.value.1, now).value
    ensures r.Ok? ==> |r.value.1| == SIZE && forall i :: 0 <= i < SIZE ==> r.value.1[i] == None
  {
    var w := EmptyWindow();
    match Register(t, loc, w, now)
    case Err(e) => Err(e)
    case Ok(t') => Ok((t', w))
  }

  /** `isRecyclingTableBlock(b)`. */
  function IsTableBlock(t: Tables, loc: Option<Location>): (r: Result<bool, KeyError>)
    ensures r.Err? <==> KeyFor(loc).Err?
    ensures r.Ok? ==> (r.value <==> KeyFor(loc).value in t.inventories)
  {
    match KeyFor(loc)
    case Err(e) => Err(e)
    case Ok(key) => Ok(key in t.inventories)
  }

  /** `getInventoryForBlock(b)`: `None` for an unknown block. */
  function GetInventory(t: Tables, loc: Option<Location>): (r: Result<Option<Slots>, KeyError>)
    ensures r.Err? <==> KeyFor(loc).Err?
    ensures r.Ok? ==> (r.value.Some? <==> KeyFor(loc).value in t.inventories)
    ensures r.Ok? && r.value.Some? ==> r.value.value == t.inventories[KeyFor(loc).value]
  {
    match KeyFor(loc)
    case Err(e) => Err(e)
    case Ok(key) => Ok(if key in t.inventories then Some(t.inventories[key]) else None)
  }

  /** `unregisterBlock(b)`: the key leaves both maps. */
  function Unregister(t: Tables, loc: Option<Location>): (r: Result<Tables, KeyError>)
    ensures r.Err? <==> KeyFor(loc).Err?
    ensures r.Ok? ==> KeyFor(loc).value !in r.value.inventories && KeyFor(loc).value !in r.value.placedAt
    ensures r.Ok? ==> forall k :: k != KeyFor(loc).value ==> Unchanged(t, r.value, k)
  {
    match KeyFor(loc)
    case Err(e) => Err(e)
    case Ok(key) => Ok(Tables(t.inventories - {key}, t.placedAt - {key}))
  }

  /** Key `k` means the same in both states. */
  predicate Unchanged(t: Tables, t': Tables, k: string)
  {
    (k in t'.inventories <==> k in t.inventories) && (k in t'.placedAt <==> k in t.placedAt) &&
    (k in t.inventories ==> t'.inventories[k] == t.inventories[k]) &&
    (k in t.placedAt ==> t'.placedAt[k] == t.placedAt[k])
  }

  /* ---------------- properties ---------------- */

  /** After registering, the block is a table and its window is the one given. */
  lemma RegisterThenLookup(t: Tables, loc: Location, inv: Slots, now: int)
    requires loc.world.Some?
    ensures Register(t, Some(loc), inv, now).Ok?
    ensures IsTableBlock(Register(t, Some(loc), inv, now).value, Some(loc)) == Ok(true)
    ensures GetInventory(Register(t, Some(loc), inv, now).value, Some(loc)) == Ok(Some(inv))
  {
  }

  /** After unregistering, the block is no table. */
  lemma UnregisterThenLookup(t: Tables, loc: Location)
    requires loc.world.Some?
    ensures Unregister(t, Some(loc)).Ok?
    ensures IsTableBlock(Unregister(t, Some(loc)).value, Some(loc)) == Ok(false)
    ensures GetInventory(Unregister(t, Some(loc)).value, Some(loc)) == Ok(None)
  {
  }

  /** Every operation keeps the two maps in step. */
  lemma OperationsKeepInStep(t: Tables, loc: Option<Location>, inv: Slots, now: int)
    requires InStep(t)
    ensures Register(t, loc, inv, now).Ok? ==> InStep(Register(t, loc, inv, now).value)
    ensures Create(t, loc, now).Ok? ==> InStep(Create(t, loc, now).value.0)
    ensures Unregister(t, loc).Ok? ==> InStep(Unregister(t, loc).value)
  {
  }

  /** Registering one block never disturbs another block's entry. */
  lemma OtherBlocksUntouched(t: Tables, a: Location, b: Location, inv: Slots, now: int)
    requires a.world.Some? && b.world.Some? && a != b
    ensures IsTableBlock(Register(t, Some(a), inv, now).value, Some(b)) == IsTableBlock(t, Some(b))
    ensures GetInventory(Register(t, Some(a), inv, now).value, Some(b)) == GetInventory(t, Some(b))
    ensures IsTableBlock(Unregister(t, Some(a)).value, Some(b)) == IsTableBlock(t, Some(b))
  {
    if KeyFor(Some(a)) == KeyFor(Some(b)) {
      KeyInjective(a, b);
    }
  }
}

=== FILE: processing.dfy ===
/** What finishing one unit job produces (`RecycleSession.processSingleItem`):
    the decomposition scaled by the durability factor and floored per
    material, a one-unit fallback when everything floors to zero, the
    first-fit deposit of each material into the output slots 27..53, and the
    enchanted books that go into the first empty output slot. */
module Processing {
  import opened Wrappers
  import opened Items
  import opened JavaMath
  import opened Recipes
  import opened Complexity
  import opened Compatibility
  import opened Enchants
  import opened Gui

  /** Everything processing and timing read from outside the session: the
      recipe index (with a rank that witnesses its decomposition terminates),
      the score tables, the configured speed multiplier, each material's
      maximum stack size, what the durability lookups report for an item, and
      the enchantment settings. */
  datatype Env = Env(
    book: RecipeBook,
    rank: Material -> nat,
    tables: ScoreTables,
    speed: real,
    maxStack: Material -> int,
    probe: Stack -> Probe,
    enchantmentsEnabled: bool,
    enchantCfg: EnchantConfig,
    maxLevel: Enchantment -> int)

  /** Decomposition terminates, the speed multiplier is not zero (the source
      would divide by it) and every material stacks to at least one. */
  ghost predicate ValidEnv(env: Env)
  {
    Ranked(env.book, env.rank) && env.speed != 0.0 && forall m :: env.maxStack(m) >= 1
  }

  /** `(int) Math.floor(amount * factor)`. */
  function Scaled(amount: int, f: real): int
  {
    (amount as real * f).Floor
  }

  /** Sum of the amounts of the stacks of material `m`. */
  function AmountOf(raw: seq<Stack>, m: Material): int
  {
    if |raw| == 0 then 0
    else AmountOf(raw[..|raw| - 1], m) + (if raw[|raw| - 1].mat == m then raw[|raw| - 1].amount else 0)
  }

  /** Sum of the positive scaled amounts of the stacks of material `m`: the
      reference for what the aggregation records for `m`. */
  function FlooredOf(raw: seq<Stack>, f: real, m: Material): (r: int)
    ensures r >= 0
  {
    if |raw| == 0 then 0
    else
      var s := raw[|raw| - 1];
      FlooredOf(raw[..|raw| - 1], f, m) + (if s.mat == m && Scaled(s.amount, f) > 0 then Scaled(s.amount, f) else 0)
  }

  /** The aggregation loop: each stack's scaled amount, when positive, is
      merged into its material's entry by addition. */
  function Aggregate(raw: seq<Stack>, f: real): (a: map<Material, int>)
    ensures forall m :: m in a ==> a[m] > 0
    ensures a.Keys <= MaterialsOf(raw)
  {
    if |raw| == 0 then map[]
    else
      var a := Aggregate(raw[..|raw| - 1], f);
      var s := raw[|raw| - 1];
      var fl := Scaled(s.amount, f);
      assert MaterialsOf(raw[..|raw| - 1]) <= MaterialsOf(raw) by {
        forall x | x in MaterialsOf(raw[..|raw| - 1])
          ensures x in MaterialsOf(raw)
        {
          var k :| 0 <= k < |raw| - 1 && raw[..|raw| - 1][k].mat == x;
          assert raw[k].mat == x;
        }
      }
      if fl > 0 then a[s.mat := (if s.mat in a then a[s.mat] else 0) + fl] else a
  }

  /** The outputs of one job: the aggregation, or when it is empty and the
      decomposition is not, one unit of a decomposed material. `draw` stands
      for the random number that selects it. */
  function Outputs(raw: seq<Stack>, f: real, draw: nat): (r: map<Material, int>)
    ensures |Aggregate(raw, f)| > 0 ==> r == Aggregate(raw, f)
    ensures |Aggregate(raw, f)| == 0 && |raw| > 0 ==>
              |r| == 1 && r.Keys <= MaterialsOf(raw) && forall m :: m in r ==> r[m] == 1
    ensures |raw| == 0 ==> r == map[]
    ensures forall m :: m in r ==> r[m] > 0
  {
    var a := Aggregate(raw, f);
    if |a| > 0 then a
    else if |raw| == 0 then map[]
    else
      var m := raw[draw % |raw|].mat;
      assert m in MaterialsOf(raw);
      map[m := 1]
  }

  /* ---------------- deposit ---------------- */

  /** The result of placing items into a window: the new slots and the
      quantity that did not fit. */
  datatype Placed = Placed(slots: Slots, leftover: int)

  /** A slot that takes no more of `m`: occupied, and full if it holds `m`. */
  predicate Full(s: Option<Stack>, m: Material, max: int)
  {
    !IsEmptySlot(s) && (s.value.mat == m ==> s.value.amount >= max)
  }

  /** One slot of the first-fit loop for `rem` units of `m`: an empty slot
      gets a new stack of up to `max`; a slot of the same material below
      `max` is topped up; any other slot is left alone. Returns the new slot
      and the quantity it took. */
  function FillSlot(s: Option<Stack>, m: Material, rem: int, max: int): (r: (Option<Stack>, int))
    requires rem > 0 && max >= 1
    ensures r.1 == Min(rem, RoomIn(s, m, max))
    ensures r.0 != s ==> Holds(r.0, m, max) && (IsEmptySlot(s) || (s.value.mat == m && s.value.amount < max))
  {
    if IsEmptySlot(s) then
      var place := Min(rem, max);
      (Some(Plain(m, place)), place)
    else if s.value.mat == m && s.value.amount < max then
      var add := Min(rem, max - s.value.amount);
      (Some(s.value.(amount := s.value.amount + add)), add)
    else
      (s, 0)
  }

  /** What one slot takes is added to its count of `m`, and a slot that
      leaves a remainder is full for `m`. */
  lemma FillSlotCounts(s: Option<Stack>, m: Material, rem: int, max: int)
    requires rem > 0 && max >= 1 && m != AIR
    ensures CountOf([FillSlot(s, m, rem, max).0], m) == CountOf([s], m) + FillSlot(s, m, rem, max).1
    ensures rem - FillSlot(s, m, rem, max).1 > 0 ==> Full(FillSlot(s, m, rem, max).0, m, max)
  {
    assert [s][..0] == [];
    assert [FillSlot(s, m, rem, max).0][..0] == [];
  }

  /** The first-fit loop for one material from slot `i` on. */
  function DepositFrom(inv: Slots, i: int, m: Material, rem: int, max: int): (p: Placed)
    requires |inv| == SIZE && RIGHT_START <= i <= RIGHT_END + 1 && max >= 1
    ensures |p.slots| == SIZE
    decreases RIGHT_END + 1 - i
  {
    if i > RIGHT_END || rem <= 0 then Placed(inv, rem)
    else
      var r := FillSlot(inv[i], m, rem, max);
      DepositFrom(inv[i := r.0], i + 1, m, rem - r.1, max)
  }

  /** A slot holding `m` within the stack limit. */
  predicate Holds(s: Option<Stack>, m: Material, max: int)
  {
    s.Some? && s.value.mat == m && s.value.amount <= max
  }

  /** How much of `m` one slot can still take. */
  function RoomIn(s: Option<Stack>, m: Material, max: int): (r: int)
    ensures r >= 0
    ensures max >= 1 ==> (r == 0 <==> Full(s, m, max))
  {
    if IsEmptySlot(s) then Max(0, max)
    else if s.value.mat == m then Max(0, max - s.value.amount)
    else 0
  }

  /** How much of `m` the slots from `i` to the last output slot can take. */
  function Room(inv: Slots, i: int, m: Material, max: int): (r: int)
    requires |inv| == SIZE && RIGHT_START <= i <= RIGHT_END + 1
    ensures r >= 0
    decreases RIGHT_END + 1 - i
  {
    if i > RIGHT_END then 0 else RoomIn(inv[i], m, max) + Room(inv, i + 1, m, max)
  }

  /** Total amount of `m` in the slots that hold it. */
  function CountOf(s: Slots, m: Material): int
  {
    if |s| == 0 then 0
    else CountOf(s[..|s| - 1], m) + (if s[|s| - 1].Some? && s[|s| - 1].value.mat == m then s[|s| - 1].value.amount else 0)
  }

  /** The slot at and after index `i` that an enchanted book goes into: the
      first empty output slot. */
  function FirstEmptyOutput(inv: Slots, i: int): (k: Option<int>)
    requires |inv| == SIZE && RIGHT_START <= i <= RIGHT_END + 1
    ensures k.Some? ==> i <= k.value <= RIGHT_END && IsEmptySlot(inv[k.value])
    ensures k.Some? ==> forall j :: i <= j < k.value ==> !IsEmptySlot(inv[j])
    ensures k.None? <==> forall j :: i <= j <= RIGHT_END ==> !IsEmptySlot(inv[j])
    decreases RIGHT_END + 1 - i
  {
    if i > RIGHT_END then None
    else if IsEmptySlot(inv[i]) then Some(i)
    else FirstEmptyOutput(inv, i + 1)
  }

  /** The result of placing one book: the new slots and whether it fit. */
  datatype BookPlacement = BookPlacement(slots: Slots, placed: bool)

  /** A book goes whole into the first empty output slot and is never merged. */
  function PlaceBook(inv: Slots, book: Stack): (b: BookPlacement)
    requires |inv| == SIZE
    ensures |b.slots| == SIZE
    ensures b.placed <==> exists j :: RIGHT_START <= j <= RIGHT_END && IsEmptySlot(inv[j])
    ensures b.placed ==> b.slots == inv[FirstEmptyOutput(inv, RIGHT_START).value := Some(book)]
    ensures !b.placed ==> b.slots == inv
  {
    match FirstEmptyOutput(inv, RIGHT_START)
    case Some(k) => BookPlacement(inv[k := Some(book)], true)
    case None => BookPlacement(inv, false)
  }

  /** `after` differs from `before` only in output slots that were empty or
      held a material of `mats`, and every changed slot holds one of `mats`. */
  predicate DepositedOnly(before: Slots, after: Slots, mats: set<Material>)
    requires |before| == SIZE && |after| == SIZE
  {
    forall j :: 0 <= j < SIZE && after[j] != before[j] ==>
      IsOutputSlot(j) && (IsEmptySlot(before[j]) || before[j].value.mat in mats) &&
      after[j].Some? && after[j].value.mat in mats
  }

  /** `after` differs from `before` only in output slots that were empty and
      now hold one of `books`. */
  predicate BooksOnly(before: Slots, after: Slots, books: seq<Stack>)
    requires |before| == SIZE && |after| == SIZE
  {
    forall j :: 0 <= j < SIZE && after[j] != before[j] ==>
      IsOutputSlot(j) && IsEmptySlot(before[j]) && after[j].Some? && after[j].value in books
  }

  /** The deposit loop over the outputs, in an order the host's map chooses;
      what does not fit is handed to the player (`toPlayer`). Nothing is lost
      or made up: for every material, what the window gains plus what the
      player receives is the output quantity; each material fills the output
      slots first fit, never beyond its stack limit; and a material is handed
      over only once every output slot is full for it. */
  method DepositAll(inv: Slots, outputs: map<Material, int>, maxStack: Material -> int)
    returns (slots: Slots, toPlayer: seq<Stack>)
    requires |inv| == SIZE && forall m :: maxStack(m) >= 1
    ensures |slots| == SIZE
    ensures DepositedOnly(inv, slots, outputs.Keys)
    ensures forall k :: 0 <= k < |toPlayer| ==> toPlayer[k].mat in outputs && toPlayer[k].amount > 0
    ensures forall x :: x != AIR ==>
              CountOf(slots, x) + AmountOf(toPlayer, x) == CountOf(inv, x) + (if x in outputs then Max(0, outputs[x]) else 0)
    ensures SpilledWhenFull(slots, toPlayer, maxStack)
    ensures FirstFit(inv, slots, maxStack)
  {
    slots := inv;
    toPlayer := [];
    var rest := outputs.Keys;
    while rest != {}
      invariant rest <= outputs.Keys
      invariant |slots| == SIZE
      invariant DepositedOnly(inv, slots, outputs.Keys)
      invariant HandedOver(toPlayer, outputs)
      invariant DepositBalance(inv, slots, toPlayer, outputs, rest)
      invariant SpilledWhenFull(slots, toPlayer, maxStack) && DoneWith(toPlayer, rest)
      invariant FirstFit(inv, slots, maxStack)
      decreases |rest|
    {
      var m :| m in rest;
      var p := DepositFrom(slots, RIGHT_START, m, outputs[m], maxStack(m));
      var given := if p.leftover > 0 then [Plain(m, p.leftover)] else [];
      DepositOnlyOutputs(slots, m, outputs[m], maxStack(m), outputs.Keys);
      DepositedOnlyTrans(inv, slots, p.slots, outputs.Keys);
      DepositLoopStep(inv, slots, toPlayer, outputs, rest, m, maxStack(m), given);
      SpillStep(slots, toPlayer, maxStack, rest, m, outputs[m], given);
      FirstFitStep(inv, slots, maxStack, m, outputs[m]);
      slots := p.slots;
      toPlayer := toPlayer + given;
      rest := rest - {m};
    }
  }

  /** Every material other than AIR that went to the player found every
      output slot full for it: nothing is handed over while the window could
      still take it. */
  predicate SpilledWhenFull(slots: Slots, toPlayer: seq<Stack>, maxStack: Material -> int)
    requires |slots| == SIZE
  {
    forall k :: 0 <= k < |toPlayer| && toPlayer[k].mat != AIR ==>
      AllFull(slots, RIGHT_START, toPlayer[k].mat, maxStack(toPlayer[k].mat))
  }

  /** The materials handed over so far are no longer to be deposited. */
  predicate DoneWith(toPlayer: seq<Stack>, rest: set<Material>)
  {
    forall k :: 0 <= k < |toPlayer| ==> toPlayer[k].mat !in rest
  }

  /** The loop body of `DepositAll` keeps the first-fit hand-over: the
      material just deposited is handed over only when every output slot is
      full for it, and it leaves the slots full for the earlier ones. */
  lemma SpillStep(slots: Slots, toPlayer: seq<Stack>, maxStack: Material -> int, rest: set<Material>,
                  m: Material, rem: int, given: seq<Stack>)
    requires |slots| == SIZE && maxStack(m) >= 1 && m in rest
    requires SpilledWhenFull(slots, toPlayer, maxStack) && DoneWith(toPlayer, rest)
    requires given == (if DepositFrom(slots, RIGHT_START, m, rem, maxStack(m)).leftover > 0
                       then [Plain(m, DepositFrom(slots, RIGHT_START, m, rem, maxStack(m)).leftover)] else [])
    ensures SpilledWhenFull(DepositFrom(slots, RIGHT_START, m, rem, maxStack(m)).slots, toPlayer + given, maxStack)
    ensures DoneWith(toPlayer + given, rest - {m})
  {
    var p := DepositFrom(slots, RIGHT_START, m, rem, maxStack(m));
    forall k | 0 <= k < |toPlayer| && toPlayer[k].mat != AIR
      ensures AllFull(p.slots, RIGHT_START, toPlayer[k].mat, maxStack(toPlayer[k].mat))
    {
      AllFullKept(slots, toPlayer[k].mat, maxStack(toPlayer[k].mat), m, rem, maxStack(m));
    }
    if p.leftover > 0 && m != AIR {
      DepositFull(slots, RIGHT_START, m, rem, maxStack(m));
    }
  }

  /** Depositing another material keeps every output slot full for `m2`:
      a full slot is occupied, so the deposit can only top it up with its own
      material. */
  lemma AllFullKept(slots: Slots, m2: Material, max2: int, m: Material, rem: int, max: int)
    requires |slots| == SIZE && max >= 1 && m != m2
    requires AllFull(slots, RIGHT_START, m2, max2)
    ensures AllFull(DepositFrom(slots, RIGHT_START, m, rem, max).slots, RIGHT_START, m2, max2)
  {
    DepositFrame(slots, RIGHT_START, m, rem, max);
  }

  /** The output slots from `lo` up to, not including, `hi` take no more of `m`. */
  predicate FullBetween(slots: Slots, lo: int, hi: int, m: Material, max: int)
    requires |slots| == SIZE && 0 <= lo && hi <= SIZE
  {
    forall i :: lo <= i < hi ==> Full(slots[i], m, max)
  }

  /** First fit within the stack limit: every slot that changed holds a
      stack no larger than its material's limit, and every output slot
      before it was already full for that material when it was used. AIR,
      which leaves a slot empty, is not constrained beyond the limit. */
  predicate FirstFit(before: Slots, after: Slots, maxStack: Material -> int)
    requires |before| == SIZE && |after| == SIZE
  {
    forall j :: 0 <= j < SIZE && after[j] != before[j] ==>
      after[j].Some? && after[j].value.amount <= maxStack(after[j].value.mat) &&
      (after[j].value.mat != AIR ==> FullBetween(after, RIGHT_START, j, after[j].value.mat, maxStack(after[j].value.mat)))
  }

  /** The one-material loop is first fit: a slot it changes comes after
      slots it has filled for `m`. */
  lemma {:induction false} DepositFirstFit(inv: Slots, i: int, m: Material, rem: int, max: int)
    requires |inv| == SIZE && RIGHT_START <= i <= RIGHT_END + 1 && max >= 1 && m != AIR
    ensures forall j :: i <= j < SIZE && DepositFrom(inv, i, m, rem, max).slots[j] != inv[j] ==>
              FullBetween(DepositFrom(inv, i, m, rem, max).slots, i, j, m, max)
    decreases RIGHT_END + 1 - i
  {
    if i <= RIGHT_END && rem > 0 {
      var r := FillSlot(inv[i], m, rem, max);
      var inv' := inv[i := r.0];
      var p := DepositFrom(inv', i + 1, m, rem - r.1, max);
      assert DepositFrom(inv, i, m, rem, max) == p;
      DepositFirstFit(inv', i + 1, m, rem - r.1, max);
      DepositKeepsBefore(inv', i + 1, m, rem - r.1, max);
      if rem - r.1 > 0 {
        FillSlotCounts(inv[i], m, rem, max);
      } else {
        assert p.slots == inv';
      }
    }
  }

  /** A deposit keeps slots full for `m2`: a full slot is occupied, so the
      deposit only touches it when it holds less than a full stack of the
      deposited material. */
  lemma FullKept(slots: Slots, lo: int, hi: int, m2: Material, max2: int, m: Material, rem: int, max: int)
    requires |slots| == SIZE && 0 <= lo && hi <= SIZE && max >= 1 && (m == m2 ==> max == max2)
    requires FullBetween(slots, lo, hi, m2, max2)
    ensures FullBetween(DepositFrom(slots, RIGHT_START, m, rem, max).slots, lo, hi, m2, max2)
  {
    DepositFrame(slots, RIGHT_START, m, rem, max);
  }

  /** The loop body of `DepositAll` keeps the window first fit. */
  lemma FirstFitStep(inv: Slots, slots: Slots, maxStack: Material -> int, m: Material, rem: int)
    requires |inv| == SIZE && |slots| == SIZE && forall x :: maxStack(x) >= 1
    requires FirstFit(inv, slots, maxStack)
    ensures FirstFit(inv, DepositFrom(slots, RIGHT_START, m, rem, maxStack(m)).slots, maxStack)
  {
    var p := DepositFrom(slots, RIGHT_START, m, rem, maxStack(m));
    DepositFrame(slots, RIGHT_START, m, rem, maxStack(m));
    if m != AIR {
      DepositFirstFit(slots, RIGHT_START, m, rem, maxStack(m));
    }
    forall j | 0 <= j < SIZE && p.slots[j] != inv[j]
      ensures p.slots[j].Some? && p.slots[j].value.amount <= maxStack(p.slots[j].value.mat)
      ensures p.slots[j].value.mat != AIR ==>
                FullBetween(p.slots, RIGHT_START, j, p.slots[j].value.mat, maxStack(p.slots[j].value.mat))
    {
      if p.slots[j] == slots[j] {
        var m2 := slots[j].value.mat;
        if m2 != AIR {
          FullKept(slots, RIGHT_START, j, m2, maxStack(m2), m, rem, maxStack(m));
        }
      }
    }
  }

  /** What has been handed to the player so far: positive amounts of output materials. */
  predicate HandedOver(toPlayer: seq<Stack>, outputs: map<Material, int>)
  {
    forall k :: 0 <= k < |toPlayer| ==> toPlayer[k].mat in outputs && toPlayer[k].amount > 0
  }

  /** Every material but AIR is accounted for: the window's gain plus what the
      player received is the output quantity of the materials already done. */
  ghost predicate DepositBalance(inv: Slots, slots: Slots, toPlayer: seq<Stack>, outputs: map<Material, int>,
                                 rest: set<Material>)
  {
    forall x :: x != AIR ==>
      CountOf(slots, x) + AmountOf(toPlayer, x) ==
      CountOf(inv, x) + (if x in outputs && x !in rest then Max(0, outputs[x]) else 0)
  }

  /** The loop body of `DepositAll` keeps the balance: the material just
      deposited moves from the still-to-do side to the done side. */
  lemma DepositLoopStep(inv: Slots, slots: Slots, toPlayer: seq<Stack>, outputs: map<Material, int>,
                        rest: set<Material>, m: Material, max: int, given: seq<Stack>)
    requires |inv| == SIZE && |slots| == SIZE && max >= 1 && m in rest && rest <= outputs.Keys
    requires DepositBalance(inv, slots, toPlayer, outputs, rest)
    requires HandedOver(toPlayer, outputs)
    requires given == (if DepositFrom(slots, RIGHT_START, m, outputs[m], max).leftover > 0
                       then [Plain(m, DepositFrom(slots, RIGHT_START, m, outputs[m], max).leftover)] else [])
    ensures DepositBalance(inv, DepositFrom(slots, RIGHT_START, m, outputs[m], max).slots, toPlayer + given, outputs, rest - {m})
    ensures HandedOver(toPlayer + given, outputs)
  {
    var p := DepositFrom(slots, RIGHT_START, m, outputs[m], max);
    DepositStep(slots, toPlayer, m, outputs[m], max, given);
    forall x | x != AIR
      ensures CountOf(p.slots, x) + AmountOf(toPlayer + given, x) ==
              CountOf(inv, x) + (if x in outputs && x !in rest - {m} then Max(0, outputs[x]) else 0)
    {
      assert CountOf(p.slots, x) + AmountOf(toPlayer + given, x) ==
             CountOf(slots, x) + AmountOf(toPlayer, x) + (if x == m then Max(0, outputs[m]) else 0);
    }
  }

  /** A deposit of one of `mats` changes slots as `DepositedOnly` allows. */
  lemma DepositOnlyOutputs(slots: Slots, m: Material, rem: int, max: int, mats: set<Material>)
    requires |slots| == SIZE && max >= 1 && m in mats
    ensures DepositedOnly(slots, DepositFrom(slots, RIGHT_START, m, rem, max).slots, mats)
  {
    DepositFrame(slots, RIGHT_START, m, rem, max);
  }

  /** One material's deposit conserves every material: the deposited one
      gains in the window what the request exceeds the leftover by, and every
      other one keeps its count; the leftover goes to the player. */
  lemma DepositStep(slots: Slots, toPlayer: seq<Stack>, m: Material, rem: int, max: int, given: seq<Stack>)
    requires |slots| == SIZE && max >= 1
    requires given == (if DepositFrom(slots, RIGHT_START, m, rem, max).leftover > 0
                       then [Plain(m, DepositFrom(slots, RIGHT_START, m, rem, max).leftover)] else [])
    ensures forall x :: x != AIR ==>
              CountOf(DepositFrom(slots, RIGHT_START, m, rem, max).slots, x) + AmountOf(toPlayer + given, x) ==
              CountOf(slots, x) + AmountOf(toPlayer, x) + (if x == m then Max(0, rem) else 0)
  {
    var p := DepositFrom(slots, RIGHT_START, m, rem, max);
    if rem >= 0 {
      DepositPlacesMin(slots, RIGHT_START, m, rem, max);
    }
    assert [Plain(m, p.leftover)][..0] == [];
    forall x | x != AIR
      ensures CountOf(p.slots, x) + AmountOf(toPlayer + given, x) ==
              CountOf(slots, x) + AmountOf(toPlayer, x) + (if x == m then Max(0, rem) else 0)
    {
      AmountOfAppend(toPlayer, given, x);
      if x == m && rem >= 0 {
        DepositConserves(slots, RIGHT_START, m, rem, max);
      } else {
        DepositFrame(slots, RIGHT_START, m, rem, max);
        CountUnchanged(slots, p.slots, x);
      }
    }
  }

  /** `AmountOf` distributes over concatenation. */
  lemma {:induction false} AmountOfAppend(a: seq<Stack>, b: seq<Stack>, x: Material)
    ensures AmountOf(a + b, x) == AmountOf(a, x) + AmountOf(b, x)
    decreases |b|
  {
    if |b| == 0 {
      assert a + b == a;
    } else {
      assert (a + b)[..|a + b| - 1] == a + b[..|b| - 1];
      AmountOfAppend(a, b[..|b| - 1], x);
    }
  }

  /** A slot that holds material `m`. */
  predicate HoldsMat(s: Option<Stack>, m: Material)
  {
    s.Some? && s.value.mat == m
  }

  /** Slots that change only where neither side holds `m` keep the count of `m`. */
  lemma {:induction false} CountUnchanged(a: Slots, b: Slots, m: Material)
    requires |a| == |b|
    requires forall j :: 0 <= j < |a| && a[j] != b[j] ==> !HoldsMat(a[j], m) && !HoldsMat(b[j], m)
    ensures CountOf(a, m) == CountOf(b, m)
    decreases |a|
  {
    if |a| > 0 {
      CountUnchanged(a[..|a| - 1], b[..|b| - 1], m);
    }
  }

  lemma DepositedOnlyTrans(a: Slots, b: Slots, c: Slots, mats: set<Material>)
    requires |a| == SIZE && |b| == SIZE && |c| == SIZE
    requires DepositedOnly(a, b, mats) && DepositedOnly(b, c, mats)
    ensures DepositedOnly(a, c, mats)
  {
    forall j | 0 <= j < SIZE && c[j] != a[j]
      ensures IsOutputSlot(j) && (IsEmptySlot(a[j]) || a[j].value.mat in mats) && c[j].Some? && c[j].value.mat in mats
    {
      if b[j] == a[j] {
        assert c[j] != b[j];
      } else if c[j] == b[j] {
      }
    }
  }

  /** No stack of the list is AIR. */
  predicate NoAir(s: seq<Stack>)
  {
    forall k :: 0 <= k < |s| ==> s[k].mat != AIR
  }

  /** The number of empty output slots from index `i` on. */
  function EmptyFrom(inv: Slots, i: int): nat
    requires |inv| == SIZE && RIGHT_START <= i <= RIGHT_END + 1
    decreases RIGHT_END + 1 - i
  {
    if i > RIGHT_END then 0 else (if IsEmptySlot(inv[i]) then 1 else 0) + EmptyFrom(inv, i + 1)
  }

  /** Each book goes into the first empty output slot, or to the player when
      there is none. So, for books that are not AIR, the first books fill the
      empty output slots one each and exactly the rest go to the player; and
      whatever the books are, each ends up in the window or with the player. */
  method PlaceBooks(inv: Slots, books: seq<Stack>) returns (slots: Slots, toPlayer: seq<Stack>)
    requires |inv| == SIZE
    ensures |slots| == SIZE
    ensures BooksOnly(inv, slots, books)
    ensures forall k :: 0 <= k < |toPlayer| ==> toPlayer[k] in books
    ensures NoAir(books) ==> toPlayer == BooksBeyond(books, EmptyFrom(inv, RIGHT_START))
    ensures NoAir(books) ==>
              EmptyFrom(slots, RIGHT_START) == EmptyFrom(inv, RIGHT_START) - Min(|books|, EmptyFrom(inv, RIGHT_START))
    ensures Balanced(inv, slots, toPlayer, books)
    ensures NoAir(books) ==> BooksFirst(inv, slots)
  {
    slots := inv;
    toPlayer := [];
    var e0 := EmptyFrom(inv, RIGHT_START);
    var k := 0;
    while k < |books|
      invariant 0 <= k <= |books|
      invariant |slots| == SIZE
      invariant BooksOnly(inv, slots, books)
      invariant forall n :: 0 <= n < |toPlayer| ==> toPlayer[n] in books
      invariant NoAir(books) ==> Split(slots, toPlayer, books, k, e0)
      invariant Balanced(inv, slots, toPlayer, books[..k])
      invariant NoAir(books) ==> BooksFirst(inv, slots)
    {
      var b := PlaceBook(slots, books[k]);
      var given := if b.placed then [] else [books[k]];
      PlaceBookFrame(inv, slots, toPlayer, books, k, given);
      PlaceBookStep(inv, slots, toPlayer, books, k, given);
      if NoAir(books) {
        PlaceBookSplit(slots, toPlayer, books, k, e0);
        PlaceBookFirst(inv, slots, books[k]);
      }
      slots := b.slots;
      toPlayer := toPlayer + given;
      k := k + 1;
    }
    assert books[..k] == books;
    assert NoAir(books) ==> books[Min(k, e0)..k] == BooksBeyond(books, e0);
  }

  /** The output slots from `RIGHT_START` up to, not including, `j` are occupied. */
  predicate OccupiedBefore(slots: Slots, j: int)
    requires |slots| == SIZE && j <= SIZE
  {
    forall i :: RIGHT_START <= i < j ==> !IsEmptySlot(slots[i])
  }

  /** Every slot that changed was the first empty output slot when it was
      used: all output slots before it are occupied. */
  predicate BooksFirst(before: Slots, after: Slots)
    requires |before| == SIZE && |after| == SIZE
  {
    forall j :: 0 <= j < SIZE && after[j] != before[j] ==> OccupiedBefore(after, j)
  }

  /** Placing a book that is not AIR keeps the books first fit. */
  lemma PlaceBookFirst(inv: Slots, slots: Slots, book: Stack)
    requires |inv| == SIZE && |slots| == SIZE && book.mat != AIR
    requires BooksFirst(inv, slots)
    ensures BooksFirst(inv, PlaceBook(slots, book).slots)
  {
    var b := PlaceBook(slots, book);
    if b.placed {
      var k := FirstEmptyOutput(slots, RIGHT_START).value;
      forall j | 0 <= j < SIZE && b.slots[j] != inv[j]
        ensures OccupiedBefore(b.slots, j)
      {
        if j != k {
          assert b.slots[j] == slots[j];
        }
      }
    }
  }

  /** What the window gained in each material other than AIR, plus what the
      player received, is what `added` holds of it. */
  ghost predicate Balanced(inv: Slots, slots: Slots, toPlayer: seq<Stack>, added: seq<Stack>)
  {
    forall x :: x != AIR ==> CountOf(slots, x) + AmountOf(toPlayer, x) == CountOf(inv, x) + AmountOf(added, x)
  }

  /** After `k` books: those beyond the first `e0` went to the player, and the
      placed ones used up that many of the `e0` empty output slots. */
  predicate Split(slots: Slots, toPlayer: seq<Stack>, books: seq<Stack>, k: int, e0: nat)
    requires |slots| == SIZE && 0 <= k <= |books|
  {
    toPlayer == books[Min(k, e0)..k] && EmptyFrom(slots, RIGHT_START) == e0 - Min(k, e0)
  }

  /** The books that remain once `e` empty slots have taken one each. */
  function BooksBeyond(books: seq<Stack>, e: nat): (r: seq<Stack>)
    ensures |r| == |books| - Min(|books|, e)
    ensures forall k :: 0 <= k < |r| ==> r[k] == books[e + k]
  {
    if e < |books| then books[e..] else []
  }

  /** One book placed changes only an empty output slot, to that book, and
      hands over nothing but that book. */
  lemma PlaceBookFrame(inv: Slots, slots: Slots, toPlayer: seq<Stack>, books: seq<Stack>, k: int, given: seq<Stack>)
    requires |inv| == SIZE && |slots| == SIZE && 0 <= k < |books|
    requires given == if PlaceBook(slots, books[k]).placed then [] else [books[k]]
    requires BooksOnly(inv, slots, books)
    requires forall n :: 0 <= n < |toPlayer| ==> toPlayer[n] in books
    ensures BooksOnly(inv, PlaceBook(slots, books[k]).slots, books)
    ensures forall n :: 0 <= n < |toPlayer + given| ==> (toPlayer + given)[n] in books
  {
  }

  /** One book placed keeps the window and the player in balance with the
      books handled so far. */
  lemma PlaceBookStep(inv: Slots, slots: Slots, toPlayer: seq<Stack>, books: seq<Stack>, k: int, given: seq<Stack>)
    requires |inv| == SIZE && |slots| == SIZE && 0 <= k < |books|
    requires given == if PlaceBook(slots, books[k]).placed then [] else [books[k]]
    requires Balanced(inv, slots, toPlayer, books[..k])
    ensures Balanced(inv, PlaceBook(slots, books[k]).slots, toPlayer + given, books[..k + 1])
  {
    var b := PlaceBook(slots, books[k]);
    assert books[..k + 1] == books[..k] + [books[k]];
    forall x | x != AIR
      ensures CountOf(b.slots, x) + AmountOf(toPlayer + given, x) == CountOf(inv, x) + AmountOf(books[..k + 1], x)
    {
      AmountOfAppend(toPlayer, given, x);
      AmountOfAppend(books[..k], [books[k]], x);
      AmountOfOne(books[k], x);
      if b.placed {
        PlaceCount(slots, FirstEmptyOutput(slots, RIGHT_START).value, books[k], x);
      }
    }
  }

  /** The amount of `x` in a one-stack list. */
  lemma AmountOfOne(s: Stack, x: Material)
    ensures AmountOf([s], x) == (if s.mat == x then s.amount else 0)
  {
    assert [s][..0] == [];
  }

  /** Putting a stack into an empty slot adds its amount to its material's count. */
  lemma PlaceCount(slots: Slots, j: int, s: Stack, x: Material)
    requires 0 <= j < |slots| && IsEmptySlot(slots[j]) && x != AIR
    ensures CountOf(slots[j := Some(s)], x) == CountOf(slots, x) + (if s.mat == x then s.amount else 0)
  {
    CountUpdate(slots, j, Some(s), x);
    assert [slots[j]][..0] == [] && [Some(s)][..0] == [];
  }

  /** One book placed moves the split between placed and handed-over books
      on by one. */
  lemma PlaceBookSplit(slots: Slots, toPlayer: seq<Stack>, books: seq<Stack>, k: int, e0: nat)
    requires |slots| == SIZE && 0 <= k < |books| && NoAir(books)
    requires Split(slots, toPlayer, books, k, e0)
    ensures Split(PlaceBook(slots, books[k]).slots,
                  toPlayer + (if PlaceBook(slots, books[k]).placed then [] else [books[k]]), books, k + 1, e0)
  {
    EmptyFromFirst(slots, RIGHT_START, Some(books[k]));
    var e := EmptyFrom(slots, RIGHT_START);
    if e > 0 {
      var j := FirstEmptyOutput(slots, RIGHT_START).value;
      assert PlaceBook(slots, books[k]) == BookPlacement(slots[j := Some(books[k])], true);
      SplitPlaced(slots[j := Some(books[k])], toPlayer, books, k, e0);
    } else {
      assert PlaceBook(slots, books[k]) == BookPlacement(slots, false);
      SplitGiven(slots, toPlayer, books, k, e0);
    }
  }

  /** A book that went into an empty slot: one empty slot fewer, nobody else served. */
  lemma SplitPlaced(slots': Slots, toPlayer: seq<Stack>, books: seq<Stack>, k: int, e0: nat)
    requires |slots'| == SIZE && 0 <= k < |books|
    requires toPlayer == books[Min(k, e0)..k] && EmptyFrom(slots', RIGHT_START) + 1 == e0 - Min(k, e0)
    ensures Split(slots', toPlayer, books, k + 1, e0)
  {
  }

  /** A book that found no empty slot goes to the player after the earlier ones. */
  lemma SplitGiven(slots: Slots, toPlayer: seq<Stack>, books: seq<Stack>, k: int, e0: nat)
    requires |slots| == SIZE && 0 <= k < |books|
    requires toPlayer == books[Min(k, e0)..k] && EmptyFrom(slots, RIGHT_START) == 0 == e0 - Min(k, e0)
    ensures Split(slots, toPlayer + [books[k]], books, k + 1, e0)
  {
    assert books[e0..k] + [books[k]] == books[e0..k + 1];
  }

  /** There is a first empty output slot exactly when some output slot is
      empty, and filling it leaves one empty slot fewer. */
  lemma {:induction false} EmptyFromFirst(inv: Slots, i: int, x: Option<Stack>)
    requires |inv| == SIZE && RIGHT_START <= i <= RIGHT_END + 1
    ensures FirstEmptyOutput(inv, i).None? <==> EmptyFrom(inv, i) == 0
    ensures FirstEmptyOutput(inv, i).Some? && !IsEmptySlot(x) ==>
              EmptyFrom(inv[FirstEmptyOutput(inv, i).value := x], i) == EmptyFrom(inv, i) - 1
    decreases RIGHT_END + 1 - i
  {
    if i <= RIGHT_END {
      EmptyFromFirst(inv, i + 1, x);
      if IsEmptySlot(inv[i]) {
        EmptyFromSame(inv, inv[i := x], i + 1);
      } else if FirstEmptyOutput(inv, i + 1).Some? {
        var j := FirstEmptyOutput(inv, i + 1).value;
        assert inv[j := x][i] == inv[i];
      }
    }
  }

  /** The empty slots from `i` on depend only on the slots from `i` on. */
  lemma {:induction false} EmptyFromSame(a: Slots, b: Slots, i: int)
    requires |a| == SIZE && |b| == SIZE && RIGHT_START <= i <= RIGHT_END + 1
    requires forall j :: i <= j <= RIGHT_END ==> a[j] == b[j]
    ensures EmptyFrom(a, i) == EmptyFrom(b, i)
    decreases RIGHT_END + 1 - i
  {
    if i <= RIGHT_END {
      EmptyFromSame(a, b, i + 1);
    }
  }

  /** `processSingleItem`. `draw` stands for the random number of the
      fallback. `deposited` is the window after the materials and `left` what
      of them did not fit; `books` are the enchanted books in the order they
      were placed and `slots` the final window. Both are filled first fit
      within the stack limits. Everything that does not fit is returned in
      `toPlayer` (the player's inventory and the world are not modelled). */
  method ProcessSingleItem(env: Env, inv: Slots, item: Stack, draw: nat)
    returns (outputs: map<Material, int>, deposited: Slots, left: seq<Stack>, books: seq<Stack>,
             slots: Slots, toPlayer: seq<Stack>)
    requires ValidEnv(env) && |inv| == SIZE
    ensures outputs == Outputs(Raw(env.book, env.rank, item),
                               GetDurabilityFactor(Some(item), env.probe(item)), draw)
    ensures |deposited| == SIZE && |slots| == SIZE
    ensures DepositedOnly(inv, deposited, outputs.Keys)
    ensures forall k :: 0 <= k < |left| ==> left[k].mat in outputs && left[k].amount > 0
    ensures forall x :: x != AIR ==>
              CountOf(deposited, x) + AmountOf(left, x) == CountOf(inv, x) + (if x in outputs then outputs[x] else 0)
    ensures !(env.enchantmentsEnabled && HasEnchants(item)) ==> books == [] && slots == deposited
    ensures env.enchantmentsEnabled && HasEnchants(item) ==>
              |books| == |ReturnedEnchantments(Some(item), env.maxLevel, env.enchantCfg)| &&
              (forall k :: 0 <= k < |books| ==> books[k] in BooksFor(env, item)) &&
              (forall b :: b in BooksFor(env, item) ==> b in books)
    ensures forall k :: 0 <= k < |books| ==> books[k].mat == ENCHANTED_BOOK && books[k].amount == 1
    ensures BooksOnly(deposited, slots, books)
    ensures toPlayer == left + BooksBeyond(books, EmptyFrom(deposited, RIGHT_START))
    ensures forall x :: x != AIR ==>
              CountOf(slots, x) + AmountOf(toPlayer, x) == CountOf(inv, x) + JobYield(env, item, draw, x)
    ensures SpilledWhenFull(deposited, left, env.maxStack)
    ensures HandedOverWithoutRoom(slots, toPlayer, env.maxStack)
    ensures FirstFit(inv, deposited, env.maxStack)
    ensures PlacedFirstFit(inv, slots, env.maxStack)
  {
    var raw := Raw(env.book, env.rank, item);
    var f := GetDurabilityFactor(Some(item), env.probe(item));
    outputs := Outputs(raw, f, draw);
    deposited, left := DepositAll(inv, outputs, env.maxStack);
    var more;
    books, slots, more := ReturnBooks(env, item, deposited);
    toPlayer := left + more;
    JobConserves(env, inv, item, draw, outputs, deposited, left, books, slots, more);
    HandOverNoRoom(env.maxStack, deposited, left, books, slots, more);
    JobFirstFit(env.maxStack, inv, deposited, books, slots);
  }

  /** First fit for the whole job: every slot that changed holds a stack
      within its material's limit, and no output slot before it could take
      that stack: each is full for its material, or, for an enchanted book
      (which is never merged), occupied. */
  predicate PlacedFirstFit(before: Slots, after: Slots, maxStack: Material -> int)
    requires |before| == SIZE && |after| == SIZE
  {
    forall j :: 0 <= j < SIZE && after[j] != before[j] ==>
      after[j].Some? && after[j].value.amount <= maxStack(after[j].value.mat) &&
      (after[j].value.mat != AIR ==> TakenBefore(after, j, after[j].value.mat, maxStack(after[j].value.mat)))
  }

  /** No output slot before `j` can take more of `m`. */
  predicate TakenBefore(slots: Slots, j: int, m: Material, max: int)
    requires |slots| == SIZE && j <= SIZE
  {
    forall i :: RIGHT_START <= i < j ==> Full(slots[i], m, max) || (m == ENCHANTED_BOOK && !IsEmptySlot(slots[i]))
  }

  /** The books fill only empty slots, which a material's full slots are
      not, so the materials stay first fit; and each book went into the first
      empty slot. */
  lemma JobFirstFit(maxStack: Material -> int, inv: Slots, deposited: Slots, books: seq<Stack>, slots: Slots)
    requires |inv| == SIZE && |deposited| == SIZE && |slots| == SIZE && forall x :: maxStack(x) >= 1
    requires FirstFit(inv, deposited, maxStack)
    requires BooksOnly(deposited, slots, books) && BooksFirst(deposited, slots)
    requires forall k :: 0 <= k < |books| ==> books[k].mat == ENCHANTED_BOOK && books[k].amount == 1
    ensures PlacedFirstFit(inv, slots, maxStack)
  {
    forall j | 0 <= j < SIZE && slots[j] != inv[j]
      ensures slots[j].Some? && slots[j].value.amount <= maxStack(slots[j].value.mat)
      ensures slots[j].value.mat != AIR ==> TakenBefore(slots, j, slots[j].value.mat, maxStack(slots[j].value.mat))
    {
      if slots[j] == deposited[j] {
        var m := slots[j].value.mat;
        if m != AIR {
          forall i | RIGHT_START <= i < j
            ensures Full(slots[i], m, maxStack(m))
          {
            assert Full(deposited[i], m, maxStack(m));
          }
        }
      }
    }
  }

  /** Nothing in `toPlayer` was handed over while the window had room for it. */
  predicate HandedOverWithoutRoom(slots: Slots, toPlayer: seq<Stack>, maxStack: Material -> int)
    requires |slots| == SIZE
  {
    forall n :: 0 <= n < |toPlayer| ==> NoRoomFor(slots, toPlayer[n], maxStack)
  }

  /** The window had no room for `t` when it was handed over: every output
      slot is full for its material, or, for an enchanted book (which is
      never merged), no output slot is empty. AIR is not constrained. */
  predicate NoRoomFor(slots: Slots, t: Stack, maxStack: Material -> int)
    requires |slots| == SIZE
  {
    t.mat == AIR || AllFull(slots, RIGHT_START, t.mat, maxStack(t.mat)) ||
    (t.mat == ENCHANTED_BOOK && forall j :: RIGHT_START <= j <= RIGHT_END ==> !IsEmptySlot(slots[j]))
  }

  /** A material that found every output slot full left no empty slot for a
      book, so the books change nothing and the slots stay full; and a book
      is handed over only when no output slot is empty. */
  lemma HandOverNoRoom(maxStack: Material -> int, deposited: Slots, left: seq<Stack>, books: seq<Stack>,
                       slots: Slots, more: seq<Stack>)
    requires |deposited| == SIZE && |slots| == SIZE
    requires SpilledWhenFull(deposited, left, maxStack)
    requires BooksOnly(deposited, slots, books)
    requires forall k :: 0 <= k < |more| ==> more[k].mat == ENCHANTED_BOOK
    requires |more| > 0 ==> forall j :: RIGHT_START <= j <= RIGHT_END ==> !IsEmptySlot(slots[j])
    ensures HandedOverWithoutRoom(slots, left + more, maxStack)
  {
  }

  /** The enchantment part of `processSingleItem`: when enchantment return is
      on and the item is enchanted, one book per returned enchantment, each
      placed into the window or handed to the player (`toPlayer`). */
  method ReturnBooks(env: Env, item: Stack, deposited: Slots) returns (books: seq<Stack>, slots: Slots, toPlayer: seq<Stack>)
    requires |deposited| == SIZE
    ensures |slots| == SIZE
    ensures !(env.enchantmentsEnabled && HasEnchants(item)) ==> books == [] && slots == deposited && toPlayer == []
    ensures env.enchantmentsEnabled && HasEnchants(item) ==>
              |books| == |ReturnedEnchantments(Some(item), env.maxLevel, env.enchantCfg)| &&
              (forall k :: 0 <= k < |books| ==> books[k] in BooksFor(env, item)) &&
              (forall b :: b in BooksFor(env, item) ==> b in books)
    ensures forall k :: 0 <= k < |books| ==> books[k].mat == ENCHANTED_BOOK && books[k].amount == 1
    ensures BooksOnly(deposited, slots, books)
    ensures toPlayer == BooksBeyond(books, EmptyFrom(deposited, RIGHT_START))
    ensures |toPlayer| > 0 ==> forall j :: RIGHT_START <= j <= RIGHT_END ==> !IsEmptySlot(slots[j])
    ensures Balanced(deposited, slots, toPlayer, books)
    ensures BooksFirst(deposited, slots)
  {
    books := [];
    slots := deposited;
    toPlayer := [];
    if env.enchantmentsEnabled && HasEnchants(item) {
      var returned := ReturnedEnchantments(Some(item), env.maxLevel, env.enchantCfg);
      var order;
      order, books := GenerateEnchantmentBooks(returned);
      BooksAreBooks(order, books, returned);
      BooksMatchReturned(env, item, order, books);
      slots, toPlayer := PlaceBooks(deposited, books);
      BooksOverflowFull(deposited, books, slots, toPlayer);
    } else {
      assert books[0..] == [];
    }
  }

  /** Books go to the player only once they outnumber the empty output
      slots, and then no output slot is left empty. */
  lemma BooksOverflowFull(deposited: Slots, books: seq<Stack>, slots: Slots, toPlayer: seq<Stack>)
    requires |deposited| == SIZE && |slots| == SIZE && NoAir(books)
    requires toPlayer == BooksBeyond(books, EmptyFrom(deposited, RIGHT_START))
    requires EmptyFrom(slots, RIGHT_START) ==
             EmptyFrom(deposited, RIGHT_START) - Min(|books|, EmptyFrom(deposited, RIGHT_START))
    ensures |toPlayer| > 0 ==> forall j :: RIGHT_START <= j <= RIGHT_END ==> !IsEmptySlot(slots[j])
  {
    EmptyFromFirst(slots, RIGHT_START, None);
  }

  /** The enchanted books an item gives back: one per returned enchantment. */
  ghost function BooksFor(env: Env, item: Stack): set<Stack>
  {
    var returned := ReturnedEnchantments(Some(item), env.maxLevel, env.enchantCfg);
    set e | e in returned :: Book(e, returned[e])
  }

  /** What one job yields of material `x`: its output quantity, plus one
      enchanted book per returned enchantment. */
  function JobYield(env: Env, item: Stack, draw: nat, x: Material): int
    requires ValidEnv(env)
  {
    var outputs := Outputs(Raw(env.book, env.rank, item), GetDurabilityFactor(Some(item), env.probe(item)), draw);
    (if x in outputs then outputs[x] else 0) +
    (if x == ENCHANTED_BOOK && env.enchantmentsEnabled && HasEnchants(item)
     then |ReturnedEnchantments(Some(item), env.maxLevel, env.enchantCfg)| else 0)
  }

  /** The books generated for the returned enchantments are exactly the
      books the item gives back, one per enchantment. */
  lemma BooksMatchReturned(env: Env, item: Stack, order: seq<Enchantment>, books: seq<Stack>)
    requires var returned := ReturnedEnchantments(Some(item), env.maxLevel, env.enchantCfg);
      |order| == |books| == |returned| &&
      (forall i :: 0 <= i < |order| ==> order[i] in returned && books[i] == Book(order[i], returned[order[i]])) &&
      (forall e :: e in returned ==> e in order)
    ensures forall k :: 0 <= k < |books| ==> books[k] in BooksFor(env, item)
    ensures forall b :: b in BooksFor(env, item) ==> b in books
  {
    var returned := ReturnedEnchantments(Some(item), env.maxLevel, env.enchantCfg);
    forall b | b in BooksFor(env, item)
      ensures b in books
    {
      var e :| e in returned && b == Book(e, returned[e]);
      var n :| 0 <= n < |order| && order[n] == e;
      assert books[n] == b;
    }
  }

  /** The books generated for a map are single enchanted books, one per entry. */
  lemma BooksAreBooks(order: seq<Enchantment>, books: seq<Stack>, returned: map<Enchantment, int>)
    requires |order| == |books|
    requires forall i :: 0 <= i < |order| ==> order[i] in returned && books[i] == Book(order[i], returned[order[i]])
    ensures forall k :: 0 <= k < |books| ==> books[k].mat == ENCHANTED_BOOK && books[k].amount == 1
  {
    forall k | 0 <= k < |books|
      ensures books[k].mat == ENCHANTED_BOOK && books[k].amount == 1
    {
      BookContents(order[k], returned[order[k]]);
    }
  }

  /** Single enchanted books add up to their number, in enchanted books only. */
  lemma {:induction false} AmountOfBooks(books: seq<Stack>, x: Material)
    requires forall k :: 0 <= k < |books| ==> books[k].mat == ENCHANTED_BOOK && books[k].amount == 1
    ensures AmountOf(books, x) == (if x == ENCHANTED_BOOK then |books| else 0)
    decreases |books|
  {
    if |books| > 0 {
      AmountOfBooks(books[..|books| - 1], x);
    }
  }

  /** The deposit and the book placement together conserve every material:
      the window and the player receive exactly what the job yields. */
  lemma JobConserves(env: Env, inv: Slots, item: Stack, draw: nat, outputs: map<Material, int>,
                     deposited: Slots, left: seq<Stack>, books: seq<Stack>, slots: Slots, more: seq<Stack>)
    requires ValidEnv(env)
    requires outputs == Outputs(Raw(env.book, env.rank, item),
                                GetDurabilityFactor(Some(item), env.probe(item)), draw)
    requires forall x :: x != AIR ==>
               CountOf(deposited, x) + AmountOf(left, x) ==
               CountOf(inv, x) + (if x in outputs then Max(0, outputs[x]) else 0)
    requires Balanced(deposited, slots, more, books)
    requires forall k :: 0 <= k < |books| ==> books[k].mat == ENCHANTED_BOOK && books[k].amount == 1
    requires env.enchantmentsEnabled && HasEnchants(item) ==>
               |books| == |ReturnedEnchantments(Some(item), env.maxLevel, env.enchantCfg)|
    requires !(env.enchantmentsEnabled && HasEnchants(item)) ==> books == []
    ensures forall x :: x != AIR ==>
              CountOf(deposited, x) + AmountOf(left, x) == CountOf(inv, x) + (if x in outputs then outputs[x] else 0)
    ensures forall x :: x != AIR ==>
              CountOf(slots, x) + AmountOf(left + more, x) == CountOf(inv, x) + JobYield(env, item, draw, x)
  {
    forall x | x != AIR
      ensures CountOf(slots, x) + AmountOf(left + more, x) == CountOf(inv, x) + JobYield(env, item, draw, x)
    {
      AmountOfAppend(left, more, x);
      AmountOfBooks(books, x);
    }
  }

  /* ---------------- properties ---------------- */

  /** The aggregation agrees with the per-material reference: a material is
      recorded exactly when its positive scaled amounts sum above zero, and
      then with that sum. */
  lemma {:induction false} AggregateMatches(raw: seq<Stack>, f: real, m: Material)
    ensures m in Aggregate(raw, f) <==> FlooredOf(raw, f, m) > 0
    ensures m in Aggregate(raw, f) ==> Aggregate(raw, f)[m] == FlooredOf(raw, f, m)
    decreases |raw|
  {
    if |raw| > 0 {
      AggregateMatches(raw[..|raw| - 1], f, m);
    }
  }

  /** With a factor in [0, 1] and no negative amounts, no material yields
      more than its decomposed total. */
  lemma {:induction false} FlooredAtMostAmount(raw: seq<Stack>, f: real, m: Material)
    requires 0.0 <= f <= 1.0
    requires forall k :: 0 <= k < |raw| ==> raw[k].amount >= 0
    ensures FlooredOf(raw, f, m) <= AmountOf(raw, m)
    decreases |raw|
  {
    if |raw| > 0 {
      var init := raw[..|raw| - 1];
      FlooredAtMostAmount(init, f, m);
      ScaledAtMost(raw[|raw| - 1].amount, f);
      assert FlooredOf(raw, f, m) <= FlooredOf(init, f, m) + (if raw[|raw| - 1].mat == m then raw[|raw| - 1].amount else 0);
    }
  }

  /** Scaling a non-negative amount by a factor in [0, 1] and flooring never
      yields more than the amount. */
  lemma ScaledAtMost(a: int, f: real)
    requires a >= 0 && 0.0 <= f <= 1.0
    ensures Scaled(a, f) <= a
  {
    assert a as real * f <= a as real by {
      assert 0.0 <= a as real;
    }
    assert Scaled(a, f) as real <= a as real * f;
  }

  /** At full durability nothing is lost: every material yields its positive total. */
  lemma {:induction false} FullDurabilityKeepsAll(raw: seq<Stack>, m: Material)
    requires forall k :: 0 <= k < |raw| ==> raw[k].amount >= 0
    ensures FlooredOf(raw, 1.0, m) == AmountOf(raw, m)
    decreases |raw|
  {
    if |raw| > 0 {
      FullDurabilityKeepsAll(raw[..|raw| - 1], m);
    }
  }

  /** A deposit only changes output slots from `i` on that were empty or
      held less than a full stack of `m`, and leaves each of them holding `m`
      within the stack limit. */
  lemma {:induction false} DepositFrame(inv: Slots, i: int, m: Material, rem: int, max: int)
    requires |inv| == SIZE && RIGHT_START <= i <= RIGHT_END + 1 && max >= 1
    ensures forall j :: 0 <= j < SIZE && DepositFrom(inv, i, m, rem, max).slots[j] != inv[j] ==>
              i <= j <= RIGHT_END && (IsEmptySlot(inv[j]) || (inv[j].value.mat == m && inv[j].value.amount < max)) &&
              Holds(DepositFrom(inv, i, m, rem, max).slots[j], m, max)
    decreases RIGHT_END + 1 - i
  {
    if i <= RIGHT_END && rem > 0 {
      var r := FillSlot(inv[i], m, rem, max);
      DepositFrame(inv[i := r.0], i + 1, m, rem - r.1, max);
    }
  }

  /** Every output slot from `i` on is full for `m`. */
  predicate AllFull(slots: Slots, i: int, m: Material, max: int)
    requires |slots| == SIZE && RIGHT_START <= i
  {
    forall j :: i <= j <= RIGHT_END ==> Full(slots[j], m, max)
  }

  /** When something is left over, every output slot from `i` on is full for `m`. */
  lemma {:induction false} DepositFull(inv: Slots, i: int, m: Material, rem: int, max: int)
    requires |inv| == SIZE && RIGHT_START <= i <= RIGHT_END + 1 && max >= 1 && m != AIR
    ensures DepositFrom(inv, i, m, rem, max).leftover > 0 ==> AllFull(DepositFrom(inv, i, m, rem, max).slots, i, m, max)
    decreases RIGHT_END + 1 - i
  {
    if i <= RIGHT_END && rem > 0 {
      var r := FillSlot(inv[i], m, rem, max);
      var inv' := inv[i := r.0];
      DepositFull(inv', i + 1, m, rem - r.1, max);
      var p := DepositFrom(inv', i + 1, m, rem - r.1, max);
      assert DepositFrom(inv, i, m, rem, max) == p;
      if p.leftover > 0 {
        assert rem - r.1 > 0;
        FillSlotCounts(inv[i], m, rem, max);
        DepositKeepsBefore(inv', i + 1, m, rem - r.1, max);
        assert p.slots[i] == r.0;
      }
    }
  }

  /** A deposit from slot `i` on leaves the slots before `i` alone. */
  lemma {:induction false} DepositKeepsBefore(inv: Slots, i: int, m: Material, rem: int, max: int)
    requires |inv| == SIZE && RIGHT_START <= i <= RIGHT_END + 1 && max >= 1
    ensures forall j :: 0 <= j < i ==> DepositFrom(inv, i, m, rem, max).slots[j] == inv[j]
    decreases RIGHT_END + 1 - i
  {
    if i <= RIGHT_END && rem > 0 {
      var r := FillSlot(inv[i], m, rem, max);
      DepositKeepsBefore(inv[i := r.0], i + 1, m, rem - r.1, max);
    }
  }

  /** The quantity a deposit places is the requested quantity or the room
      left, whichever is smaller: so something is left over exactly when the
      request exceeds the room. */
  lemma {:induction false} DepositPlacesMin(inv: Slots, i: int, m: Material, rem: int, max: int)
    requires |inv| == SIZE && RIGHT_START <= i <= RIGHT_END + 1 && max >= 1 && rem >= 0
    ensures rem - DepositFrom(inv, i, m, rem, max).leftover == Min(rem, Room(inv, i, m, max))
    decreases RIGHT_END + 1 - i
  {
    if i <= RIGHT_END && rem > 0 {
      var r := FillSlot(inv[i], m, rem, max);
      var inv' := inv[i := r.0];
      DepositPlacesMin(inv', i + 1, m, rem - r.1, max);
      RoomUnchanged(inv, inv', i + 1, m, max);
      assert DepositFrom(inv, i, m, rem, max) == DepositFrom(inv', i + 1, m, rem - r.1, max);
      assert Room(inv, i, m, max) == RoomIn(inv[i], m, max) + Room(inv', i + 1, m, max);
    }
  }

  /** Room from `i` on depends only on the slots from `i` on. */
  lemma {:induction false} RoomUnchanged(a: Slots, b: Slots, i: int, m: Material, max: int)
    requires |a| == SIZE && |b| == SIZE && RIGHT_START <= i <= RIGHT_END + 1
    requires forall j :: i <= j <= RIGHT_END ==> a[j] == b[j]
    ensures Room(a, i, m, max) == Room(b, i, m, max)
    decreases RIGHT_END + 1 - i
  {
    if i <= RIGHT_END {
      RoomUnchanged(a, b, i + 1, m, max);
    }
  }

  /** A deposit conserves the quantity: what it adds to the window's count of
      `m` is the request minus the leftover. */
  lemma {:induction false} DepositConserves(inv: Slots, i: int, m: Material, rem: int, max: int)
    requires |inv| == SIZE && RIGHT_START <= i <= RIGHT_END + 1 && max >= 1 && rem >= 0
    requires m != AIR
    ensures CountOf(DepositFrom(inv, i, m, rem, max).slots, m) == CountOf(inv, m) + rem - DepositFrom(inv, i, m, rem, max).leftover
    decreases RIGHT_END + 1 - i
  {
    if i <= RIGHT_END && rem > 0 {
      var r := FillSlot(inv[i], m, rem, max);
      CountUpdate(inv, i, r.0, m);
      FillSlotCounts(inv[i], m, rem, max);
      DepositConserves(inv[i := r.0], i + 1, m, rem - r.1, max);
    }
  }

  /** The count of `m` after replacing one slot. */
  lemma {:induction false} CountUpdate(s: Slots, j: int, x: Option<Stack>, m: Material)
    requires 0 <= j < |s|
    ensures CountOf(s[j := x], m) == CountOf(s, m) - CountOf([s[j]], m) + CountOf([x], m)
    decreases |s|
  {
    assert [s[j]][..0] == [] && [x][..0] == [];
    if j == |s| - 1 {
      assert s[j := x][..|s| - 1] == s[..|s| - 1];
    } else {
      assert s[j := x][..|s| - 1] == s[..|s| - 1][j := x];
      CountUpdate(s[..|s| - 1], j, x, m);
    }
  }
}

=== FILE: recipes.dfy ===
/** The recipe index and the recursive decomposition of an item into raw
    stacks (`RecipeManager`). Recipe discovery is abstracted: for every
    material the host supplies the list of recipes that produce it. */
module Recipes {
  import opened Wrappers
  import opened Items

  /** What the index stores per material: an ingredient list and a result amount. */
  datatype RecipeData = RecipeData(ingredients: seq<Stack>, resultAmount: int)

  /** The recipe kinds the indexer recognises, with the ingredient data it reads.
      `Shaped` carries the values of the ingredient map, which may be `null`;
      `ModernFurnace` is a blasting, smoking or campfire recipe whose input is
      read reflectively and may be missing. */
  datatype Recipe =
    | Shaped(ingredientMap: seq<Option<Stack>>)
    | Shapeless(ingredientList: seq<Stack>)
    | Furnace(input: Option<Stack>)
    | ModernFurnace(modernInput: Option<Stack>)
    | OtherRecipe

  /** The index together with the blacklist it was built against. */
  datatype RecipeBook = RecipeBook(recipes: map<Material, RecipeData>, blacklist: set<Material>)

  /** The non-null ingredients the indexer takes from one recipe. */
  function RecipeInputs(rec: Recipe): (r: seq<Stack>)
    ensures rec.Shaped? ==> forall k :: 0 <= k < |r| ==> Some(r[k]) in rec.ingredientMap
    ensures rec.Shaped? ==> |r| == |rec.ingredientMap| - CountNone(rec.ingredientMap)
    ensures rec.Shapeless? ==> r == rec.ingredientList
    ensures rec.Furnace? ==> r == (if rec.input.Some? then [rec.input.value] else [])
    ensures rec.ModernFurnace? ==> r == (if rec.modernInput.Some? then [rec.modernInput.value] else [])
    ensures rec.OtherRecipe? ==> r == []
  {
    match rec
    case Shaped(m) => Present(m)
    case Shapeless(l) => l
    case Furnace(i) => if i.Some? then [i.value] else []
    case ModernFurnace(i) => if i.Some? then [i.value] else []
    case OtherRecipe => []
  }

  function CountNone(s: seq<Option<Stack>>): nat
  {
    if |s| == 0 then 0 else CountNone(s[1..]) + (if s[0].None? then 1 else 0)
  }

  /** The present entries of a list of nullable stacks, in order. */
  function Present(s: seq<Option<Stack>>): (r: seq<Stack>)
    ensures |r| == |s| - CountNone(s)
    ensures forall k :: 0 <= k < |r| ==> Some(r[k]) in s
  {
    if |s| == 0 then []
    else (if s[0].Some? then [s[0].value] else []) + Present(s[1..])
  }

  /** The indexer keeps a shaped recipe's non-null entries in map order and
      drops the null ones: reading two parts of the map one after the other
      gives the inputs of the first followed by those of the second. */
  lemma {:induction false} ShapedInputsInOrder(a: seq<Option<Stack>>, b: seq<Option<Stack>>, x: Stack)
    ensures RecipeInputs(Shaped(a + b)) == RecipeInputs(Shaped(a)) + RecipeInputs(Shaped(b))
    ensures RecipeInputs(Shaped([Some(x)])) == [x]
    ensures RecipeInputs(Shaped([None])) == []
  {
    PresentAppend(a, b);
  }

  /** `Present` distributes over concatenation. */
  lemma {:induction false} PresentAppend(a: seq<Option<Stack>>, b: seq<Option<Stack>>)
    ensures Present(a + b) == Present(a) + Present(b)
    decreases |a|
  {
    if |a| == 0 {
      assert a + b == b;
    } else {
      assert (a + b)[1..] == a[1..] + b;
      PresentAppend(a[1..], b);
    }
  }

  /** The inputs of every found recipe, concatenated in recipe order. */
  function AllInputs(found: seq<Recipe>): seq<Stack>
  {
    if |found| == 0 then [] else RecipeInputs(found[0]) + AllInputs(found[1..])
  }

  /** The entry indexed for one material: all found inputs, or one unit of the
      material itself when nothing was found. */
  function IndexEntry(m: Material, found: seq<Recipe>): RecipeData
  {
    var ingredients := AllInputs(found);
    RecipeData(if |ingredients| == 0 then [Plain(m, 1)] else ingredients, 1)
  }

  /** `loadBlacklist`: each configured name is upper-cased and kept when it
      names a material; unknown names are skipped. Entries accumulate. */
  function LoadBlacklist(current: set<Material>, names: seq<string>, universe: set<Material>): (r: set<Material>)
    ensures current <= r
    ensures forall m :: m in r && m !in current ==> m in universe
    ensures forall k :: 0 <= k < |names| && Material(Upper(names[k])) in universe ==> Material(Upper(names[k])) in r
    ensures forall m :: m in r - current ==> exists k :: 0 <= k < |names| && m == Material(Upper(names[k]))
  {
    current + set k | 0 <= k < |names| && Material(Upper(names[k])) in universe :: Material(Upper(names[k]))
  }

  /** ASCII upper-casing, as `toUpperCase(Locale.ROOT)` does on enum-style names. */
  function Upper(s: string): (r: string)
    ensures |r| == |s|
    ensures forall k :: 0 <= k < |s| ==> r[k] == UpperChar(s[k])
  {
    if |s| == 0 then []
    else [UpperChar(s[0])] + Upper(s[1..])
  }

  /** One character upper-cased: `a`..`z` become `A`..`Z`, everything else is kept. */
  function UpperChar(c: char): char
  {
    if 'a' <= c <= 'z' then (c as int - 32) as char else c
  }

  /** `generateAllRecipes`: index every material of `universe` except AIR and the
      blacklisted ones, with the inputs of the recipes `recipesFor` finds. */
  function GenerateAllRecipes(universe: set<Material>, blacklist: set<Material>, recipesFor: Material -> seq<Recipe>): (book: RecipeBook)
    ensures book.blacklist == blacklist
    ensures forall m :: m in book.recipes <==> m in universe && m !in blacklist && m != AIR
    ensures forall m :: m in book.recipes ==>
      && |book.recipes[m].ingredients| > 0
      && book.recipes[m].resultAmount == 1
      && (if |AllInputs(recipesFor(m))| == 0
          then book.recipes[m].ingredients == [Plain(m, 1)]
          else book.recipes[m].ingredients == AllInputs(recipesFor(m)))
  {
    RecipeBook(map m | m in universe && m !in blacklist && m != AIR :: IndexEntry(m, recipesFor(m)), blacklist)
  }

  /** `isBlacklisted`. */
  predicate IsBlacklisted(book: RecipeBook, m: Material) { m in book.blacklist }

  /** `getRecipeFor`: no entry for blacklisted materials. */
  function GetRecipeFor(book: RecipeBook, m: Material): (r: Option<RecipeData>)
    ensures r.Some? <==> m in book.recipes && !IsBlacklisted(book, m)
    ensures r.Some? ==> r.value == book.recipes[m]
  {
    if m in book.blacklist then None
    else if m in book.recipes then Some(book.recipes[m])
    else None
  }

  /** Decomposition recurses into ingredient `ing` of `owner`'s recipe exactly
      when the ingredient has a recipe entry and is not `owner` itself. */
  predicate Follows(book: RecipeBook, owner: Material, ing: Stack)
  {
    GetRecipeFor(book, ing.mat).Some? && ing.mat != owner
  }

  /** `rank` strictly decreases along every ingredient edge decomposition
      follows. The source guards only direct self-reference, so without such a
      rank (an indirect cycle) `decomposeToRaw` does not terminate. */
  predicate Ranked(book: RecipeBook, rank: Material -> nat)
  {
    forall m, k :: m in book.recipes && 0 <= k < |book.recipes[m].ingredients|
      && Follows(book, m, book.recipes[m].ingredients[k])
      ==> rank(book.recipes[m].ingredients[k].mat) < rank(m)
  }

  /** Multiply every amount by `factor`, in order. */
  function Scale(s: seq<Stack>, factor: int): (r: seq<Stack>)
    ensures |r| == |s|
    ensures forall k :: 0 <= k < |s| ==> r[k] == s[k].(amount := s[k].amount * factor)
  {
    seq(|s|, k requires 0 <= k < |s| => s[k].(amount := s[k].amount * factor))
  }

  /* ---------------- reference decomposition (no cache) ---------------- */

  /** What `decomposeToRaw` computes for `item` when no cache is involved. */
  function Raw(book: RecipeBook, rank: Material -> nat, item: Stack): seq<Stack>
    requires Ranked(book, rank)
    decreases rank(item.mat), 1, 0
  {
    if item.mat == AIR then []
    else if IsBlacklisted(book, item.mat) then [item]
    else if GetRecipeFor(book, item.mat).None? then [item]
    else Expand(book, rank, item.mat, 0)
  }

  /** The contribution of `owner`'s ingredients from position `from` on. */
  function Expand(book: RecipeBook, rank: Material -> nat, owner: Material, from: nat): seq<Stack>
    requires Ranked(book, rank)
    requires owner in book.recipes && from <= |book.recipes[owner].ingredients|
    decreases rank(owner), 0, |book.recipes[owner].ingredients| - from
  {
    var ings := book.recipes[owner].ingredients;
    if from == |ings| then []
    else
      var ing := ings[from];
      var head :=
        if IsBlacklisted(book, ing.mat) then [ing]
        else if Follows(book, owner, ing) then Scale(Raw(book, rank, ing), ing.amount)
        else [ing];
      head + Expand(book, rank, owner, from + 1)
  }

  /* ---------------- decomposition as written, with its cache ---------------- */

  /** Decomposition results memoised per material. */
  type Cache = map<Material, seq<Stack>>

  /** A decomposition result together with the cache after computing it. */
  datatype Decomposition = Decomposition(stacks: seq<Stack>, cache: Cache)

  /** Every entry of `c` is still present, unchanged, in `c'`. */
  predicate CacheExtends(c: Cache, c': Cache)
  {
    forall m :: m in c ==> m in c' && c'[m] == c[m]
  }

  /** `decomposeToRaw(item)` with a null item. */
  function DecomposeToRaw(book: RecipeBook, rank: Material -> nat, cache: Cache, item: Option<Stack>): (d: Decomposition)
    requires Ranked(book, rank)
    ensures item.None? ==> d == Decomposition([], cache)
    ensures CacheExtends(cache, d.cache)
  {
    if item.None? then Decomposition([], cache) else Decompose(book, rank, cache, item.value)
  }

  /** `decomposeToRaw(item)` for a non-null item: AIR, blacklist, cache, recipe
      lookup, then the ingredient walk; the result is cached after the walk. */
  function Decompose(book: RecipeBook, rank: Material -> nat, cache: Cache, item: Stack): (d: Decomposition)
    requires Ranked(book, rank)
    ensures CacheExtends(cache, d.cache)
    ensures item.mat != AIR && !IsBlacklisted(book, item.mat) && item.mat in cache ==> d == Decomposition(cache[item.mat], cache)
    ensures item.mat != AIR && !IsBlacklisted(book, item.mat) ==> item.mat in d.cache && d.cache[item.mat] == d.stacks
    decreases rank(item.mat), 1, 0
  {
    if item.mat == AIR then Decomposition([], cache)
    else if IsBlacklisted(book, item.mat) then Decomposition([item], cache)
    else if item.mat in cache then Decomposition(cache[item.mat], cache)
    else if GetRecipeFor(book, item.mat).None? then Decomposition([item], cache[item.mat := [item]])
    else
      var e := ExpandCached(book, rank, cache, item.mat, 0);
      Decomposition(e.stacks, e.cache[item.mat := e.stacks])
  }

  /** The ingredient loop of `decomposeToRaw`, threading the cache left to right. */
  function ExpandCached(book: RecipeBook, rank: Material -> nat, cache: Cache, owner: Material, from: nat): (d: Decomposition)
    requires Ranked(book, rank)
    requires owner in book.recipes && from <= |book.recipes[owner].ingredients|
    ensures CacheExtends(cache, d.cache)
    decreases rank(owner), 0, |book.recipes[owner].ingredients| - from
  {
    var ings := book.recipes[owner].ingredients;
    if from == |ings| then Decomposition([], cache)
    else
      var ing := ings[from];
      if IsBlacklisted(book, ing.mat) then
        var rest := ExpandCached(book, rank, cache, owner, from + 1);
        Decomposition([ing] + rest.stacks, rest.cache)
      else if Follows(book, owner, ing) then
        var sub := Decompose(book, rank, cache, ing);
        var rest := ExpandCached(book, rank, sub.cache, owner, from + 1);
        Decomposition(Scale(sub.stacks, ing.amount) + rest.stacks, rest.cache)
      else
        var rest := ExpandCached(book, rank, cache, owner, from + 1);
        Decomposition([ing] + rest.stacks, rest.cache)
  }

  /** Every cached entry of an indexed, non-blacklisted material is what a
      fresh decomposition of that material yields. */
  predicate Consistent(book: RecipeBook, rank: Material -> nat, cache: Cache)
    requires Ranked(book, rank)
  {
    forall m :: m in cache && m in book.recipes && m !in book.blacklist && m != AIR ==>
      cache[m] == Expand(book, rank, m, 0)
  }

  /* ---------------- properties ---------------- */

  /** With a consistent cache, the memoised decomposition returns exactly the
      fresh decomposition and leaves the cache consistent; a material without an
      index entry agrees as long as it is not already cached. */
  lemma {:induction false} DecomposeAgrees(book: RecipeBook, rank: Material -> nat, cache: Cache, item: Stack)
    requires Ranked(book, rank) && Consistent(book, rank, cache)
    requires item.mat in book.recipes || item.mat !in cache
    ensures Decompose(book, rank, cache, item).stacks == Raw(book, rank, item)
    ensures Consistent(book, rank, Decompose(book, rank, cache, item).cache)
    decreases rank(item.mat), 1, 0
  {
    if item.mat == AIR || IsBlacklisted(book, item.mat) {
    } else if item.mat in cache {
    } else if GetRecipeFor(book, item.mat).None? {
    } else {
      ExpandAgrees(book, rank, cache, item.mat, 0);
    }
  }

  lemma {:induction false} ExpandAgrees(book: RecipeBook, rank: Material -> nat, cache: Cache, owner: Material, from: nat)
    requires Ranked(book, rank) && Consistent(book, rank, cache)
    requires owner in book.recipes && from <= |book.recipes[owner].ingredients|
    ensures ExpandCached(book, rank, cache, owner, from).stacks == Expand(book, rank, owner, from)
    ensures Consistent(book, rank, ExpandCached(book, rank, cache, owner, from).cache)
    decreases rank(owner), 0, |book.recipes[owner].ingredients| - from
  {
    var ings := book.recipes[owner].ingredients;
    if from < |ings| {
      var ing := ings[from];
      if IsBlacklisted(book, ing.mat) {
        ExpandAgrees(book, rank, cache, owner, from + 1);
      } else if Follows(book, owner, ing) {
        assert rank(ing.mat) < rank(owner);
        DecomposeAgrees(book, rank, cache, ing);
        var sub := Decompose(book, rank, cache, ing);
        ExpandAgrees(book, rank, sub.cache, owner, from + 1);
      } else {
        ExpandAgrees(book, rank, cache, owner, from + 1);
      }
    }
  }

  /** In a book built by `GenerateAllRecipes`, every non-AIR, non-blacklisted
      material of the universe is indexed, so the memoised decomposition of any
      item always equals the fresh one. */
  lemma IndexedBookAgrees(universe: set<Material>, blacklist: set<Material>, recipesFor: Material -> seq<Recipe>,
                          rank: Material -> nat, cache: Cache, item: Stack)
    requires Ranked(GenerateAllRecipes(universe, blacklist, recipesFor), rank)
    requires Consistent(GenerateAllRecipes(universe, blacklist, recipesFor), rank, cache)
    requires item.mat in universe
    ensures Decompose(GenerateAllRecipes(universe, blacklist, recipesFor), rank, cache, item).stacks
         == Raw(GenerateAllRecipes(universe, blacklist, recipesFor), rank, item)
  {
    var book := GenerateAllRecipes(universe, blacklist, recipesFor);
    if item.mat in book.recipes || item.mat !in cache {
      DecomposeAgrees(book, rank, cache, item);
    }
  }

  /** A material is a decomposition stop: blacklisted, without an entry, or one
      whose own entry lists it as an ingredient. */
  predicate Stop(book: RecipeBook, m: Material)
  {
    m in book.blacklist || m !in book.recipes
    || exists k :: 0 <= k < |book.recipes[m].ingredients| && book.recipes[m].ingredients[k].mat == m
  }

  /** Every stack the decomposition yields is of a stop material. */
  lemma {:induction false} RawYieldsStops(book: RecipeBook, rank: Material -> nat, item: Stack)
    requires Ranked(book, rank)
    ensures forall k :: 0 <= k < |Raw(book, rank, item)| ==> Stop(book, Raw(book, rank, item)[k].mat)
    decreases rank(item.mat), 1, 0
  {
    if item.mat != AIR && !IsBlacklisted(book, item.mat) && GetRecipeFor(book, item.mat).Some? {
      ExpandYieldsStops(book, rank, item.mat, 0);
    }
  }

  lemma {:induction false} ExpandYieldsStops(book: RecipeBook, rank: Material -> nat, owner: Material, from: nat)
    requires Ranked(book, rank)
    requires owner in book.recipes && from <= |book.recipes[owner].ingredients|
    ensures forall k :: 0 <= k < |Expand(book, rank, owner, from)| ==> Stop(book, Expand(book, rank, owner, from)[k].mat)
    decreases rank(owner), 0, |book.recipes[owner].ingredients| - from
  {
    var ings := book.recipes[owner].ingredients;
    if from < |ings| {
      var ing := ings[from];
      ExpandYieldsStops(book, rank, owner, from + 1);
      if !IsBlacklisted(book, ing.mat) && Follows(book, owner, ing) {
        assert rank(ing.mat) < rank(owner);
        RawYieldsStops(book, rank, ing);
      } else if !IsBlacklisted(book, ing.mat) && ing.mat in book.recipes {
        assert ing.mat == owner;
        assert book.recipes[ing.mat].ingredients[from].mat == ing.mat;
      }
    }
  }

  /** Every amount in the index is positive. */
  predicate PositiveAmounts(book: RecipeBook)
  {
    forall m, k :: m in book.recipes && 0 <= k < |book.recipes[m].ingredients| ==> book.recipes[m].ingredients[k].amount > 0
  }

  /** Positive amounts in, positive amounts out: a decomposition never yields an
      empty or negative stack. */
  lemma {:induction false} RawPositive(book: RecipeBook, rank: Material -> nat, item: Stack)
    requires Ranked(book, rank) && PositiveAmounts(book) && item.amount > 0
    ensures forall k :: 0 <= k < |Raw(book, rank, item)| ==> Raw(book, rank, item)[k].amount > 0
    decreases rank(item.mat), 1, 0
  {
    if item.mat != AIR && !IsBlacklisted(book, item.mat) && GetRecipeFor(book, item.mat).Some? {
      ExpandPositive(book, rank, item.mat, 0);
    }
  }

  lemma {:induction false} ExpandPositive(book: RecipeBook, rank: Material -> nat, owner: Material, from: nat)
    requires Ranked(book, rank) && PositiveAmounts(book)
    requires owner in book.recipes && from <= |book.recipes[owner].ingredients|
    ensures forall k :: 0 <= k < |Expand(book, rank, owner, from)| ==> Expand(book, rank, owner, from)[k].amount > 0
    decreases rank(owner), 0, |book.recipes[owner].ingredients| - from
  {
    var ings := book.recipes[owner].ingredients;
    if from < |ings| {
      var ing := ings[from];
      assert ing.amount > 0;
      ExpandPositive(book, rank, owner, from + 1);
      if !IsBlacklisted(book, ing.mat) && Follows(book, owner, ing) {
        RawPositive(book, rank, ing);
        var sub := Raw(book, rank, ing);
        assert forall k :: 0 <= k < |sub| ==> sub[k].amount * ing.amount > 0 by {
          forall k | 0 <= k < |sub| ensures sub[k].amount * ing.amount > 0 {
            PositiveProduct(sub[k].amount, ing.amount);
          }
        }
      }
    }
  }

  lemma PositiveProduct(a: int, b: int)
    requires a > 0 && b > 0
    ensures a * b > 0
  {
  }

  /** The cases that end without recursion: AIR gives nothing, a blacklisted
      item gives one copy of itself (amount unchanged, cache untouched), and an
      item without an index entry gives itself and is cached as such. */
  lemma TerminalCases(book: RecipeBook, rank: Material -> nat, cache: Cache, item: Stack)
    requires Ranked(book, rank)
    ensures item.mat == AIR ==> Raw(book, rank, item) == [] && Decompose(book, rank, cache, item) == Decomposition([], cache)
    ensures item.mat != AIR && IsBlacklisted(book, item.mat) ==>
              Raw(book, rank, item) == [item] && Decompose(book, rank, cache, item) == Decomposition([item], cache)
    ensures item.mat != AIR && !IsBlacklisted(book, item.mat) && item.mat !in book.recipes ==>
              Raw(book, rank, item) == [item] &&
              (item.mat !in cache ==> Decompose(book, rank, cache, item) == Decomposition([item], cache[item.mat := [item]]))
  {
  }

  /** For an indexed material the result does not depend on the input amount or
      metadata, which is what lets the cache key on the material alone. */
  lemma RawDependsOnMaterialOnly(book: RecipeBook, rank: Material -> nat, a: Stack, b: Stack)
    requires Ranked(book, rank)
    requires a.mat == b.mat && GetRecipeFor(book, a.mat).Some?
    ensures Raw(book, rank, a) == Raw(book, rank, b)
  {
  }

  /** An item whose entry is its own self-recipe decomposes to one unit of itself,
      whatever its amount. */
  lemma SelfRecipeYieldsUnit(book: RecipeBook, rank: Material -> nat, item: Stack)
    requires Ranked(book, rank)
    requires item.mat != AIR && !IsBlacklisted(book, item.mat)
    requires item.mat in book.recipes && book.recipes[item.mat].ingredients == [Plain(item.mat, 1)]
    ensures Raw(book, rank, item) == [Plain(item.mat, 1)]
  {
    assert Expand(book, rank, item.mat, 1) == [];
  }

  /** When no ingredient of a recipe is followed (all blacklisted, without an
      entry, or self-references) the decomposition is the ingredient list itself. */
  lemma {:induction false} ShallowRecipeYieldsIngredients(book: RecipeBook, rank: Material -> nat, owner: Material, from: nat)
    requires Ranked(book, rank)
    requires owner in book.recipes && from <= |book.recipes[owner].ingredients|
    requires forall k :: from <= k < |book.recipes[owner].ingredients| ==> !Follows(book, owner, book.recipes[owner].ingredients[k])
    ensures Expand(book, rank, owner, from) == book.recipes[owner].ingredients[from..]
    decreases |book.recipes[owner].ingredients| - from
  {
    var ings := book.recipes[owner].ingredients;
    if from < |ings| {
      ShallowRecipeYieldsIngredients(book, rank, owner, from + 1);
      assert ings[from..] == [ings[from]] + ings[from + 1..];
    }
  }

  /** An indirect cycle A -> B -> A between two indexed, non-blacklisted
      materials admits no rank: the source recurses without bound there. */
  lemma IndirectCycleUnranked(book: RecipeBook, rank: Material -> nat, a: Material, b: Material, i: nat, j: nat)
    requires a != b && a in book.recipes && b in book.recipes
    requires a !in book.blacklist && b !in book.blacklist
    requires i < |book.recipes[a].ingredients| && book.recipes[a].ingredients[i].mat == b
    requires j < |book.recipes[b].ingredients| && book.recipes[b].ingredients[j].mat == a
    ensures !Ranked(book, rank)
  {
    assert Follows(book, a, book.recipes[a].ingredients[i]);
    assert Follows(book, b, book.recipes[b].ingredients[j]);
    assert Ranked(book, rank) ==> rank(b) < rank(a);
    assert Ranked(book, rank) ==> rank(a) < rank(b);
  }
}

=== FILE: registry.dfy ===
/** The live sessions by owner (`SessionManager`). */
module Registry {
  import opened Wrappers
  import opened Items
  import opened Session

  type Sessions = map<Uuid, Session>

  /** `registerSession(id, s)`: `s` becomes the owner's session, replacing
      any earlier one. */
  function RegisterSession(reg: Sessions, id: Uuid, s: Session): (r: Sessions)
    ensures r.Keys == reg.Keys + {id}
    ensures id in r && r[id] == s
    ensures forall o :: o in reg && o != id ==> r[o] == reg[o]
  {
    reg[id := s]
  }

  /** `getSession(id)`: `None` for an owner without a session. */
  function GetSession(reg: Sessions, id: Uuid): (r: Option<Session>)
    ensures r.Some? <==> id in reg
    ensures r.Some? ==> r.value == reg[id]
  {
    if id in reg then Some(reg[id]) else None
  }

  /** `getAllSessions()`: a copy of the registry. Being a value, the copy is
      unaffected by any later registration. */
  function GetAllSessions(reg: Sessions): (snap: Sessions)
    ensures snap.Keys == reg.Keys
    ensures forall o :: o in reg ==> snap[o] == reg[o]
  {
    map o | o in reg :: reg[o]
  }

  /* ---------------- properties ---------------- */

  /** A registered session is found again, and a second registration for
      the same owner replaces the first. */
  lemma RegisterThenGet(reg: Sessions, id: Uuid, s: Session, s': Session)
    ensures GetSession(RegisterSession(reg, id, s), id) == Some(s)
    ensures GetSession(RegisterSession(RegisterSession(reg, id, s), id, s'), id) == Some(s')
    ensures RegisterSession(RegisterSession(reg, id, s), id, s') == RegisterSession(reg, id, s')
  {
  }

  /** Registering one owner leaves every other owner's lookup as it was. */
  lemma RegisterLeavesOthers(reg: Sessions, id: Uuid, s: Session, other: Uuid)
    requires other != id
    ensures GetSession(RegisterSession(reg, id, s), other) == GetSession(reg, other)
  {
  }

  /** A snapshot taken before a registration still shows the old sessions,
      while the registry moves on. */
  lemma SnapshotIsDetached(reg: Sessions, id: Uuid, s: Session)
    ensures var snap := GetAllSessions(reg);
            var reg' := RegisterSession(reg, id, s);
            snap == reg && (id !in reg ==> id !in snap && id in reg')
  {
  }
}

=== FILE: session.dfy ===
/** One owner's recycling job (`RecycleSession`): the inputs exploded into
    unit jobs, a state machine that polls one job at a time and gives it a
    tick budget, and the timer body that counts the budget down in steps of
    20 ticks. The scheduler is not modelled: each timer run is a step the
    caller applies, and the session keeps every timer that was started. */
module Session {
  import opened Wrappers
  import opened Items
  import opened JavaMath
  import opened Recipes
  import opened Complexity
  import opened Processing
  import opened Gui

  /** One unit copy of a stack (`clone()` then `setAmount(1)`). */
  function Unit(s: Stack): Stack { s.(amount := 1) }

  /** `max(1, amount)` unit copies of a stack. */
  function Copies(s: Stack): (q: seq<Stack>)
    ensures |q| == Max(1, s.amount)
    ensures forall k :: 0 <= k < |q| ==> q[k] == s.(amount := 1)
  {
    seq(Max(1, s.amount), _ => Unit(s))
  }

  /** The number of unit jobs the inputs yield. */
  function Units(inputs: seq<Stack>): nat
  {
    if |inputs| == 0 then 0 else Units(inputs[..|inputs| - 1]) + Max(1, inputs[|inputs| - 1].amount)
  }

  /** The constructor's loop: every input becomes `max(1, amount)` unit
      copies, in input order. */
  function Explode(inputs: seq<Stack>): (q: seq<Stack>)
    ensures |q| == Units(inputs)
    ensures forall k :: 0 <= k < |q| ==> q[k].amount == 1
  {
    if |inputs| == 0 then [] else Explode(inputs[..|inputs| - 1]) + Copies(inputs[|inputs| - 1])
  }

  /** A started timer: the job it processes, its duration in seconds (fixed
      when it starts) and the ticks it still has to count down. */
  datatype Timer = Timer(current: Stack, seconds: int, remaining: int)

  /** The session's fields, the timers started so far and the window the
      outputs go to. */
  datatype Session = Session(
    owner: Uuid,
    queue: seq<Stack>,
    active: bool,
    timeLeftTicks: int,
    complexity: int,
    progress: real,
    timers: seq<Timer>,
    window: Slots)

  /** A timer counts down from `20 * seconds` in steps of 20; it is only
      below zero when it started there. */
  predicate TimerOk(t: Timer)
  {
    t.remaining <= 20 * t.seconds && t.remaining % 20 == 0 &&
    (t.remaining < 0 ==> t.remaining == 20 * t.seconds)
  }

  /** The state every session keeps between steps. */
  predicate Valid(s: Session)
  {
    |s.window| == SIZE && 0.0 <= s.progress <= 1.0 && 1 <= s.complexity <= 250 &&
    forall k :: 0 <= k < |s.timers| ==> TimerOk(s.timers[k])
  }

  /** `new RecycleSession(owner, inputs, inventory)`. */
  function NewSession(owner: Uuid, inputs: seq<Stack>, window: Slots): (s: Session)
    requires |window| == SIZE
    ensures Valid(s) && !s.active && s.timers == []
    ensures |s.queue| == Units(inputs)
    ensures forall k :: 0 <= k < |s.queue| ==> s.queue[k].amount == 1
    ensures s.queue == Explode(inputs) && s.owner == owner && s.window == window
    ensures s.timeLeftTicks == 0 && s.complexity == 1 && s.progress == 0.0
  {
    Session(owner, Explode(inputs), false, 0, 1, 0.0, [], window)
  }

  /** `serializeItems`: the jobs still queued. */
  function SerializeItems(s: Session): seq<Stack> { s.queue }

  /** What a session saves is its inputs, one unit job each, until a job is
      started; from then on the job under way is no longer saved. */
  lemma SavedItems(owner: Uuid, inputs: seq<Stack>, window: Slots, s: Session, env: Env)
    requires ValidEnv(env) && |window| == SIZE
    ensures SerializeItems(NewSession(owner, inputs, window)) == Explode(inputs)
    ensures |s.queue| > 0 ==> SerializeItems(StartTask(s, env)) == SerializeItems(s)[1..]
    ensures |s.queue| > 0 ==> StartTask(s, env).timers[|s.timers|].current == SerializeItems(s)[0]
  {
  }

  /** The duration of a job: `ceil(mapScoreToSeconds(c) / speed)`. */
  function Seconds(speed: real, c: int): int
    requires speed != 0.0
  {
    Ceil(MapScoreToSeconds(c) as real / speed)
  }

  /** `finish()`: inactive, no time left, progress complete. */
  function Finish(s: Session): (r: Session)
    ensures !r.active && r.timeLeftTicks == 0 && r.progress == 1.0
    ensures Valid(s) ==> Valid(r)
    ensures r.queue == s.queue && r.timers == s.timers && r.window == s.window
  {
    s.(active := false, timeLeftTicks := 0, progress := 1.0)
  }

  /** `startTask`: finish on an empty queue; otherwise poll the next job,
      score it, and start a timer with budget `20 * seconds`. */
  function StartTask(s: Session, env: Env): (r: Session)
    requires ValidEnv(env)
    ensures Valid(s) ==> Valid(r)
    ensures |s.queue| == 0 ==> r == Finish(s)
    ensures |s.queue| > 0 ==>
              r.queue == s.queue[1..] && r.active && r.progress == 0.0 && r.window == s.window &&
              |r.timers| == |s.timers| + 1 && r.timers[..|s.timers|] == s.timers &&
              r.timers[|s.timers|].current == s.queue[0] &&
              r.timers[|s.timers|].remaining == r.timeLeftTicks == 20 * r.timers[|s.timers|].seconds
    ensures |s.queue| > 0 ==>
              r.complexity == Max(1, Min(250, CalculateComplexity(env.tables, env.book, env.rank, s.queue[0]))) &&
              r.timers[|s.timers|].seconds == Seconds(env.speed, r.complexity)
  {
    if |s.queue| == 0 then Finish(s)
    else
      var current := s.queue[0];
      var c := Max(1, Min(250, CalculateComplexity(env.tables, env.book, env.rank, current)));
      var secs := Seconds(env.speed, c);
      var t := Timer(current, secs, secs * 20);
      assert TimerOk(t);
      assert (s.timers + [t])[..|s.timers|] == s.timers;
      s.(queue := s.queue[1..], active := true, complexity := c, timeLeftTicks := secs * 20,
         progress := 0.0, timers := s.timers + [t])
  }

  /** `start(plugin)`. */
  function Start(s: Session, env: Env): (r: Session)
    requires ValidEnv(env)
    ensures Valid(s) ==> Valid(r)
    ensures |s.queue| == 0 ==> !r.active && r.progress == 1.0
    ensures |s.queue| > 0 ==> r.active && r.queue == s.queue[1..]
  {
    StartTask(s, env)
  }

  /** `resumeTask`: nothing unless the session is active with time left;
      then `startTask` again, which polls the next job and starts a second
      timer while the first keeps running. */
  function Resume(s: Session, env: Env): (r: Session)
    requires ValidEnv(env)
    ensures Valid(s) ==> Valid(r)
    ensures !s.active || s.timeLeftTicks <= 0 ==> r == s
    ensures s.active && s.timeLeftTicks > 0 && |s.queue| > 0 ==>
              r.queue == s.queue[1..] && |r.timers| == |s.timers| + 1
  {
    if !s.active || s.timeLeftTicks <= 0 then s else StartTask(s, env)
  }

  /** What one run of a timer does to the timer. */
  datatype TimerStep = Done | Ticked(timer: Timer, progress: real)

  /** The timer body: completion when nothing remains, otherwise 20 ticks
      fewer and progress `1 - remaining / (20 * seconds)`. */
  function TimerRun(t: Timer): (r: TimerStep)
    requires TimerOk(t)
    ensures r.Done? <==> t.remaining <= 0
    ensures r.Ticked? ==> r.timer == t.(remaining := t.remaining - 20) && TimerOk(r.timer)
    ensures r.Ticked? ==> 0.0 <= r.progress <= 1.0
  {
    if t.remaining <= 0 then Done
    else
      var rem := t.remaining - 20;
      assert 0 <= rem < 20 * t.seconds;
      Ticked(t.(remaining := rem), 1.0 - rem as real / (20 * t.seconds) as real)
  }

  /** The timers without the one at index `k` (`this.cancel()`). */
  function Without(ts: seq<Timer>, k: nat): (r: seq<Timer>)
    requires k < |ts|
    ensures |r| == |ts| - 1
    ensures forall j :: 0 <= j < |r| ==> r[j] == (if j < k then ts[j] else ts[j + 1])
  {
    ts[..k] + ts[k + 1..]
  }

  /** A run of timer `k` that does not complete: the timer counts down 20
      ticks and the session's time left and progress follow it. */
  function Advance(s: Session, k: nat): (r: Session)
    requires Valid(s) && k < |s.timers| && s.timers[k].remaining > 0
    ensures Valid(r)
    ensures r.queue == s.queue && r.window == s.window && r.active == s.active
    ensures |r.timers| == |s.timers| && r.timers[k].remaining == s.timers[k].remaining - 20
    ensures r.timeLeftTicks == r.timers[k].remaining
    ensures forall j :: 0 <= j < |s.timers| && j != k ==> r.timers[j] == s.timers[j]
  {
    var t' := TimerRun(s.timers[k]).timer;
    s.(timers := s.timers[k := t'], timeLeftTicks := t'.remaining, progress := TimerRun(s.timers[k]).progress)
  }

  /** A run of timer `k` that completes, once its job has been processed
      into `window`: the timer is cancelled, and the next job is started or
      the session finishes. */
  function Complete(s: Session, k: nat, env: Env, window: Slots): (r: Session)
    requires ValidEnv(env) && Valid(s) && k < |s.timers| && |window| == SIZE
    ensures Valid(r) && r.window == window
    ensures |s.queue| == 0 ==> !r.active && r.progress == 1.0 && r.timers == Without(s.timers, k)
    ensures |s.queue| > 0 ==> r.active && r.queue == s.queue[1..] && |r.timers| == |s.timers|
  {
    StartTask(s.(timers := Without(s.timers, k), active := false, window := window), env)
  }

  /** Processing changes output slots only. */
  lemma OutputsOnly(a: Slots, b: Slots, c: Slots, mats: set<Material>, books: seq<Stack>)
    requires |a| == SIZE && |b| == SIZE && |c| == SIZE
    requires DepositedOnly(a, b, mats) && BooksOnly(b, c, books)
    ensures forall j :: 0 <= j < SIZE && !IsOutputSlot(j) ==> c[j] == a[j]
  {
  }

  /** One run of timer `k`: a tick while budget remains; otherwise the job
      is processed into the window (`draw` stands for the fallback's random
      number) and the run completes: the window and the player (`toPlayer`,
      what did not fit) together receive exactly what the job yields, the
      window is filled first fit within the stack limits, and nothing goes
      to the player while the window has room for it. */
  method RunTimer(s: Session, k: nat, env: Env, draw: nat) returns (r: Session, toPlayer: seq<Stack>)
    requires ValidEnv(env) && Valid(s) && k < |s.timers|
    ensures Valid(r)
    ensures s.timers[k].remaining > 0 ==> r == Advance(s, k) && toPlayer == []
    ensures s.timers[k].remaining <= 0 ==> |r.timers| == |s.timers| - (if |s.queue| == 0 then 1 else 0)
    ensures s.timers[k].remaining <= 0 && |s.queue| > 0 ==> r.queue == s.queue[1..]
    ensures forall j :: 0 <= j < SIZE && !IsOutputSlot(j) ==> r.window[j] == s.window[j]
    ensures s.timers[k].remaining <= 0 ==> forall x :: x != AIR ==>
              CountOf(r.window, x) + AmountOf(toPlayer, x) ==
              CountOf(s.window, x) + JobYield(env, s.timers[k].current, draw, x)
    ensures s.timers[k].remaining <= 0 ==> HandedOverWithoutRoom(r.window, toPlayer, env.maxStack)
    ensures s.timers[k].remaining <= 0 ==> PlacedFirstFit(s.window, r.window, env.maxStack)
  {
    if s.timers[k].remaining > 0 {
      r := Advance(s, k);
      toPlayer := [];
    } else {
      var outputs, deposited, left, books, window;
      outputs, deposited, left, books, window, toPlayer := ProcessSingleItem(env, s.window, s.timers[k].current, draw);
      OutputsOnly(s.window, deposited, window, outputs.Keys, books);
      r := Complete(s, k, env, window);
    }
  }

  /** `n` runs of a timer, or `None` when one of them completes. */
  function RunN(t: Timer, n: nat): Option<Timer>
    requires TimerOk(t)
    decreases n
  {
    if n == 0 then Some(t)
    else match TimerRun(t)
      case Done => None
      case Ticked(t', _) => RunN(t', n - 1)
  }

  /* ---------------- properties ---------------- */

  /** Exploding is compatible with concatenation, so the queue keeps the
      order of the inputs. */
  lemma {:induction false} ExplodeAppend(a: seq<Stack>, b: seq<Stack>)
    ensures Explode(a + b) == Explode(a) + Explode(b)
    decreases |b|
  {
    if |b| == 0 {
      assert a + b == a;
    } else {
      assert (a + b)[..|a + b| - 1] == a + b[..|b| - 1];
      ExplodeAppend(a, b[..|b| - 1]);
    }
  }

  /** One input yields `max(1, amount)` copies that differ from it only in
      their amount of 1. */
  lemma ExplodeOne(s: Stack)
    ensures |Explode([s])| == Max(1, s.amount)
    ensures forall k :: 0 <= k < |Explode([s])| ==> Similar(Explode([s])[k], s) && Explode([s])[k].amount == 1
  {
    assert [s][..0] == [];
  }

  /** A timer that has been ticked `n` times without completing has counted
      down `20 * n` ticks. */
  lemma {:induction false} CountDown(t: Timer, n: nat)
    requires TimerOk(t) && 20 * n <= t.remaining
    ensures RunN(t, n) == Some(t.(remaining := t.remaining - 20 * n))
    decreases n
  {
    if n > 0 {
      var t' := t.(remaining := t.remaining - 20);
      assert TimerRun(t) == Ticked(t', 1.0 - t'.remaining as real / (20 * t.seconds) as real);
      CountDown(t', n - 1);
    }
  }

  /** A timer started for `seconds >= 0` runs exactly `seconds` times
      without completing, and completes on the next run. */
  lemma CompletesAfterSeconds(c: Stack, seconds: int)
    requires seconds >= 0
    ensures TimerOk(Timer(c, seconds, 20 * seconds))
    ensures RunN(Timer(c, seconds, 20 * seconds), seconds) == Some(Timer(c, seconds, 0))
    ensures TimerRun(Timer(c, seconds, 0)).Done?
  {
    CountDown(Timer(c, seconds, 20 * seconds), seconds);
  }

  /** A timer started with a non-positive budget completes on its first run. */
  lemma CompletesAtOnce(c: Stack, seconds: int)
    requires seconds <= 0
    ensures TimerOk(Timer(c, seconds, 20 * seconds)) && TimerRun(Timer(c, seconds, 20 * seconds)).Done?
  {
  }

  /** The `n`-th run of a timer started for `seconds` reports progress
      `n / seconds`, which grows with `n`. */
  lemma ProgressOfRun(c: Stack, seconds: int, n: nat)
    requires 1 <= n <= seconds
    ensures TimerOk(Timer(c, seconds, 20 * (seconds - n + 1)))
    ensures TimerRun(Timer(c, seconds, 20 * (seconds - n + 1))).Ticked?
    ensures TimerRun(Timer(c, seconds, 20 * (seconds - n + 1))).progress == n as real / seconds as real
  {
    var rem := 20 * (seconds - n);
    assert rem as real / (20 * seconds) as real == (seconds - n) as real / seconds as real;
  }

  /** Progress never decreases from one run to the next. */
  lemma ProgressMonotone(c: Stack, seconds: int, n: nat)
    requires 1 <= n < seconds
    ensures TimerRun(Timer(c, seconds, 20 * (seconds - n + 1))).progress <=
            TimerRun(Timer(c, seconds, 20 * (seconds - n))).progress
  {
    ProgressOfRun(c, seconds, n);
    ProgressOfRun(c, seconds, n + 1);
  }

  /** A positive speed gives every job at least one second; at speed 1 the
      duration is the mapped score itself. */
  lemma SecondsPositive(speed: real, c: int)
    requires speed > 0.0 && 1 <= c <= 250
    ensures Seconds(speed, c) >= 1
    ensures speed == 1.0 ==> Seconds(speed, c) == MapScoreToSeconds(c)
  {
    SecondsInRange(c);
    var x := MapScoreToSeconds(c) as real;
    assert x / speed > 0.0;
    assert Ceil(x / speed) as real >= x / speed;
    if speed == 1.0 {
      assert x / speed == x;
    }
  }

  /** How long a started job takes: at a positive speed its timer is set to at
      least one second, ticks exactly that many times and completes on the
      next run; at speed 1 the seconds are the mapped score itself. */
  lemma JobDuration(s: Session, env: Env)
    requires ValidEnv(env) && env.speed > 0.0 && |s.queue| > 0
    ensures var t := StartTask(s, env).timers[|s.timers|];
      t.seconds >= 1 && t.remaining == 20 * t.seconds &&
      RunN(t, t.seconds) == Some(t.(remaining := 0)) && TimerRun(t.(remaining := 0)).Done?
    ensures env.speed == 1.0 ==>
      StartTask(s, env).timers[|s.timers|].seconds == MapScoreToSeconds(StartTask(s, env).complexity)
  {
    var r := StartTask(s, env);
    var t := r.timers[|s.timers|];
    SecondsPositive(env.speed, r.complexity);
    CompletesAfterSeconds(t.current, t.seconds);
    assert t == Timer(t.current, t.seconds, 20 * t.seconds);
  }

  /** Starting a session whose queue is empty finishes it at once. */
  lemma StartEmptyFinishes(owner: Uuid, window: Slots, env: Env)
    requires |window| == SIZE && ValidEnv(env)
    ensures var r := Start(NewSession(owner, [], window), env);
      !r.active && r.timeLeftTicks == 0 && r.progress == 1.0 && r.timers == []
  {
  }

  /** Resuming an active session with time left and jobs queued polls the
      next job although the running timer has not completed: two timers run. */
  lemma ResumeStartsSecondTimer(s: Session, env: Env)
    requires ValidEnv(env) && s.active && s.timeLeftTicks > 0 && |s.queue| > 0 && |s.timers| == 1
    ensures |Resume(s, env).timers| == 2 && Resume(s, env).timers[0] == s.timers[0]
  {
    assert StartTask(s, env).timers[..1] == s.timers;
  }
}

=== FILE: tableitem.dfy ===
/** The recycling-table item (`RecyclingTableItem`): a crafting table named
    "Recycling Table" in gold, recognised by its type and display name alone. */
module TableItem {
  import opened Wrappers
  import opened Items

  /** The gold colour code followed by the name. */
  const DISPLAY_NAME: string := "\U{00A7}6Recycling Table"

  /** The four lore lines: two grey hints, a yellow one and an aqua one. */
  const LORE: seq<string> := [
    "\U{00A7}7Right-click to open the Recycling Table GUI",
    "\U{00A7}7Place items on the left; results appear on the right",
    "\U{00A7}ePress Recycle to start processing",
    "\U{00A7}bPlace this block to make it permanent"
  ]

  /** `isRecyclingTable(item)`: a crafting table whose metadata carries
      exactly the display name; a missing item, another type, missing
      metadata or a missing name all fail. */
  predicate IsRecyclingTable(i: Option<Stack>)
  {
    i.Some? && i.value.mat == CRAFTING_TABLE && i.value.meta.Some? &&
    i.value.meta.value.displayName == Some(DISPLAY_NAME)
  }

  /** `createItem()`: one crafting table with the name and the four lore lines. */
  function CreateItem(): (i: Stack)
    ensures i.mat == CRAFTING_TABLE && i.amount == 1
    ensures i.meta.Some? && i.meta.value.lore == LORE && |i.meta.value.lore| == 4
    ensures IsRecyclingTable(Some(i))
    ensures !HasEnchants(i)
  {
    Stack(CRAFTING_TABLE, 1, Some(Meta(Some(DISPLAY_NAME), LORE, map[], map[])))
  }

  /** The item `giveTo(player, amount)` hands over: the created item with the
      requested amount. */
  function GiveTo(amount: int): (i: Stack)
    ensures i.amount == amount
    ensures Similar(i, CreateItem()) && IsRecyclingTable(Some(i))
  {
    CreateItem().(amount := amount)
  }

  /* ---------------- properties ---------------- */

  /** Each way an item fails recognition, and the one way it passes. */
  lemma RecognitionRule(i: Option<Stack>)
    ensures i.None? ==> !IsRecyclingTable(i)
    ensures i.Some? && i.value.mat != CRAFTING_TABLE ==> !IsRecyclingTable(i)
    ensures i.Some? && i.value.meta.None? ==> !IsRecyclingTable(i)
    ensures i.Some? && i.value.meta.Some? && i.value.meta.value.displayName.None? ==> !IsRecyclingTable(i)
    ensures IsRecyclingTable(i) <==>
              i.Some? && i.value.mat == CreateItem().mat &&
              i.value.meta.Some? && i.value.meta.value.displayName == CreateItem().meta.value.displayName
  {
  }

  /** Recognition depends on the type and the display name only: amount,
      lore and enchantments do not matter. */
  lemma RecognitionIgnoresRest(a: Stack, b: Stack)
    requires a.mat == b.mat
    requires a.meta.Some? <==> b.meta.Some?
    requires a.meta.Some? ==> a.meta.value.displayName == b.meta.value.displayName
    ensures IsRecyclingTable(Some(a)) <==> IsRecyclingTable(Some(b))
  {
  }

  /** A recognised item differs from the created one at most in amount,
      lore and enchantments. */
  lemma RecognisedLooksCreated(i: Stack)
    requires IsRecyclingTable(Some(i))
    ensures i.mat == CreateItem().mat
    ensures i.meta.value.displayName == CreateItem().meta.value.displayName
    ensures i.meta.value == CreateItem().meta.value.(lore := i.meta.value.lore, enchants := i.meta.value.enchants,
                                                     stored := i.meta.value.stored)
  {
  }
}

=== FILE: wrappers.dfy ===
/** Optional values and fallible results, standing in for Java's `null` and exceptions. */
module Wrappers {

  /** A value that may be absent (a nullable reference in the source). */
  datatype Option<+T> = None | Some(value: T) {

    /** The wrapped value, or `default` when absent (`Map.getOrDefault`). */
    function GetOr(default: T): T {
      match this
      case Some(v) => v
      case None => default
    }
  }

  /** The outcome of an operation that may throw. */
  datatype Result<+T, +E> = Ok(value: T) | Err(error: E)
}
